=== FILE: README.md ===
# sampara core, modelled in Dafny

This project models the integer and index logic at the heart of the Rust
audio crate sampara and proves it correct against naive reference
definitions.

**Ring buffer (`Ring`).** `Fixed` is a fixed-capacity ring buffer: a
physical buffer plus a head index, whose logical contents are
`buf[head..] + buf[..head]`. The model covers:

- `push_with_flag` and `push`;
- lookup by logical index, plain and wrapped;
- `fill` and `fill_with`;
- the double-ended iterator.

**Comparison policy (`Policy`).** `surpasses` decides whether a newcomer
replaces an incumbent extremum. It is modelled over `Option<Ordering>`, so
that incomparable values are covered. It comes with a left-fold reference
reduction and with the "latest best" marker used by the extrema tracker.

**Moving extrema (`Extrema`, `MovingExtrema`).** This is the sliding-window
minimum/maximum tracker. Each channel keeps:

- a frontier `(value, position)`, where position 0 is the oldest frame of
  the window;
- an optional horizon, stored as an offset from the frame after the
  frontier.

`push` grows the window and `push_pop` slides it, with the promotion rescan
modelled. Every case is proved to keep the per-channel invariant against
the window's reduction. The invariant is then lifted to N channels and to
the calculator `ExtremaInner`: `from`, `from_empty`, `fill`, `fill_with`,
`reset`, `advance`, `current` and `process`.

**Buffered extrema (`Buffered`).** This wrapper collects frames until the
ring buffer's head wraps, then becomes an active calculation.

**Moving summage (`Summage`).** These are the moving mean, mean square and
RMS, which keep a running sum over the stored, optionally squared, window.

**Cumulative statistics (`Cumulative`).** These are the running
minimum/maximum and the running mean, mean square and RMS, each with a
frame count.

**Phase (`Phase`).**

- `simplify`: gcd reduction of a `(to_add + 1, to_rem + 1)` ratio, including
  the branch that avoids u32 overflow when one side is `u32::MAX`.
- `Rational::{new, advance_count}`, with the debug-mode overflow assertion
  modelled as an error.

**Interpolant (`Interpolant`).** This is the index arithmetic of
`ResampleRational::step`.

**Sample conversions (`Conv`).** These are the integer-to-integer sample
conversions, as functions of the source and target bit widths.

**Signals (`Signal`, `Adaptors`).** A signal is modelled as the finite
sequence of frames it still has to yield. This covers:

- the provided methods of the signal trait: `sig_next`, `advance_by`, `nth`;
- the adaptors `Delay`, `Take`, `Pad` and `StepBy`;
- the lockstep adaptors `AddSignal` and `Combine`;
- `Process` and `ProcessLazy`.

**Dynamic frame (`Dynamic`).** This is the heap-allocated frame's `resize`,
`resize_with`, `truncate`, `get` and `len`.

**Modelling choices.**

- Samples of the tracker and of the cumulative extrema are `int`. The
  const-generic `MAX` flag becomes a `max: bool` parameter.
- Summage samples are exact `real`s, so that averages and squares can be
  stated exactly.
- Panics become `Result` failures:
  - the empty-buffer assertion;
  - `StepBy::new(_, 0)`;
  - `get_wrapped` on zero capacity;
  - cumulative `current` before the first frame;
  - the `advance_count` debug assertion.
- The assertion in `set_horizon_init` is instead a precondition, which every
  caller is proved to meet.
- Closures passed to `fill_with` and `resize_with` are functions
  `nat -> T`, indexed by call number.
- Stateful processors and combinators are functions from state and input to
  new state and output.

Where the prose documentation and the code differ, the model follows the
code. The buffered wrapper's `__reset_inner` keeps the frames already
stored in the ring buffer and only moves the head back to 0. It does not
clear them. Every later frame overwrites one of them before the window
becomes active again, so this cannot be observed.

## Model

| member | source | states |
|---|---|---|
| Policy.SurpassesBy | src/stats/mod.rs:47-56 | an incomparable pair never surpasses; in max mode Greater or Equal surpasses, in min mode Less or Equal; Equal always does |
| Policy.Surpasses | src/stats/mod.rs:47-56 | on comparable values, max mode surpasses exactly when candidate >= target, min mode exactly when candidate <= target |
| Policy.SurpassesSample | src/stats/mod.rs:47-50 | with NaN on either side nothing surpasses; on numbers it agrees with `Surpasses` |
| Policy.SurpassesReflexive | src/stats/mod.rs:54 | every comparable value surpasses itself, so an equal newcomer replaces the incumbent |
| Policy.SurpassesTotal | src/stats/mod.rs:51-55 | of two integers one always surpasses the other, and both do exactly when they are equal |
| Policy.Reduce | src/stats/moving.rs:1568-1584 | the reference reduction is an element of the sequence that surpasses every element |
| Policy.ReduceUnique | src/stats/moving.rs:1568-1584 | any element that surpasses all others is the reduction |
| Policy.LatestBestIsReduce | src/stats/moving.rs:372-377 | a latest-best marker over the whole window holds the reduction's value |
| Policy.Scout | src/stats/moving.rs:412-440 | the rescan finds a latest-best marker exactly when the scanned frames are non-empty |
| Ring.FromOffset | src/buffer/fixed.rs:308-315 | the head is `head mod len`, or 0 for an empty buffer; logical slot i is physical slot `(head + i) mod len` |
| Ring.Capacity | src/buffer/fixed.rs:118-120 | the capacity is the number of logical elements |
| Ring.IntoBuffer | src/buffer/fixed.rs:388-391 | the raw storage has capacity many slots, and logical element i sits in slot `(head + i) mod capacity` |
| Ring.From | src/buffer/fixed.rs:481-483 | the head is 0 and the logical contents are the buffer itself |
| Ring.ContentsAt | src/buffer/fixed.rs:393-396 | logical index i reads physical slot `(head + i) mod capacity` |
| Ring.PushWithFlag | src/buffer/fixed.rs:122-141 | zero capacity returns the item with flag true and changes nothing; otherwise the oldest item is popped, the new one becomes newest, the head advances modulo capacity, and the flag is true exactly when the head wraps to 0 |
| Ring.OverwriteHead | src/buffer/fixed.rs:128-139 | overwriting the head slot and advancing drops the oldest frame and appends the new one to the logical contents |
| Ring.Push | src/buffer/fixed.rs:159-162 | the popped item is the logical oldest and the new contents are the rest followed by the item; capacity never changes |
| Ring.Lookup | src/buffer/fixed.rs:164-175 | there is a slot exactly when the capacity is positive and either wrapping is on or the index is in range; that slot holds the logical element at `index mod C` |
| Ring.Get | src/buffer/fixed.rs:194-197 | Some exactly when the index is below capacity, and then the logical element at that index |
| Ring.GetWrapped | src/buffer/fixed.rs:248-251 | fails exactly on zero capacity; otherwise it agrees with `get(index mod capacity)` |
| Ring.Fill | src/buffer/fixed.rs:75-78 | every slot holds the item, the head is 0 and the capacity is unchanged |
| Ring.FillWith | src/buffer/fixed.rs:99-105 | slot i holds the closure's i-th result, in physical order, with the head at 0 |
| Ring.MakeIter | src/buffer/fixed.rs:421-428 | the iterator's remaining items are the logical contents and its length is the capacity |
| Ring.Next | src/buffer/fixed.rs:517-519 | an exhausted iterator yields None; otherwise the first remaining item, taken from the front part and then from the back part |
| Ring.NextBack | src/buffer/fixed.rs:534-537 | yields the last remaining item, taken from the back part and then from the front part |
| Ring.CollectIsRemaining | src/buffer/fixed.rs:514-530 | forward iteration yields exactly the remaining items in order |
| Ring.CollectBackIsReverse | src/buffer/fixed.rs:532-537 | backward iteration yields exactly the remaining items in reverse |
| Ring.IterIsLogicalOrder | src/buffer/fixed.rs:393-428 | iterating a buffer yields its logical contents forwards, and their reverse backwards |
| Ring.IterCollectsBothWays | src/buffer/fixed.rs:577-586 | the unit test's buffer `[4, 5, 6, 1, 2, 3]` with head 3 collects as 1 to 6 forwards and 6 to 1 backwards |
| Ring.IterMeetsInTheMiddle | src/buffer/fixed.rs:588-603 | the unit test's alternating front and back traversal yields 1, 6, 2, 5, 3, 4 with 6, 4, 2 and then 0 items left, and then yields None from both ends |
| Extrema.SetFrontier | src/stats/moving.rs:183-197 | the frontier becomes the value at the cursor and the horizon is cleared |
| Extrema.SetHorizon | src/stats/moving.rs:199-210 | the horizon becomes the value at the cursor, stored as an offset from the frame after the frontier |
| Extrema.SetHorizonInit | src/stats/moving.rs:212-227 | like `set_horizon`; when the offset must be zero, the precondition makes the frontier the frame just before the cursor |
| Extrema.Genesis | src/stats/moving.rs:478-490 | a one-frame window's frontier is that frame, with no horizon; the invariant holds in both modes |
| Extrema.PushChannel | src/stats/moving.rs:243-303 | a surpassing value becomes the frontier; otherwise a missing horizon is initialised; the diff reports which case happened and is never Promoted |
| Extrema.PushPopChannel | src/stats/moving.rs:305-472 | the eight cases of the sliding step: a surpassing value takes the frontier; an evicted frontier promotes the horizon and rescans after it; otherwise positions shift by one |
| Extrema.PushPreserves | src/stats/moving.rs:243-303 | `push` keeps the frontier/horizon invariant for the window extended by the new value |
| Extrema.PushPopPreserves | src/stats/moving.rs:305-472 | `push_pop` keeps the invariant for the window with the oldest frame dropped and the new one appended |
| Extrema.PushPopToFrontier | src/stats/moving.rs:379-382 | the invariant holds whenever the new value takes the frontier: it surpasses the frontier, or the frontier is evicted and the new value surpasses the horizon or there is none |
| Extrema.PushPopPromotes | src/stats/moving.rs:398-447 | the invariant holds after promotion: the horizon becomes the frontier and the rescan picks the new horizon |
| Extrema.PushPopKeepsFrontier | src/stats/moving.rs:383-397 | the invariant holds when the frontier stays, whether the horizon is kept, replaced or initialised |
| MovingExtrema.StateFrom | src/stats/moving.rs:478-490 | the tracker built from one frame satisfies the invariant for that one-frame window |
| MovingExtrema.Push | src/stats/moving.rs:243-303 | every channel is pushed independently and the cursor advances by one |
| MovingExtrema.PushPop | src/stats/moving.rs:305-322 | every channel slides independently and the cursor stays where it was |
| MovingExtrema.PushGrows | src/stats/moving.rs:243-303 | across all channels, `push` keeps the invariant for the extended window |
| MovingExtrema.PushPopSlides | src/stats/moving.rs:305-472 | across all channels, `push_pop` keeps the invariant for the slid window |
| MovingExtrema.Build | src/stats/moving.rs:520-537 | building from a non-empty buffer by `from` and then `push` yields a tracker whose invariant holds for the whole buffer |
| MovingExtrema.Current | src/stats/moving.rs:612-618 | one value per channel; `CurrentIsReduce` shows it is the channel's extremum over the window |
| MovingExtrema.CurrentIsReduce | src/stats/moving.rs:612-618 | `current` reads each channel's extremum over the ring buffer's logical contents |
| MovingExtrema.From | src/stats/moving.rs:520-537 | an empty buffer fails; otherwise the window is the buffer and the calculator is valid |
| MovingExtrema.FromEmpty | src/stats/moving.rs:540-551 | an empty buffer fails; otherwise every slot holds equilibrium and `current` is equilibrium |
| MovingExtrema.Len | src/stats/moving.rs:553-556 | the length is the number of frames in the window |
| MovingExtrema.Fill | src/stats/moving.rs:563-574 | every slot holds the value, the calculator is valid and `current` is that value |
| MovingExtrema.Reset | src/stats/moving.rs:557-561 | every slot holds equilibrium and `current` is equilibrium |
| MovingExtrema.FillWith | src/stats/moving.rs:577-604 | slot i holds the closure's i-th frame and the calculator is valid |
| MovingExtrema.Advance | src/stats/moving.rs:606-610 | the window drops its oldest frame and appends the input; the calculator stays valid |
| MovingExtrema.Process | src/stats/moving.rs:620-623 | advances, then reads each channel's extremum over the new window |
| MovingExtrema.AdvanceAllWindow | src/stats/moving.rs:1615-1627 | after a feed, the window is the last C frames of old contents followed by the feed |
| MovingExtrema.AdvanceAllIsSlidingReduce | src/stats/moving.rs:1615-1627 | after any feed, `current` is each channel's extremum over the last C frames seen |
| Buffered.IsActive | src/stats/moving.rs:1021-1027 | true exactly in the active state |
| Buffered.From | src/stats/moving.rs:951-954 | an empty buffer fails; otherwise the state is uninitialised over the buffer with the head at 0 |
| Buffered.Promote | src/stats/moving.rs:928-948 | an uninitialised state becomes active over its raw storage; an active one is unchanged |
| Buffered.FromFull | src/stats/moving.rs:956-961 | an empty buffer fails; otherwise the state is active and its window is the buffer |
| Buffered.Reset | src/stats/moving.rs:963-985 | back to uninitialised over the same raw storage as before, with the head at 0 and the capacity unchanged |
| Buffered.Fill | src/stats/moving.rs:988-1001 | becomes active with every slot holding the value and `current` equal to it |
| Buffered.FillWith | src/stats/moving.rs:1003-1019 | becomes active with slot i holding the closure's i-th frame |
| Buffered.Advance | src/stats/moving.rs:1029-1047 | an active state advances its calculation; an uninitialised one stores the frame at the head and activates exactly on the push that wraps the head |
| Buffered.Current | src/stats/moving.rs:1049-1055 | Some exactly in the active state, and then the calculation's current value |
| Buffered.Process | src/stats/moving.rs:1257-1260 | advances, then reports None, or each channel's extremum over the active window |
| Buffered.WarmUp | src/stats/moving.rs:1029-1047 | until the head wraps, the state stays uninitialised and stores the frames at consecutive slots |
| Buffered.FreshWindowActivates | src/stats/moving.rs:1108-1111 | from a fresh or reset state of capacity C, fewer than C frames leave it inactive; after exactly C the window is those frames and `current` is their extremum |
| Buffered.DocExampleWarming | src/stats/moving.rs:1197-1202 | the documented buffered maximum reports None for its first three frames |
| Buffered.DocExampleActive | src/stats/moving.rs:1197-1205 | the documented buffered maximum reports the fourth frame once active |
| Summage.Prep | src/stats/moving.rs:119-126 | a frame is stored squared for the mean square and RMS, and as is for the mean; squares are non-negative |
| Summage.Accumulate | src/stats/moving.rs:29-47 | the sum is the channel-wise total of the frames |
| Summage.From | src/stats/moving.rs:29-47 | an empty buffer fails; otherwise the window holds the prepared frames and the sum is their total |
| Summage.FromEmpty | src/stats/moving.rs:50-60 | an empty buffer fails; otherwise the window is all equilibrium and the sum is 0 |
| Summage.Len | src/stats/moving.rs:62-65 | the length is the number of frames in the window |
| Summage.Reset | src/stats/moving.rs:67-73 | every slot and every sum is 0 and the invariant holds |
| Summage.Fill | src/stats/moving.rs:75-91 | every slot holds the prepared value, and each sum is both the column total of the window and C times the prepared value |
| Summage.FillWith | src/stats/moving.rs:93-117 | slot i holds the prepared i-th frame of the closure and the sum is their total |
| Summage.Advance | src/stats/moving.rs:119-132 | the window drops its oldest frame and appends the prepared input; the sum is still the window's total |
| Summage.AdvanceKeepsSum | src/stats/moving.rs:119-132 | adding the pushed frame and subtracting the popped one gives the new window's total |
| Summage.Current | src/stats/moving.rs:141-151 | one value per channel which, multiplied by the window length, gives back the running sum; under the invariant it is the channel's mean over the stored window |
| Summage.CurrentIsWindowMean | src/stats/moving.rs:141-151 | before the square root and clamp, `current` is each channel's mean over the stored window |
| Summage.Process | src/stats/moving.rs:153-156 | advances, then reads each channel's mean of the new window's prepared frames: the mean for `Mean`, the mean square (before the square root) for `Ms` and `Rms` |
| Cumulative.DefaultExtrema | src/stats/cumulative.rs:113-122 | the default holds equilibrium and has counted no frames |
| Cumulative.AdvanceExtrema | src/stats/cumulative.rs:91-106 | the count grows by one; the first frame is taken as is; later a channel changes exactly when the input surpasses its extremum |
| Cumulative.IsEmptyExtrema | src/stats/cumulative.rs:208-210 | empty exactly when no frame has been counted |
| Cumulative.TryCurrentExtrema | src/stats/cumulative.rs:307-314 | None exactly when the count is 0; otherwise the stored extrema |
| Cumulative.CurrentExtrema | src/stats/cumulative.rs:285-305 | fails exactly when the count is 0; otherwise it agrees with `try_current` |
| Cumulative.ResetExtrema | src/stats/cumulative.rs:186-188 | the calculator is empty again and `try_current` is None |
| Cumulative.FeedExtrema | src/stats/cumulative.rs:262-283 | the count grows by the number of frames fed |
| Cumulative.FeedExtremaIsReduce | src/stats/cumulative.rs:91-106 | from the default, the running extremum is each channel's reduction over every frame fed, and the count is their number |
| Cumulative.ResetForgets | src/stats/cumulative.rs:186-188 | after a reset only the frames fed since count, and the extremum is over those |
| Cumulative.ExtremaDocExample | src/stats/cumulative.rs:495-522 | the documented running minimum and maximum, with samples scaled by two |
| Cumulative.DefaultSummage | src/stats/cumulative.rs:65-70 | the default average is equilibrium with no frames counted |
| Cumulative.AdvanceSummage | src/stats/cumulative.rs:29-53 | the count grows by one and the first prepared frame is taken as is |
| Cumulative.TryCurrentSummage | src/stats/cumulative.rs:307-314 | None exactly when the count is 0 |
| Cumulative.CurrentSummage | src/stats/cumulative.rs:285-305 | fails exactly when the count is 0; otherwise it agrees with `try_current` |
| Cumulative.ResetSummage | src/stats/cumulative.rs:186-188 | nothing is counted and `try_current` is None |
| Cumulative.MeanStep | src/stats/cumulative.rs:42-44 | the update `a + (x - a) / c` of a mean gives the mean including `x` |
| Cumulative.FeedSummage | src/stats/cumulative.rs:262-283 | the count grows by the number of frames fed and the channel count is kept |
| Cumulative.FeedSummageIsMean | src/stats/cumulative.rs:29-53 | from the default, the running average is each channel's mean of the prepared frames fed, and the RMS floor never applies |
| Cumulative.ResetSummageForgets | src/stats/cumulative.rs:186-188 | after a reset the average is the mean of the frames fed since |
| Cumulative.SummageDocExample | src/stats/cumulative.rs:467-494 | the documented running mean and mean square of 0, 0.5, 1 and -0.5 |
| Phase.GcdWithPow32 | src/phase.rs:131-156 | gcd of 2^32 and a u32 value is two to the power of its trailing zeros |
| Phase.Simplify | src/phase.rs:98-157 | both results fit in u32 |
| Phase.LowestTerms | src/phase.rs:113-128 | the reduced pair is coprime and has the same ratio |
| Phase.SimplifyIsReference | src/phase.rs:98-157 | the overflow-avoiding computation equals the reference `((a+1)/g - 1, (b+1)/g - 1)` with g = gcd(a+1, b+1) |
| Phase.SimplifyLowestTerms | src/phase.rs:229-243 | the simplified pair plus one is coprime and in the same ratio as the input plus one |
| Phase.SimplifyEqual | src/phase.rs:100-104 | equal inputs, u32::MAX included, simplify to (0, 0) |
| Phase.SimplifySymmetric | src/phase.rs:218-227 | swapping the inputs swaps the result |
| Phase.SimplifyHandlesMax | src/phase.rs:245-259 | `simplify(MAX, MAX >> e)` is `(2^e - 1, 0)`, and the mirror holds |
| Phase.New | src/phase.rs:167-177 | the stored pair is the simplified ratio in lowest terms, with i = 0 |
| Phase.AdvanceCount | src/phase.rs:183-195 | fails exactly in the one configuration whose count leaves u32; otherwise count times `max_value + 1` plus the new i is `i + skip_extra + 1`, with the new i at most `max_value` |
| Phase.LoopsBound | src/phase.rs:183-195 | the quotient exceeds u32 exactly in the extreme case |
| Phase.AdvanceCountRelease | src/phase.rs:183-195 | without the assertion the count is truncated to u32; it agrees with the debug version except in the extreme configuration, where it counts 0 and leaves the phase as it was |
| Phase.ReleaseTruncation | src/phase.rs:190-194 | truncating the quotient to u32 changes it only in the extreme configuration, where it is 2^32 and becomes 0 |
| Phase.RationalExtremeCase | src/phase.rs:310-328 | `Rational::new(0, u32::MAX)` trips the assertion in debug and counts 0 frames in release |
| Phase.RunIsDivision | src/phase.rs:285-307 | after k advances the index is `(i + k (skip + 1)) mod (max + 1)` and the total count is the quotient |
| Interpolant.New | src/interpolate/interpolant.rs:57-70 | equal factors collapse to (0, 0); anything else is stored unchanged; the index starts at 0 |
| Interpolant.Position | src/interpolate/interpolant.rs:82-86 | the position lies in [0, 1), is `i / (add + 1)`, and is exactly 0 when i = 0 |
| Interpolant.Step | src/interpolate/interpolant.rs:77-100 | the unit-move loop's frame count and index are the quotient and remainder of `i + rem + 1` by `add + 1`; the position is taken before the moves |
| Interpolant.RunFromFresh | src/interpolate/interpolant.rs:135-148 | after k steps from `new`, the index is `k (to_rem + 1) mod (to_add + 1)` |
| Interpolant.StepFromFresh | src/interpolate/interpolant.rs:135-148 | each step from `new` reports the position `i / (to_add + 1)` and `(i + to_rem + 1) div (to_add + 1)` frames |
| Conv.Wrap | src/sample/conv.rs:67-80 | two's-complement truncation lands in range and is the identity on in-range values |
| Conv.XToX | src/sample/conv.rs:67-80 | same signedness: widening multiplies by 2^(m-n), narrowing floor-divides by 2^(n-m), and the result is in range |
| Conv.IToU | src/sample/conv.rs:97-115 | signed to unsigned: `(s + 2^(n-1)) 2^(m-n)` when widening, narrow then re-bias otherwise, with no intermediate wrap |
| Conv.UToI | src/sample/conv.rs:117-141 | unsigned to signed: `(s - 2^(n-1)) 2^(m-n)` when widening, narrow then re-bias otherwise, with no intermediate wrap |
| Conv.XToXRoundTrip | src/sample/conv.rs:72-80 | widening then narrowing back returns the sample |
| Conv.SignednessRoundTrip | src/sample/conv.rs:97-141 | signed to wider unsigned and back, and unsigned to wider signed and back, return the sample |
| Conv.EquilibriumPreserved | src/sample/conv.rs:67-141 | equilibrium maps to equilibrium: signed 0 and unsigned 2^(n-1) |
| Conv.ConvExample | src/sample/conv.rs:117-141 | u8 255 is i8 127 and i16 32512; i8 -128 is u8 0 |
| Signal.Next | src/signal/mod.rs:14-16 | the first remaining frame and the rest, or None once exhausted |
| Signal.SigNext | src/signal/mod.rs:18-22 | the next frame, or equilibrium once the signal is exhausted |
| Signal.AdvanceBy | src/signal/mod.rs:67-98 | Ok with n frames consumed when at least n remain; otherwise Err with the number of frames actually consumed, leaving nothing |
| Signal.Nth | src/signal/mod.rs:24-42 | the frame at index n, with n + 1 frames consumed, or None once fewer remain |
| Signal.AdvanceByLoop | src/signal/mod.rs:90-98 | the source's `while` loop over `next` agrees with `advance_by`'s closed form |
| Signal.AdvanceByDocExample | src/signal/mod.rs:75-88 | the documented run over `0..=9` |
| Signal.NthDocExample | src/signal/mod.rs:31-37 | over `0..=9`, repeated `nth(3)` yields 3, then 7, then None |
| Adaptors.DelayNext | src/signal/adaptors.rs:210-218 | one step yields None exactly when no delay and no source frame is left; what it yields, followed by what is left to yield, is the n equilibrium frames and the source |
| Adaptors.DelayDrain | src/signal/adaptors.rs:210-218 | the output is n equilibrium frames followed by the source |
| Adaptors.TakeNext | src/signal/adaptors.rs:266-274 | one step yields None exactly when the count or the source is used up; what it yields, followed by the first min(n, L) frames of what is left, is the first min(n, L) frames before |
| Adaptors.TakeDrain | src/signal/adaptors.rs:266-274 | the output is the first min(n, L) source frames |
| Adaptors.PadNext | src/signal/adaptors.rs:295-305 | one step yields None exactly when the source and the count are used up; what it yields, followed by the padded rest, is the padded source before |
| Adaptors.PadDrain | src/signal/adaptors.rs:295-305 | the output is the source followed by max(0, n - L) equilibrium frames |
| Adaptors.NewStepBy | src/signal/adaptors.rs:324-333 | a zero step fails; otherwise the adaptor skips `step - 1` frames between outputs |
| Adaptors.StepByNext | src/signal/adaptors.rs:342-349 | the first step yields source frame 0, every later one the frame n further on, consuming everything up to it; past the end it yields None and leaves nothing |
| Adaptors.StepByDrain | src/signal/adaptors.rs:342-349 | the output holds the source frames at indices 0, step, 2 step, and so on |
| Adaptors.StepByOutput | src/signal/adaptors.rs:324-349 | a non-zero step yields `ceil(L / step)` frames, the i-th being source frame `i step` |
| Adaptors.ZmHelper | src/signal/adaptors.rs:9-22 | the lockstep step yields nothing exactly when either source is exhausted; a left frame is consumed whenever there is one, even if the right side is empty; a yielded frame is `f` of both first frames and consumes both |
| Adaptors.LockstepDrain | src/signal/adaptors.rs:9-22 | a lockstep zip yields exactly min(La, Lb) frames, the i-th combining both i-th frames |
| Adaptors.AddSignalDrain | src/signal/adaptors.rs:45-49 | `AddSignal` yields min(La, Lb) frames, each the channel-wise sum |
| Adaptors.CombineNext | src/signal/adaptors.rs:489-494 | one step yields None exactly when either source is exhausted, always consuming a left frame if there is one; what it yields, followed by the combinator's run over the rest, is its run from before |
| Adaptors.CombineDrain | src/signal/adaptors.rs:489-494 | `Combine` yields min(La, Lb) frames, threading the combinator's state through them in order |
| Adaptors.ProcessNext | src/signal/adaptors.rs:390-394 | one step yields None exactly when the source is exhausted; what it yields, followed by the processor's run over the rest, is its run from before |
| Adaptors.ProcessDrain | src/signal/adaptors.rs:390-394 | `Process` yields one output per input, threading the processor's state |
| Adaptors.ProcessLazyNext | src/signal/adaptors.rs:435-443 | a step consumes inputs until the processor yields Some, and yields None only once the source is exhausted |
| Adaptors.ProcessLazyDrain | src/signal/adaptors.rs:435-443 | `ProcessLazy` yields exactly the Some outputs, in input order |
| Dynamic.Len | src/frame/dynamic.rs:93-95 | the number of channels |
| Dynamic.Get | src/frame/dynamic.rs:77-79 | Some exactly when the channel is below the length, and then its sample |
| Dynamic.ResizeWith | src/frame/dynamic.rs:17-32 | exactly the new length; the shared prefix is kept; added channels are the closure's results in order; the current length changes nothing |
| Dynamic.Resize | src/frame/dynamic.rs:13-15 | exactly the new length; the shared prefix is kept; added channels all equal s |
| Dynamic.Truncate | src/frame/dynamic.rs:34-49 | a longer frame keeps its prefix of the new length; a shorter one is unchanged |
| Dynamic.GetAfterResize | src/frame/dynamic.rs:142-160 | after resize, `get` reads the old sample, the fill value, or None |
| Dynamic.ShrinkIsTruncate | src/frame/dynamic.rs:13-49 | shrinking by `resize` is `truncate` |
| Dynamic.GrowThenShrink | src/frame/dynamic.rs:13-32 | growing and then resizing back restores the frame |
| Dynamic.TruncateIdempotent | src/frame/dynamic.rs:34-49 | truncation is idempotent, and its length is the smaller of the two |
| Dynamic.ResizeDocExample | src/frame/dynamic.rs:142-160 | the unit test's shrink to 2 and growth to 8 with -128 |

## Left out

- Floating-point arithmetic is not modelled:
  - `phase::Fixed` and `interpolant::Fixed`;
  - `Rational::current`'s division;
  - the float conversion macros;
  - the `MulSignal`, `Interpolate` and `Biquad` adaptors.
- IEEE incomparability appears only in `Policy.SurpassesSample`. The tracker itself works on `int`, where every pair is comparable.
- Summage.CurrentIsWindowMean: states the mean before the RMS square root and the equilibrium clamp, because both are floating-point operations.
- Cumulative.FeedSummageIsMean: exact real arithmetic, with rounding not modelled; under exact arithmetic the RMS floor at 0 never applies, and the proof shows it.
- Summage.Current: returns the mean square for `Rms`. The source then takes the square root and clamps at equilibrium, both floating-point operations.
- Summage.Process: for `Rms` it reports the mean square, not its square root, for the same reason.
- Cumulative.TryCurrentSummage: for `Rms` the stored average is the mean square. The source's `Float::sqrt` in `__current_unchecked` is not applied.
- Cumulative.CurrentSummage: for `Rms` it returns the mean square, without the source's `Float::sqrt`.
- Adaptors.AddSignalDrain: sums are unbounded; integer overflow of `add_amp` is not modelled. For integer samples the source panics in debug builds and wraps in release builds.
- Adaptors.AddFrames: the channel-wise sum is an unbounded `int`, for the same reason.
- MovingExtrema.Current: its own contract states only one value per channel. The extremum over the window is stated by `MovingExtrema.CurrentIsReduce`.
- The buffered `Rms`, `Ms` and `Mean` states are not modelled. `master!` (src/stats/moving.rs:1459-1546) generates the same warm-up state machine for them as for the minimum and maximum, with a summage calculation inside; `Buffered` models it over the extrema calculation only, so the same transitions over `Summage` are not stated.
- Summage: sums are exact reals rather than the source's float accumulation, so drift from rounding is not modelled.
- The cumulative frame count is an unbounded `nat`. The source's `u64` counter would overflow only after 2^64 frames.
- `Dummy` and the `std::mem::swap` around the buffered state's transitions are not modelled. They are a move-semantics device and cannot be observed.
- The macros that generate the public wrappers and their documentation are not modelled as macros. Each generated method is modelled once, on the inner type.
- The signal-method injection macros and the stats signal adaptors are not modelled. They wrap `Process`/`ProcessLazy`, which are modelled.
- Complexity claims (O(1) typical steps, O(C) rescans, no allocation) are not modelled. They are not functional properties.
- Mutable accessors and raw access are not modelled: `get_mut`, `get_wrapped_mut`, `iter_mut`, `raw_parts`, `buffer`, `into_raw_parts`. They expose the same slots as the modelled readers.
- For `Dynamic`, `into_boxed_slice`, the `From` conversions, `Default` and the owning iterator are not modelled. They only change representation.
- Non-fused signals are not modelled. A signal is the finite sequence of frames it has left, so after its first `None` it keeps yielding `None`.
- `AddFrame`, `MulFrame`, `AddAmp`, `MulAmp`, `Inspect` and `Map` are not modelled. They are per-frame maps with no index logic.
- `CombineLazy` is not modelled. It is `Combine` with optional outputs, the same relationship `ProcessLazy` has to `Process`.
- `from_samples_fixed` and `from_samples_dynamic` are not modelled. The `from_samples` function they depend on is not part of this model.
- `Adaptors.StepByDrain` is stated through the index function `Stride(i, step - 1)`. `Adaptors.StepByOutput` connects it to `i * step`.

=== FILE: adaptors.dfy ===
/** The frame-count and ordering behaviour of the stream adaptors in
    src/signal/adaptors.rs. Every adaptor is a state plus a `next`; its
    `Drain` pulls `next` until the first `None` and collects what came out,
    and the contract of each drain states the whole output in closed form.
    Processors and combinators are state-passing functions. */
module Adaptors {
  import opened Wrappers
  import opened Signal

  /** `n` copies of the equilibrium frame. */
  function Equils<T>(n: nat, equil: T): (r: seq<T>)
    ensures |r| == n && forall i :: 0 <= i < n ==> r[i] == equil
  {
    seq(n, _ => equil)
  }

  /** What one `next` hands out: no frame or one. */
  function Yielded<T>(o: Option<T>): (s: seq<T>)
    ensures |s| <= 1 && (o.Some? <==> |s| == 1)
  {
    if o.Some? then [o.value] else []
  }

  // ---------------------------------------------------------------------
  // Delay

  datatype Delay<T> = Delay(signal: seq<T>, nFrames: nat)

  /** `Delay::next`: while frames of delay remain, count one down and yield
      equilibrium; afterwards pass the source through. */
  function DelayNext<T>(d: Delay<T>, equil: T): (out: (Option<T>, Delay<T>))
    ensures out.0.Some? ==> out.1.nFrames + |out.1.signal| < d.nFrames + |d.signal|
    ensures out.0.None? <==> d.nFrames == 0 && |d.signal| == 0
    ensures Yielded(out.0) + Equils(out.1.nFrames, equil) + out.1.signal == Equils(d.nFrames, equil) + d.signal
  {
    if d.nFrames > 0 then
      assert Equils(d.nFrames, equil) == [equil] + Equils(d.nFrames - 1, equil);
      (Some(equil), d.(nFrames := d.nFrames - 1))
    else
      var step := Next(d.signal);
      (step.0, d.(signal := step.1))
  }

  /** Everything a delayed signal yields: `n` equilibrium frames, then the
      whole source. */
  function DelayDrain<T>(d: Delay<T>, equil: T): (out: seq<T>)
    ensures out == Equils(d.nFrames, equil) + d.signal
    decreases d.nFrames + |d.signal|
  {
    var step := DelayNext(d, equil);
    match step.0
    case None => []
    case Some(x) =>
      var rest := DelayDrain(step.1, equil);
      assert [x] + rest == Equils(d.nFrames, equil) + d.signal by {
        if d.nFrames > 0 {
          assert Equils(d.nFrames, equil) == [equil] + Equils(d.nFrames - 1, equil);
        }
      }
      [x] + rest
  }

  // ---------------------------------------------------------------------
  // Take

  datatype Take<T> = Take(signal: seq<T>, n: nat)

  /** `Take::next`: yield from the source while the count lasts. */
  function TakeNext<T>(t: Take<T>): (out: (Option<T>, Take<T>))
    ensures out.0.Some? ==> |out.1.signal| < |t.signal|
    ensures out.0.None? <==> t.n == 0 || |t.signal| == 0
    ensures Yielded(out.0) + Taken(out.1) == Taken(t)
  {
    if t.n > 0 then
      var step := Next(t.signal);
      (step.0, Take(step.1, t.n - 1))
    else (None, t)
  }

  /** What a taken signal still has to yield: its first `min(n, L)` frames. */
  function Taken<T>(t: Take<T>): seq<T> {
    t.signal[..if t.n <= |t.signal| then t.n else |t.signal|]
  }

  /** A taken signal yields the first `min(n, L)` source frames. */
  function TakeDrain<T>(t: Take<T>): (out: seq<T>)
    ensures |out| == if t.n <= |t.signal| then t.n else |t.signal|
    ensures out == t.signal[..|out|]
    decreases |t.signal|
  {
    var step := TakeNext(t);
    match step.0
    case None => []
    case Some(x) =>
      var rest := TakeDrain(step.1);
      assert [x] + rest == t.signal[..1 + |rest|] by {
        assert t.signal[..1 + |rest|] == [t.signal[0]] + t.signal[1..][..|rest|];
      }
      [x] + rest
  }

  // ---------------------------------------------------------------------
  // Pad

  datatype Pad<T> = Pad(signal: seq<T>, n: nat)

  /** `Pad::next`: the source's frame if there is one, else equilibrium
      while the count lasts; the count saturates at 0. */
  function PadNext<T>(p: Pad<T>, equil: T): (out: (Option<T>, Pad<T>))
    ensures out.0.Some? ==> out.1.n + |out.1.signal| < p.n + |p.signal|
    ensures out.0.None? <==> p.n == 0 && |p.signal| == 0
    ensures Yielded(out.0) + Padded(out.1, equil) == Padded(p, equil)
  {
    var step := Next(p.signal);
    var ret := if step.0.None? && p.n > 0 then Some(equil) else step.0;
    var next := Pad(step.1, if p.n > 0 then p.n - 1 else 0);
    assert Yielded(ret) + Padded(next, equil) == Padded(p, equil) by {
      if |p.signal| == 0 && p.n > 0 {
        assert Equils(p.n, equil) == [equil] + Equils(p.n - 1, equil);
      } else if |p.signal| > 0 {
        assert p.signal == [p.signal[0]] + p.signal[1..];
      }
    }
    (ret, next)
  }

  /** What a padded signal still has to yield: the source, then
      equilibrium up to `n` frames in all. */
  function Padded<T>(p: Pad<T>, equil: T): seq<T> {
    p.signal + Equils(if p.n > |p.signal| then p.n - |p.signal| else 0, equil)
  }

  /** A padded signal yields the whole source, then equilibrium until `n`
      frames have been yielded in all. */
  function PadDrain<T>(p: Pad<T>, equil: T): (out: seq<T>)
    ensures out == p.signal + Equils(if p.n > |p.signal| then p.n - |p.signal| else 0, equil)
    decreases p.n + |p.signal|
  {
    var step := PadNext(p, equil);
    match step.0
    case None => []
    case Some(x) =>
      var rest := PadDrain(step.1, equil);
      var pad := if p.n > |p.signal| then p.n - |p.signal| else 0;
      assert [x] + rest == p.signal + Equils(pad, equil) by {
        if |p.signal| == 0 {
          assert Equils(pad, equil) == [equil] + Equils(pad - 1, equil);
        } else {
          assert p.signal == [p.signal[0]] + p.signal[1..];
        }
      }
      [x] + rest
  }

  // ---------------------------------------------------------------------
  // StepBy

  datatype StepBy<T> = StepBy(signal: seq<T>, n: nat, started: bool)

  /** `StepBy::new`: a step of 0 is rejected; otherwise `n` is the number
      of frames skipped between yields. */
  function NewStepBy<T>(signal: seq<T>, step: nat): (r: Result<StepBy<T>, Error>)
    ensures r.Failure? <==> step == 0
    ensures r.Failure? ==> r.error == ZeroStep
    ensures r.Success? ==> r.value == StepBy(signal, step - 1, false)
  {
    if step == 0 then Failure(ZeroStep) else Success(StepBy(signal, step - 1, false))
  }

  /** `StepBy::next`: the first call yields the first frame; later calls
      yield `nth(n)`. */
  function StepByNext<T>(s: StepBy<T>): (out: (Option<T>, StepBy<T>))
    ensures out.0.Some? ==> |out.1.signal| < |s.signal|
    ensures out.1.n == s.n && out.1.started
    ensures var k := if s.started then s.n else 0;
      && (out.0.Some? <==> k < |s.signal|)
      && (k < |s.signal| ==> out.0.value == s.signal[k] && out.1.signal == s.signal[k + 1..])
      && (k >= |s.signal| ==> out.1.signal == [])
  {
    if !s.started then
      var step := Next(s.signal);
      (step.0, StepBy(step.1, s.n, true))
    else
      var step := Nth(s.signal, s.n);
      (step.0, StepBy(step.1, s.n, true))
  }

  /** `i` strides of `n + 1` frames each, counted one stride at a time. */
  function Stride(i: nat, n: nat): (r: nat)
  {
    if i == 0 then 0 else Stride(i - 1, n) + n + 1
  }

  lemma {:induction false} StrideIsProduct(i: nat, n: nat)
    ensures Stride(i, n) == i * (n + 1)
  {
    if i > 0 {
      StrideIsProduct(i - 1, n);
      assert i * (n + 1) == (i - 1) * (n + 1) + n + 1;
    }
  }

  /** Once started, the frames yielded are those at indices
      `n, n + (n+1), n + 2(n+1), ...`: `L div (n+1)` of them. */
  function StepByDrainStarted<T>(signal: seq<T>, n: nat): (out: seq<T>)
    ensures |out| == |signal| / (n + 1)
    ensures forall i :: 0 <= i < |out| ==> Stride(i, n) + n < |signal| && out[i] == signal[Stride(i, n) + n]
    decreases |signal|
  {
    var step := StepByNext(StepBy(signal, n, true));
    match step.0
    case None =>
      ModUniqueNat(|signal|, n + 1, 0, |signal|);
      []
    case Some(x) =>
      var tail := step.1.signal;
      assert tail == signal[n + 1..];
      var rest := StepByDrainStarted(tail, n);
      QuotientStep(|signal|, n + 1);
      StrideShift(signal, n, rest);
      [x] + rest
  }

  /** The whole output of `step_by(n + 1)`: the frames at indices
      `0, n+1, 2(n+1), ...`, `ceil(L / (n+1))` of them. */
  function StepByDrain<T>(signal: seq<T>, n: nat): (out: seq<T>)
    ensures |out| == (|signal| + n) / (n + 1)
    ensures forall i :: 0 <= i < |out| ==> Stride(i, n) < |signal| && out[i] == signal[Stride(i, n)]
  {
    var step := StepByNext(StepBy(signal, n, false));
    match step.0
    case None =>
      ModUniqueNat(n, n + 1, 0, n);
      []
    case Some(x) =>
      var rest := StepByDrainStarted(signal[1..], n);
      QuotientStep(|signal| + n, n + 1);
      StrideFirst(signal, n, rest);
      [x] + rest
  }

  /** `StepBy::new(signal, step)` followed by draining: the source frames
      at indices `0, step, 2 step, ...`, and nothing for a step of 0. */
  lemma StepByOutput<T>(signal: seq<T>, step: nat)
    ensures NewStepBy(signal, step).Success? ==>
      var out := StepByDrain(signal, step - 1);
      && |out| == (|signal| + step - 1) / step
      && forall i :: 0 <= i < |out| ==> i * step < |signal| && out[i] == signal[i * step]
  {
    if step > 0 {
      var out := StepByDrain(signal, step - 1);
      forall i | 0 <= i < |out|
        ensures i * step < |signal| && out[i] == signal[i * step]
      {
        StrideIsProduct(i, step - 1);
      }
    }
  }

  lemma ModUniqueNat(x: nat, c: nat, q: nat, r: nat)
    requires c > 0 && r < c && x == c * q + r
    ensures x / c == q
  {
    var q0, r0 := x / c, x % c;
    if q0 > q {
      MulMore(c, q0 - q);
    } else if q0 < q {
      MulMore(c, q - q0);
    }
  }

  lemma MulMore(c: nat, d: nat)
    requires c > 0 && d > 0
    ensures c * d >= c
  {
    var k: nat := d - 1;
    assert c * d == c * k + c;
  }

  /** Removing one divisor's worth lowers the quotient by one. */
  lemma QuotientStep(x: nat, c: nat)
    requires c > 0 && x >= c
    ensures x / c == (x - c) / c + 1
  {
    var q, r := (x - c) / c, (x - c) % c;
    assert x == c * (q + 1) + r;
    ModUniqueNat(x, c, q + 1, r);
  }

  lemma StrideShift<T>(signal: seq<T>, n: nat, rest: seq<T>)
    requires n < |signal|
    requires forall i :: 0 <= i < |rest| ==> Stride(i, n) + n < |signal| - (n + 1) && rest[i] == signal[n + 1..][Stride(i, n) + n]
    ensures forall i :: 0 <= i < |rest| + 1 ==> Stride(i, n) + n < |signal| && ([signal[n]] + rest)[i] == signal[Stride(i, n) + n]
  {
    forall i | 0 <= i < |rest| + 1
      ensures Stride(i, n) + n < |signal| && ([signal[n]] + rest)[i] == signal[Stride(i, n) + n]
    {
      if i > 0 {
        var j := Stride(i - 1, n) + n;
        assert j < |signal| - (n + 1) && rest[i - 1] == signal[n + 1..][j];
        assert Stride(i, n) + n == n + 1 + j;
      }
    }
  }

  lemma StrideFirst<T>(signal: seq<T>, n: nat, rest: seq<T>)
    requires 0 < |signal|
    requires forall i :: 0 <= i < |rest| ==> Stride(i, n) + n < |signal| - 1 && rest[i] == signal[1..][Stride(i, n) + n]
    ensures forall i :: 0 <= i < |rest| + 1 ==> Stride(i, n) < |signal| && ([signal[0]] + rest)[i] == signal[Stride(i, n)]
  {
    forall i | 0 <= i < |rest| + 1
      ensures Stride(i, n) < |signal| && ([signal[0]] + rest)[i] == signal[Stride(i, n)]
    {
      if i > 0 {
        var j := Stride(i - 1, n) + n;
        assert j < |signal| - 1 && rest[i - 1] == signal[1..][j];
        assert Stride(i, n) == 1 + j;
      }
    }
  }

  // ---------------------------------------------------------------------
  // Lockstep pairs: AddSignal, MulSignal, Combine

  datatype Lockstep<A, B> = Lockstep(left: seq<A>, right: seq<B>)

  /** `zm_helper`: pull the left frame, then the right one, and combine
      them; the first `None` ends it. A left frame pulled when the right
      side is already exhausted is lost. */
  function ZmHelper<A, B, C>(l: Lockstep<A, B>, f: (A, B) -> C): (out: (Option<C>, Lockstep<A, B>))
    ensures out.0.Some? ==> |out.1.left| < |l.left|
    ensures out.0.None? <==> |l.left| == 0 || |l.right| == 0
    ensures |l.left| > 0 ==> out.1.left == l.left[1..]
    ensures out.0.Some? ==> out.0.value == f(l.left[0], l.right[0]) && out.1.right == l.right[1..]
  {
    var a := Next(l.left);
    match a.0
    case None => (None, l)
    case Some(x) =>
      var b := Next(l.right);
      match b.0
      case None => (None, Lockstep(a.1, l.right))
      case Some(y) => (Some(f(x, y)), Lockstep(a.1, b.1))
  }

  /** A lockstep pair yields `min(La, Lb)` frames, each the combination of
      the frames at the same index. */
  function LockstepDrain<A, B, C>(l: Lockstep<A, B>, f: (A, B) -> C): (out: seq<C>)
    ensures |out| == if |l.left| <= |l.right| then |l.left| else |l.right|
    ensures forall i :: 0 <= i < |out| ==> out[i] == f(l.left[i], l.right[i])
    decreases |l.left|
  {
    var step := ZmHelper(l, f);
    match step.0
    case None => []
    case Some(z) => [z] + LockstepDrain(step.1, f)
  }

  /** `add_frame` on frames of signed samples: channel-wise sum. */
  function AddFrames(a: seq<int>, b: seq<int>): (c: seq<int>)
    ensures |c| == if |a| <= |b| then |a| else |b|
    ensures forall ch :: 0 <= ch < |c| ==> c[ch] == a[ch] + b[ch]
  {
    seq(if |a| <= |b| then |a| else |b|, ch requires 0 <= ch < |a| && ch < |b| => a[ch] + b[ch])
  }

  /** `AddSignal`: lockstep channel-wise sums. */
  lemma AddSignalDrain(a: seq<seq<int>>, b: seq<seq<int>>)
    ensures var out := LockstepDrain(Lockstep(a, b), AddFrames);
      && |out| == (if |a| <= |b| then |a| else |b|)
      && forall i, ch :: 0 <= i < |out| && 0 <= ch < |a[i]| && ch < |b[i]| ==> out[i][ch] == a[i][ch] + b[i][ch]
  {
  }

  datatype Combine<A, B, S> = Combine(left: seq<A>, right: seq<B>, state: S)

  /** `Combine::next`: pull left, then right, then feed both to the
      stateful combinator. */
  function CombineNext<A, B, S, C>(c: Combine<A, B, S>, comb: (S, A, B) -> (S, C)): (out: (Option<C>, Combine<A, B, S>))
    ensures out.0.Some? ==> |out.1.left| < |c.left|
    ensures out.0.None? <==> |c.left| == 0 || |c.right| == 0
    ensures |c.left| > 0 ==> out.1.left == c.left[1..]
    ensures out.0.Some? ==>
      Yielded(out.0) + RunCombinator(out.1.state, out.1.left[..MinLen(out.1)], out.1.right[..MinLen(out.1)], comb)
        == RunCombinator(c.state, c.left[..MinLen(c)], c.right[..MinLen(c)], comb)
  {
    var a := Next(c.left);
    match a.0
    case None => (None, c)
    case Some(x) =>
      var b := Next(c.right);
      match b.0
      case None => (None, c.(left := a.1))
      case Some(y) =>
        var r := comb(c.state, x, y);
        var k := MinLen(c);
        assert c.left[..k][1..] == c.left[1..][..k - 1];
        assert c.right[..k][1..] == c.right[1..][..k - 1];
        (Some(r.1), Combine(a.1, b.1, r.0))
  }

  /** How many frames a lockstep pair can still combine. */
  function MinLen<A, B, S>(c: Combine<A, B, S>): nat {
    if |c.left| <= |c.right| then |c.left| else |c.right|
  }

  /** The reference run of a combinator over two equally long inputs. */
  function RunCombinator<A, B, S, C>(s: S, left: seq<A>, right: seq<B>, comb: (S, A, B) -> (S, C)): (out: seq<C>)
    requires |left| == |right|
    ensures |out| == |left|
  {
    if |left| == 0 then []
    else
      var r := comb(s, left[0], right[0]);
      [r.1] + RunCombinator(r.0, left[1..], right[1..], comb)
  }

  /** A combined pair yields exactly the combinator run over the first
      `min(La, Lb)` frames of each side. */
  function CombineDrain<A, B, S, C>(c: Combine<A, B, S>, comb: (S, A, B) -> (S, C)): (out: seq<C>)
    ensures var k := if |c.left| <= |c.right| then |c.left| else |c.right|;
      out == RunCombinator(c.state, c.left[..k], c.right[..k], comb)
    decreases |c.left|
  {
    var step := CombineNext(c, comb);
    match step.0
    case None => []
    case Some(z) =>
      var k := if |c.left| <= |c.right| then |c.left| else |c.right|;
      assert c.left[..k][1..] == c.left[1..][..k - 1];
      assert c.right[..k][1..] == c.right[1..][..k - 1];
      [z] + CombineDrain(step.1, comb)
  }

  // ---------------------------------------------------------------------
  // Process and ProcessLazy

  /** The reference run of a processor: one output per input, the state
      threaded through in order. */
  function RunProcessor<S, I, O>(s: S, inputs: seq<I>, proc: (S, I) -> (S, O)): (out: seq<O>)
    ensures |out| == |inputs|
  {
    if |inputs| == 0 then []
    else
      var r := proc(s, inputs[0]);
      [r.1] + RunProcessor(r.0, inputs[1..], proc)
  }

  datatype Process<I, S> = Process(signal: seq<I>, state: S)

  /** `Process::next`: pull one input and feed it to the processor. */
  function ProcessNext<I, S, O>(p: Process<I, S>, proc: (S, I) -> (S, O)): (out: (Option<O>, Process<I, S>))
    ensures out.0.Some? ==> |out.1.signal| < |p.signal|
    ensures out.0.None? <==> |p.signal| == 0
    ensures Yielded(out.0) + RunProcessor(out.1.state, out.1.signal, proc) == RunProcessor(p.state, p.signal, proc)
  {
    var step := Next(p.signal);
    match step.0
    case None => (None, p)
    case Some(x) =>
      var r := proc(p.state, x);
      (Some(r.1), Process(step.1, r.0))
  }

  /** `Process` yields one output per input: the processor's run over the
      whole source. */
  function ProcessDrain<I, S, O>(p: Process<I, S>, proc: (S, I) -> (S, O)): (out: seq<O>)
    ensures out == RunProcessor(p.state, p.signal, proc)
    decreases |p.signal|
  {
    var step := ProcessNext(p, proc);
    match step.0
    case None => []
    case Some(z) => [z] + ProcessDrain(step.1, proc)
  }

  /** The `Some` values of a sequence of options, in order. */
  function Somes<O>(xs: seq<Option<O>>): (out: seq<O>)
    ensures |out| <= |xs|
    ensures forall i :: 0 <= i < |out| ==> Some(out[i]) in xs
    ensures forall i :: 0 <= i < |xs| && xs[i].Some? ==> xs[i].value in out
  {
    if |xs| == 0 then []
    else match xs[0]
      case Some(v) => [v] + Somes(xs[1..])
      case None => Somes(xs[1..])
  }

  /** `ProcessLazy::next`: keep pulling inputs until the processor
      produces an output or the source ends. */
  function ProcessLazyNext<I, S, O>(p: Process<I, S>, proc: (S, I) -> (S, Option<O>)): (out: (Option<O>, Process<I, S>))
    ensures |out.1.signal| <= |p.signal|
    ensures out.0.Some? ==> |out.1.signal| < |p.signal|
    ensures out.0.None? ==> |out.1.signal| == 0
    ensures var k := |p.signal| - |out.1.signal|;
      && out.1.signal == p.signal[k..]
      && Somes(RunProcessor(p.state, p.signal, proc))
         == (if out.0.Some? then [out.0.value] else []) + Somes(RunProcessor(out.1.state, out.1.signal, proc))
    decreases |p.signal|
  {
    var step := Next(p.signal);
    match step.0
    case None => (None, p)
    case Some(x) =>
      var r := proc(p.state, x);
      match r.1
      case Some(o) => (Some(o), Process(step.1, r.0))
      case None => ProcessLazyNext(Process(step.1, r.0), proc)
  }

  /** `ProcessLazy` yields exactly the processor's `Some` outputs, in input
      order, and ends with the source. */
  function ProcessLazyDrain<I, S, O>(p: Process<I, S>, proc: (S, I) -> (S, Option<O>)): (out: seq<O>)
    ensures out == Somes(RunProcessor(p.state, p.signal, proc))
    decreases |p.signal|
  {
    var step := ProcessLazyNext(p, proc);
    match step.0
    case None => []
    case Some(z) => [z] + ProcessLazyDrain(step.1, proc)
  }
}

=== FILE: arith.dfy ===
/** Integer facts shared by the ring buffer, the phase accumulator and the
    sample conversions: Euclidean division and powers of two. */
module Arith {

  /** Euclidean division is unique: a quotient/remainder pair that fits is
      the pair `/` and `%` compute. */
  lemma ModUnique(x: int, c: int, q: int, r: int)
    requires c > 0 && 0 <= r < c && x == c * q + r
    ensures x % c == r && x / c == q
  {
    var q0, r0 := x / c, x % c;
    assert x == c * q0 + r0;
    if q0 > q {
      assert c * (q0 - q) == c * q0 - c * q;
      MulAtLeast(c, q0 - q);
    } else if q0 < q {
      assert c * (q - q0) == c * q - c * q0;
      MulAtLeast(c, q - q0);
    }
  }

  lemma {:induction false} MulAtLeast(c: int, d: int)
    requires c > 0 && d > 0
    ensures c * d >= c
  {
    if d > 1 {
      MulAtLeast(c, d - 1);
      assert c * d == c * (d - 1) + c;
    }
  }

  lemma ModAddLemma(a: nat, i: nat, c: nat)
    requires c > 0
    ensures (a % c + i) % c == (a + i) % c
  {
    var q, m := a / c, a % c;
    var q2, m2 := (m + i) / c, (m + i) % c;
    assert m + i == c * q2 + m2;
    assert a + i == c * (q + q2) + m2;
    ModUnique(a + i, c, q + q2, m2);
  }

  /** 2 to the power `k`. */
  function Pow2(k: nat): (p: nat)
    ensures p >= 1
  {
    if k == 0 then 1 else 2 * Pow2(k - 1)
  }

  lemma {:induction false} Pow2Add(a: nat, b: nat)
    ensures Pow2(a + b) == Pow2(a) * Pow2(b)
  {
    if a > 0 {
      Pow2Add(a - 1, b);
      assert Pow2(a + b) == 2 * Pow2(a - 1 + b);
    }
  }

  lemma {:induction false} Pow2Monotone(a: nat, b: nat)
    requires a <= b
    ensures Pow2(a) <= Pow2(b)
  {
    if a < b {
      Pow2Monotone(a, b - 1);
    }
  }

  lemma MulAssoc(a: int, b: int, c: int)
    ensures (a * b) * c == a * (b * c)
  {
  }

  lemma MulDistrib(a: int, b: int, c: int)
    ensures a * (b + c) == a * b + a * c
  {
  }

  /** Multiplying by a nonnegative factor keeps the order. */
  lemma MulMonotone(a: int, b: int, c: int)
    requires a <= b && c >= 0
    ensures a * c <= b * c
  {
    if a < b && c > 0 {
      MulAtLeast(c, b - a);
      MulDistrib(c, b - a, a);
    }
  }

  /** Floor division by a positive divisor is bounded by a multiple's
      cofactor, from above and below. */
  lemma DivBounds(x: int, a: int, k: int)
    requires k > 0
    ensures x < a * k ==> x / k < a
    ensures a * k <= x ==> a <= x / k
  {
    var q := x / k;
    assert x == k * q + x % k;
    if x < a * k && q >= a {
      MulMonotone(a, q, k);
    }
    if a * k <= x && q < a {
      MulMonotone(q + 1, a, k);
      MulDistrib(k, q, 1);
    }
  }
}

=== FILE: buffered.dfy ===
/** The buffered moving minimum/maximum of src/stats/moving.rs
    (`BufferedMovingMin`/`BufferedMovingMax` and their state enum): the
    calculation only becomes active once a full window of frames has been
    pushed since the last reset; until then it reports nothing. */
module Buffered {
  import opened Wrappers
  import opened Policy
  import opened Frames
  import Ring
  import ME = MovingExtrema

  /** `Uninit` collects frames in a ring buffer, head first; `Active` holds
      a running calculation. */
  datatype BufferedState = Uninit(ring: Ring.Fixed<ME.Frame>) | Active(inner: ME.ExtremaInner)

  ghost predicate Valid(max: bool, s: BufferedState, n: nat) {
    match s
    case Uninit(ring) => ring.Valid() && ring.Capacity() > 0 && Uniform(ring.buf, n)
    case Active(inner) => inner.Valid(max) && inner.channels == n
  }

  function Capacity(s: BufferedState): nat {
    match s
    case Uninit(ring) => ring.Capacity()
    case Active(inner) => inner.window.Capacity()
  }

  /** `__is_active`. */
  function IsActive(s: BufferedState): (b: bool)
    ensures b <==> s.Active?
  {
    match s
    case Active(_) => true
    case Uninit(_) => false
  }

  /** `__from` behind the public `from`, which asserts a non-empty buffer:
      the buffer's contents are ignored and will be overwritten. */
  function From(buffer: seq<ME.Frame>, n: nat): (r: Result<BufferedState, Error>)
    requires Uniform(buffer, n)
    ensures r.Failure? <==> |buffer| == 0
    ensures r.Failure? ==> r.error == EmptyBuffer
    ensures r.Success? ==>
      && r.value.Uninit? && r.value.ring.head == 0 && r.value.ring.buf == buffer
      && forall max: bool :: Valid(max, r.value, n)
  {
    if |buffer| == 0 then Failure(EmptyBuffer) else Success(Uninit(Ring.FromOffset(buffer, 0)))
  }

  /** `__promote_inner`: an uninitialised window becomes a calculation over
      its raw storage. */
  function Promote(max: bool, s: BufferedState, n: nat): (r: BufferedState)
    requires Valid(max, s, n)
    ensures Valid(max, r, n) && r.Active? && Capacity(r) == Capacity(s)
    ensures s.Active? ==> r == s
    ensures s.Uninit? ==> r.inner.window.Contents() == s.ring.buf
  {
    match s
    case Active(_) => s
    case Uninit(ring) =>
      var inner := ME.From(max, Ring.IntoBuffer(ring), n);
      Active(inner.value)
  }

  /** `from_full`: the buffer's contents are taken as a full first window.
      The calculation's own `from` asserts a non-empty buffer. */
  function FromFull(max: bool, buffer: seq<ME.Frame>, n: nat): (r: Result<BufferedState, Error>)
    requires Uniform(buffer, n)
    ensures r.Failure? <==> |buffer| == 0
    ensures r.Failure? ==> r.error == EmptyBuffer
    ensures r.Success? ==>
      && Valid(max, r.value, n) && r.value.Active?
      && r.value.inner.window.Contents() == buffer
  {
    match From(buffer, n)
    case Failure(e) => Failure(e)
    case Success(s) => Success(Promote(max, s, n))
  }

  /** `__reset_inner`: back to the uninitialised state over the same raw
      storage, head at 0. The stored frames are kept but every later frame
      overwrites one of them before the window is used again. */
  function Reset(max: bool, s: BufferedState, n: nat): (r: BufferedState)
    requires Valid(max, s, n)
    ensures Valid(max, r, n) && r.Uninit? && r.ring.head == 0
    ensures Capacity(r) == Capacity(s)
    ensures s.Uninit? ==> r.ring.buf == s.ring.buf
    ensures s.Active? ==> r.ring.buf == s.inner.window.buf
  {
    var raw := match s
      case Active(inner) => Ring.IntoBuffer(inner.window)
      case Uninit(ring) => Ring.IntoBuffer(ring);
    if s.Active? then UniformStorage(s.inner.window, n); Uninit(Ring.FromOffset(raw, 0))
    else Uninit(Ring.FromOffset(raw, 0))
  }

  /** The physical storage holds the same frames as the logical contents. */
  lemma UniformStorage(ring: Ring.Fixed<ME.Frame>, n: nat)
    requires ring.Valid() && Uniform(ring.Contents(), n)
    ensures Uniform(ring.buf, n)
  {
    forall i | 0 <= i < |ring.buf|
      ensures |ring.buf[i]| == n
    {
      if i < ring.head {
        assert ring.buf[i] == ring.Contents()[|ring.buf| - ring.head + i];
      } else {
        assert ring.buf[i] == ring.Contents()[i - ring.head];
      }
    }
  }

  /** `__fill`: fill (and, if needed, activate) with a constant frame. */
  function Fill(max: bool, s: BufferedState, v: ME.Frame, n: nat): (r: BufferedState)
    requires Valid(max, s, n) && |v| == n
    ensures Valid(max, r, n) && r.Active? && Capacity(r) == Capacity(s)
    ensures forall i :: 0 <= i < Capacity(r) ==> r.inner.window.Contents()[i] == v
    ensures ME.Current(r.inner) == v
  {
    match s
    case Uninit(ring) =>
      var r := Promote(max, Uninit(Ring.Fill(ring, v)), n);
      ME.CurrentIsReduce(max, r.inner);
      ReduceConstant(max, r.inner, v);
      r
    case Active(inner) => Active(ME.Fill(max, inner, v))
  }

  /** The extremum of a window holding a single repeated frame is that frame. */
  lemma ReduceConstant(max: bool, inner: ME.ExtremaInner, v: ME.Frame)
    requires inner.Valid(max) && |v| == inner.channels
    requires forall i :: 0 <= i < inner.window.Capacity() ==> inner.window.Contents()[i] == v
    ensures ME.Current(inner) == v
  {
    ME.CurrentIsReduce(max, inner);
    forall ch | 0 <= ch < |v|
      ensures ME.Current(inner)[ch] == v[ch]
    {
      var col := Column(inner.window.Contents(), ch);
      ReduceUnique(max, col, v[ch], 0);
    }
  }

  /** `__fill_with`: fill (and, if needed, activate) with the closure's
      frames, oldest first; `gen(k)` is its k-th frame. */
  function FillWith(max: bool, s: BufferedState, gen: nat -> ME.Frame, n: nat): (r: BufferedState)
    requires Valid(max, s, n)
    requires forall k :: 0 <= k < Capacity(s) ==> |gen(k)| == n
    ensures Valid(max, r, n) && r.Active? && Capacity(r) == Capacity(s)
    ensures forall i :: 0 <= i < Capacity(r) ==> r.inner.window.Contents()[i] == gen(i)
  {
    match s
    case Uninit(ring) =>
      assert Capacity(s) == ring.Capacity();
      Promote(max, Uninit(Ring.FillWith(ring, gen)), n)
    case Active(inner) =>
      assert Capacity(s) == inner.window.Capacity();
      Active(ME.FillWith(max, inner, gen))
  }

  /** `__advance`: an active calculation advances; otherwise the frame is
      stored, and the window activates on the push that wraps its head. */
  function Advance(max: bool, s: BufferedState, input: ME.Frame, n: nat): (r: BufferedState)
    requires Valid(max, s, n) && |input| == n
    ensures Valid(max, r, n) && Capacity(r) == Capacity(s)
    ensures s.Active? ==> r == Active(ME.Advance(max, s.inner, input))
    ensures s.Uninit? ==> (r.Active? <==> s.ring.head + 1 == s.ring.Capacity())
    ensures s.Uninit? && r.Uninit? ==>
      r.ring == Ring.Fixed(s.ring.head + 1, s.ring.buf[s.ring.head := input])
    ensures s.Uninit? && r.Active? ==> r.inner.window.Contents() == s.ring.buf[s.ring.head := input]
  {
    match s
    case Active(inner) => Active(ME.Advance(max, inner, input))
    case Uninit(ring) =>
      var p := Ring.PushWithFlag(ring, input);
      if p.wrapped then Promote(max, Uninit(p.ring), n) else Uninit(p.ring)
  }

  /** `__current`: only an active window has a value. */
  function Current(s: BufferedState): (r: Option<ME.Frame>)
    ensures r.Some? <==> s.Active?
    ensures r.Some? ==> r.value == ME.Current(s.inner)
  {
    match s
    case Active(inner) => Some(ME.Current(inner))
    case Uninit(_) => None
  }

  /** `process`: advance, then read. */
  function Process(max: bool, s: BufferedState, input: ME.Frame, n: nat): (r: (Option<ME.Frame>, BufferedState))
    requires Valid(max, s, n) && |input| == n
    ensures r.1 == Advance(max, s, input, n)
    ensures r.0 == Current(r.1)
    ensures r.0.Some? ==> forall ch :: 0 <= ch < n ==>
      r.0.value[ch] == Reduce(max, Column(r.1.inner.window.Contents(), ch))
  {
    var next := Advance(max, s, input, n);
    ActiveCurrentIsReduce(max, next, n);
    (Current(next), next)
  }

  /** An active window reads, channel by channel, the extremum of its
      window. */
  lemma ActiveCurrentIsReduce(max: bool, s: BufferedState, n: nat)
    requires Valid(max, s, n)
    ensures Current(s).Some? ==> forall ch :: 0 <= ch < n ==>
      Current(s).value[ch] == Reduce(max, Column(s.inner.window.Contents(), ch))
  {
    if s.Active? {
      ME.CurrentIsReduce(max, s.inner);
    }
  }

  function AdvanceAll(max: bool, s: BufferedState, inputs: seq<ME.Frame>, n: nat): (r: BufferedState)
    requires Valid(max, s, n) && Uniform(inputs, n)
    ensures Valid(max, r, n) && Capacity(r) == Capacity(s)
    decreases |inputs|
  {
    if |inputs| == 0 then s else AdvanceAll(max, Advance(max, s, inputs[0], n), inputs[1..], n)
  }

  lemma AdvanceAllFirst(max: bool, s: BufferedState, inputs: seq<ME.Frame>, n: nat)
    requires Valid(max, s, n) && Uniform(inputs, n) && |inputs| > 0
    ensures AdvanceAll(max, s, inputs, n) == AdvanceAll(max, Advance(max, s, inputs[0], n), inputs[1..], n)
  {
  }

  /** Warm-up: an uninitialised window whose head has seen `h` frames stays
      uninitialised, storing the frames in order, until exactly C frames have
      arrived; the C-th activates it over exactly those frames. */
  lemma {:induction false} WarmUp(max: bool, ring: Ring.Fixed<ME.Frame>, inputs: seq<ME.Frame>, n: nat)
    requires Valid(max, Uninit(ring), n) && Uniform(inputs, n)
    requires ring.head + |inputs| <= ring.Capacity()
    ensures WarmedUp(max, ring, inputs, n, AdvanceAll(max, Uninit(ring), inputs, n))
    decreases |inputs|, 1
  {
    if |inputs| == 0 {
      assert ring.buf[..ring.head] + inputs + ring.buf[ring.head..] == ring.buf;
    } else if ring.head + 1 == ring.Capacity() {
      AdvanceAllFirst(max, Uninit(ring), inputs, n);
      var next := Advance(max, Uninit(ring), inputs[0], n);
      assert AdvanceAll(max, next, inputs[1..], n) == next;
      WarmUpLast(max, ring, inputs, n);
    } else {
      WarmUpStep(max, ring, inputs, n);
    }
  }

  /** What `WarmUp` promises of the state `r` reached. */
  ghost predicate WarmedUp(max: bool, ring: Ring.Fixed<ME.Frame>, inputs: seq<ME.Frame>, n: nat, r: BufferedState)
    requires ring.Valid() && ring.head + |inputs| <= ring.Capacity()
  {
    && (r.Active? <==> ring.head + |inputs| == ring.Capacity())
    && (r.Uninit? ==>
          r.ring.head == ring.head + |inputs|
          && r.ring.buf == ring.buf[..ring.head] + inputs + ring.buf[ring.head + |inputs|..])
    && (r.Active? ==> r.inner.window.Valid() && r.inner.window.Contents() == ring.buf[..ring.head] + inputs)
  }

  /** One frame short of a full window: store it and carry on. */
  lemma {:induction false} WarmUpStep(max: bool, ring: Ring.Fixed<ME.Frame>, inputs: seq<ME.Frame>, n: nat)
    requires Valid(max, Uninit(ring), n) && Uniform(inputs, n)
    requires |inputs| > 0 && ring.head + |inputs| <= ring.Capacity() && ring.head + 1 < ring.Capacity()
    ensures WarmedUp(max, ring, inputs, n, AdvanceAll(max, Uninit(ring), inputs, n))
    decreases |inputs|, 0
  {
    var ring' := Ring.Fixed(ring.head + 1, ring.buf[ring.head := inputs[0]]);
    StoreFirst(max, ring, inputs, n);
    WarmUp(max, ring', inputs[1..], n);
    WarmedUpShift(max, ring, inputs, n, AdvanceAll(max, Uninit(ring'), inputs[1..], n));
  }

  /** Short of a full window, the first input is stored at the head and
      the window stays uninitialised. */
  lemma StoreFirst(max: bool, ring: Ring.Fixed<ME.Frame>, inputs: seq<ME.Frame>, n: nat)
    requires Valid(max, Uninit(ring), n) && Uniform(inputs, n)
    requires |inputs| > 0 && ring.head + 1 < ring.Capacity()
    ensures var ring' := Ring.Fixed(ring.head + 1, ring.buf[ring.head := inputs[0]]);
      && Valid(max, Uninit(ring'), n) && Uniform(inputs[1..], n)
      && AdvanceAll(max, Uninit(ring), inputs, n) == AdvanceAll(max, Uninit(ring'), inputs[1..], n)
  {
    AdvanceAllFirst(max, Uninit(ring), inputs, n);
  }

  /** What holds after the rest of the inputs, from the ring holding the
      first one, holds after all of them. */
  lemma WarmedUpShift(max: bool, ring: Ring.Fixed<ME.Frame>, inputs: seq<ME.Frame>, n: nat, r: BufferedState)
    requires ring.Valid() && |inputs| > 0 && ring.head + |inputs| <= ring.Capacity() && ring.head + 1 < ring.Capacity()
    requires WarmedUp(max, Ring.Fixed(ring.head + 1, ring.buf[ring.head := inputs[0]]), inputs[1..], n, r)
    ensures WarmedUp(max, ring, inputs, n, r)
  {
    var h := ring.head;
    var ring' := Ring.Fixed(h + 1, ring.buf[h := inputs[0]]);
    var rest := inputs[1..];
    SpliceStep(ring.buf, h, inputs);
    assert ring'.buf[..ring'.head] + rest == ring.buf[..h] + inputs;
    assert ring'.buf[ring'.head + |rest|..] == ring.buf[h + |inputs|..];
  }

  /** Writing the first input at the head, then the rest after it, writes
      all of them from the head. */
  lemma SpliceStep<T>(buf: seq<T>, h: nat, inputs: seq<T>)
    requires 0 < |inputs| && h + |inputs| <= |buf|
    ensures buf[h := inputs[0]][..h + 1] + inputs[1..] == buf[..h] + inputs
    ensures buf[h := inputs[0]][h + |inputs|..] == buf[h + |inputs|..]
  {
    var b := buf[h := inputs[0]];
    assert b[..h + 1] == buf[..h] + [inputs[0]];
    assert b[h + |inputs|..] == buf[h + |inputs|..];
    assert buf[..h] + [inputs[0]] + inputs[1..] == buf[..h] + inputs;
  }

  /** The push that fills the last slot activates the window. */
  lemma WarmUpLast(max: bool, ring: Ring.Fixed<ME.Frame>, inputs: seq<ME.Frame>, n: nat)
    requires Valid(max, Uninit(ring), n) && Uniform(inputs, n)
    requires ring.head + 1 == ring.Capacity() && |inputs| == 1
    ensures var r := Advance(max, Uninit(ring), inputs[0], n);
      r.Active? && r.inner.window.Contents() == ring.buf[..ring.head] + inputs
  {
    assert ring.buf[ring.head := inputs[0]] == ring.buf[..ring.head] + inputs;
  }

  /** From a fresh (or reset) window of length C: fewer than C frames report
      nothing; after exactly C frames the window is active and reads the
      extremum of those frames. */
  lemma FreshWindowActivates(max: bool, s: BufferedState, inputs: seq<ME.Frame>, n: nat)
    requires Valid(max, s, n) && s.Uninit? && s.ring.head == 0 && Uniform(inputs, n)
    requires |inputs| <= Capacity(s)
    ensures var r := AdvanceAll(max, s, inputs, n);
      && (Current(r).Some? <==> |inputs| == Capacity(s))
      && (Current(r).Some? ==>
            r.inner.window.Contents() == inputs
            && forall ch :: 0 <= ch < n ==> Current(r).value[ch] == Reduce(max, Column(inputs, ch)))
  {
    WarmUp(max, s.ring, inputs, n);
    var r := AdvanceAll(max, s, inputs, n);
    assert WarmedUp(max, s.ring, inputs, n, r);
    if r.Active? {
      assert s.ring.buf[..0] + inputs == inputs;
      ME.CurrentIsReduce(max, r.inner);
    }
  }

  /** The documented run: a buffered moving maximum over four frames of one
      channel, fresh from `from`, reports nothing after the first three
      frames... */
  lemma DocExampleWarming(s0: BufferedState, inputs: seq<ME.Frame>)
    requires From([[-1], [-1], [-1], [-1]], 1) == Success(s0)
    requires inputs in {[[1]], [[1], [2]], [[1], [2], [3]]}
    ensures Current(AdvanceAll(true, s0, inputs, 1)) == None
  {
    FreshWindowActivates(true, s0, inputs, 1);
  }

  /** ... and the maximum of the four frames after the fourth. */
  lemma DocExampleActive(s0: BufferedState, inputs: seq<ME.Frame>)
    requires From([[-1], [-1], [-1], [-1]], 1) == Success(s0)
    requires inputs == [[1], [2], [3], [4]]
    ensures Current(AdvanceAll(true, s0, inputs, 1)) == Some([4])
  {
    assert Capacity(s0) == 4;
    FreshWindowActivates(true, s0, inputs, 1);
    var r := AdvanceAll(true, s0, inputs, 1);
    var v := Current(r).value;
    assert |v| == 1;
    var col := Column(inputs, 0);
    assert col == [1, 2, 3, 4];
    ReduceUnique(true, col, 4, 3);
    assert v == [4];
  }
}

=== FILE: conv.dfy ===
/** The integer-to-integer sample conversions of src/sample/conv.rs,
    generated there by the `conv_x_to_x`, `conv_i_to_u` and `conv_u_to_i`
    macros for every pair of primitive widths. Here they are single
    functions of the source width `n` and target width `m`. Every typed
    operation of the source is written out on unbounded integers with the
    two's-complement wrap it would perform (`as` casts and `<<` wrap, `>>`
    is a floor division by a power of two); the contracts show each wrap is
    the identity, so no intermediate value ever leaves its Rust type. */
module Conv {
  import opened Arith

  /** The values of an `m`-bit integer type. */
  predicate InRange(x: int, m: nat, signed: bool)
    requires m >= 1
  {
    if signed then -(Pow2(m - 1) as int) <= x < Pow2(m - 1) else 0 <= x < Pow2(m)
  }

  /** Two's-complement truncation to `m` bits, as `as` and `<<` perform
      it. */
  function Wrap(x: int, m: nat, signed: bool): (w: int)
    requires m >= 1
    ensures InRange(w, m, signed)
    ensures InRange(x, m, signed) ==> w == x
    ensures (x - w) % Pow2(m) == 0
  {
    var half := Pow2(m - 1);
    assert Pow2(m) == 2 * half;
    if signed then
      var w := (x + half) % Pow2(m) - half;
      WrapFacts(x + half, Pow2(m));
      w
    else
      WrapFacts(x, Pow2(m));
      x % Pow2(m)
  }

  lemma WrapFacts(x: int, p: int)
    requires p > 0
    ensures 0 <= x < p ==> x % p == x
    ensures (x - x % p) % p == 0
  {
    if 0 <= x < p {
      ModUnique(x, p, 0, x);
    }
    ModUnique(x - x % p, p, x / p, 0);
  }

  /** `x << k` in an `m`-bit type. */
  function Shl(x: int, k: nat, m: nat, signed: bool): int
    requires m >= 1
  {
    Wrap(x * Pow2(k), m, signed)
  }

  /** `x >> k`: arithmetic for signed, logical for unsigned values; on the
      value both are the floor of `x / 2^k`. */
  function Shr(x: int, k: nat): int {
    x / Pow2(k)
  }

  /** `conv_x_to_x`: same signedness. Widening casts then shifts left by
      the width difference; narrowing shifts right, then casts. */
  function XToX(s: int, n: nat, m: nat, signed: bool): (r: int)
    requires n >= 1 && m >= 1 && InRange(s, n, signed)
    ensures InRange(r, m, signed)
    ensures n <= m ==> r == s * Pow2(m - n)
    ensures n > m ==> r == s / Pow2(n - m)
  {
    if n <= m then
      WidenRange(s, n, m, signed);
      Shl(Wrap(s, m, signed), m - n, m, signed)
    else
      NarrowRange(s, n, m, signed);
      Wrap(Shr(s, n - m), m, signed)
  }

  /** Scaling an `n`-bit value by 2^(m-n) stays within `m` bits; in
      particular the value itself does. */
  lemma WidenRange(s: int, n: nat, m: nat, signed: bool)
    requires 1 <= n <= m && InRange(s, n, signed)
    ensures InRange(s, m, signed)
    ensures InRange(s * Pow2(m - n), m, signed)
  {
    if signed {
      WidenBounds(-(Pow2(n - 1) as int), s, n - 1, m - n);
    } else {
      WidenBounds(0, s, n, m - n);
    }
  }

  /** `lo <= s < 2^a` with `-2^a <= lo <= 0` stays so at `a + d` bits, and
      so does `s` scaled by `2^d`. */
  lemma WidenBounds(lo: int, s: int, a: nat, d: nat)
    requires -(Pow2(a) as int) <= lo <= 0 && lo <= s < Pow2(a)
    ensures -(Pow2(a + d) as int) <= lo * Pow2(d) && lo * Pow2(d) <= s * Pow2(d) < Pow2(a + d)
    ensures -(Pow2(a + d) as int) <= s < Pow2(a + d)
  {
    ScaleBelow(lo, s, Pow2(a), Pow2(d));
    Pow2Add(a, d);
    Pow2Monotone(a, a + d);
    MulMonotone(-(Pow2(a) as int), lo, Pow2(d));
  }

  /** `lo <= s < hi` scaled by a positive `k`. */
  lemma ScaleBelow(lo: int, s: int, hi: int, k: int)
    requires lo <= s < hi && k > 0
    ensures lo * k <= s * k < hi * k
  {
    MulMonotone(lo, s, k);
    MulMonotone(s, hi - 1, k);
    MulDistrib(k, hi, -1);
  }

  /** Dividing an `n`-bit value by 2^(n-m) lands within `m` bits. */
  lemma NarrowRange(s: int, n: nat, m: nat, signed: bool)
    requires 1 <= m < n && InRange(s, n, signed)
    ensures InRange(s / Pow2(n - m), m, signed)
  {
    var k := Pow2(n - m);
    Pow2Add(m - 1, n - m);
    Pow2Add(m, n - m);
    if signed {
      DivBounds(s, Pow2(m - 1), k);
      DivBounds(s, -(Pow2(m - 1) as int), k);
    } else {
      DivBounds(s, Pow2(m), k);
      DivBounds(s, 0, k);
    }
  }

  /** `conv_i_to_u`: signed `n` bits to unsigned `m` bits. Narrowing first
      converts to the signed type of width `m`, then re-biases at equal
      width. Otherwise the value is lifted by 2^(n-1) (`s + MAX + 1` in
      the signed type for negatives, in the unsigned type otherwise) and
      shifted left. */
  function IToU(s: int, n: nat, m: nat): (r: int)
    requires n >= 1 && m >= 1 && InRange(s, n, true)
    ensures InRange(r, m, false)
    ensures n <= m ==> r == (s + Pow2(n - 1)) * Pow2(m - n)
    ensures n > m ==> r == s / Pow2(n - m) + Pow2(m - 1)
    decreases n
  {
    if n > m then
      IToU(XToX(s, n, m, true), m, m)
    else
      var sMax := Pow2(n - 1) - 1;
      LiftRange(s, n, m);
      if s < 0 then
        Shl(Wrap(s + sMax + 1, m, false), m - n, m, false)
      else
        Shl(Wrap(s, m, false) + Wrap(sMax, m, false) + 1, m - n, m, false)
  }

  /** The lifted value `s + 2^(n-1)` is an unsigned `n`-bit value, and so
      are its partial sums; scaled by 2^(m-n) it fits `m` bits. */
  lemma LiftRange(s: int, n: nat, m: nat)
    requires 1 <= n <= m && InRange(s, n, true)
    ensures InRange(s + Pow2(n - 1), n, false)
    ensures InRange(s + Pow2(n - 1), m, false)
    ensures s >= 0 ==> InRange(s, m, false) && InRange(Pow2(n - 1) - 1, m, false)
    ensures s < 0 ==> InRange(s + Pow2(n - 1) - 1, n, true)
    ensures InRange((s + Pow2(n - 1)) * Pow2(m - n), m, false)
  {
    WidenRange(s + Pow2(n - 1), n, m, false);
  }

  /** `conv_u_to_i`: unsigned `n` bits to signed `m` bits, with
      `ORIGIN = 2^(n-1)`. Narrowing first converts to the unsigned type of
      width `m`; equal widths subtract the origin on whichever side of it
      the value lies; widening subtracts it in the signed type and shifts
      left. */
  function UToI(s: int, n: nat, m: nat): (r: int)
    requires n >= 1 && m >= 1 && InRange(s, n, false)
    ensures InRange(r, m, true)
    ensures n <= m ==> r == (s - Pow2(n - 1)) * Pow2(m - n)
    ensures n > m ==> r == s / Pow2(n - m) - Pow2(m - 1)
    decreases n
  {
    var origin := Pow2(n - 1);
    if n > m then
      UToI(XToX(s, n, m, false), m, m)
    else if n == m then
      LowerRange(s, n);
      if s < origin then
        Wrap(s, m, true) - (Pow2(m - 1) - 1) - 1
      else
        Wrap(s - origin, m, true)
    else
      SinkRange(s, n, m);
      Shl(Wrap(s, m, true) - Wrap(origin, m, true), m - n, m, true)
  }

  /** At equal widths each branch's operands are values of the signed
      type. */
  lemma LowerRange(s: int, n: nat)
    requires n >= 1 && InRange(s, n, false)
    ensures s < Pow2(n - 1) ==> InRange(s, n, true) && InRange(s - (Pow2(n - 1) - 1), n, true)
    ensures s >= Pow2(n - 1) ==> InRange(s - Pow2(n - 1), n, true)
  {
  }

  /** Widening: the unsigned value and the origin are values of the wider
      signed type, and the re-centred value scaled by 2^(m-n) fits it. */
  lemma SinkRange(s: int, n: nat, m: nat)
    requires 1 <= n < m && InRange(s, n, false)
    ensures InRange(s, m, true) && InRange(Pow2(n - 1), m, true)
    ensures InRange(s - Pow2(n - 1), n, true)
    ensures InRange((s - Pow2(n - 1)) * Pow2(m - n), m, true)
  {
    Pow2Monotone(n, m - 1);
    WidenRange(s - Pow2(n - 1), n, m, true);
  }

  // ---------------------------------------------------------------------
  // Properties relating the conversions.

  /** Widening then narrowing back within one signedness returns the
      original sample. */
  lemma XToXRoundTrip(s: int, n: nat, m: nat, signed: bool)
    requires 1 <= n <= m && InRange(s, n, signed)
    ensures XToX(XToX(s, n, m, signed), m, n, signed) == s
  {
    if n < m {
      ModUnique(s * Pow2(m - n), Pow2(m - n), s, 0);
    } else {
      ModUnique(s, 1, s, 0);
    }
  }

  /** Widening across signedness and narrowing back also returns the
      original sample, in both directions. */
  lemma SignednessRoundTrip(s: int, t: int, n: nat, m: nat)
    requires 1 <= n <= m && InRange(s, n, true) && InRange(t, n, false)
    ensures UToI(IToU(s, n, m), m, n) == s
    ensures IToU(UToI(t, n, m), m, n) == t
  {
    var k := Pow2(m - n);
    Pow2Add(n - 1, m - n);
    if n < m {
      MulDistrib(k, s, Pow2(n - 1));
      ModUnique((s + Pow2(n - 1)) * k, k, s + Pow2(n - 1), 0);
      MulDistrib(k, t, -(Pow2(n - 1) as int));
      ModUnique((t - Pow2(n - 1)) * k, k, t - Pow2(n - 1), 0);
    }
  }

  /** Equilibrium maps to equilibrium: 0 for signed types, 2^(n-1) for
      unsigned ones. */
  lemma EquilibriumPreserved(n: nat, m: nat)
    requires n >= 1 && m >= 1
    ensures InRange(0, n, true) && InRange(Pow2(n - 1), n, false)
    ensures XToX(0, n, m, true) == 0
    ensures XToX(Pow2(n - 1), n, m, false) == Pow2(m - 1)
    ensures IToU(0, n, m) == Pow2(m - 1)
    ensures UToI(Pow2(n - 1), n, m) == 0
  {
    if n <= m {
      Pow2Add(n - 1, m - n);
    } else {
      Pow2Add(m - 1, n - m);
      ModUnique(Pow2(n - 1), Pow2(n - m), Pow2(m - 1), 0);
      ModUnique(0, Pow2(n - m), 0, 0);
    }
  }

  /** A worked instance: an unsigned 8-bit 255 is a signed 8-bit 127, and
      widens to signed 16-bit 32512. */
  lemma ConvExample()
    ensures Pow2(7) == 128 && Pow2(8) == 256
    ensures UToI(255, 8, 8) == 127
    ensures UToI(255, 8, 16) == 127 * 256
    ensures IToU(-128, 8, 8) == 0
  {
    assert Pow2(8) == 256;
    assert Pow2(15) == 32768;
  }
}

=== FILE: cumulative.dfy ===
/** The cumulative statistics of src/stats/cumulative.rs: a running
    minimum/maximum and a running mean, mean square and RMS over every frame
    seen since the last reset. */
module Cumulative {
  import opened Wrappers
  import opened Policy
  import opened Frames
  import opened Summage

  /** A running minimum (`max` false) or maximum (`max` true). The frame
      count is a `u64` in the source; see README for its overflow. */
  datatype CumExtrema = CumExtrema(extrema: seq<int>, count: nat)

  /** `__default`: the equilibrium frame, no frames counted. */
  function DefaultExtrema(n: nat): (c: CumExtrema)
    ensures |c.extrema| == n && c.count == 0
    ensures forall ch :: 0 <= ch < n ==> c.extrema[ch] == 0
  {
    CumExtrema(seq(n, _ => 0), 0)
  }

  /** `ExtremaInner::__advance`: the first frame is taken as is; later ones
      replace a channel's extremum whenever they surpass it. */
  function AdvanceExtrema(max: bool, c: CumExtrema, input: seq<int>): (r: CumExtrema)
    requires |input| == |c.extrema|
    ensures |r.extrema| == |c.extrema| && r.count == c.count + 1
    ensures c.count == 0 ==> r.extrema == input
    ensures c.count > 0 ==> forall ch :: 0 <= ch < |input| ==>
      (Surpasses(max, input[ch], c.extrema[ch]) ==> r.extrema[ch] == input[ch])
      && (!Surpasses(max, input[ch], c.extrema[ch]) ==> r.extrema[ch] == c.extrema[ch])
  {
    if c.count == 0 then CumExtrema(input, 1)
    else
      CumExtrema(
        seq(|input|, ch requires 0 <= ch < |input| =>
          if Surpasses(max, input[ch], c.extrema[ch]) then input[ch] else c.extrema[ch]),
        c.count + 1)
  }

  /** `is_empty`. */
  function IsEmptyExtrema(c: CumExtrema): (b: bool)
    ensures b <==> c.count == 0
  {
    c.count == 0
  }

  /** `try_current`: nothing before the first frame. */
  function TryCurrentExtrema(c: CumExtrema): (r: Option<seq<int>>)
    ensures r.None? <==> c.count == 0
    ensures r.Some? ==> r.value == c.extrema
  {
    if c.count != 0 then Some(c.extrema) else None
  }

  /** `current`: panics before the first frame. */
  function CurrentExtrema(c: CumExtrema): (r: Result<seq<int>, Error>)
    ensures r.Failure? <==> c.count == 0
    ensures r.Failure? ==> r.error == NoFramesYet
    ensures r.Success? ==> TryCurrentExtrema(c) == Some(r.value)
  {
    match TryCurrentExtrema(c)
    case None => Failure(NoFramesYet)
    case Some(v) => Success(v)
  }

  /** `reset`: back to the default calculator, with nothing counted. */
  function ResetExtrema(c: CumExtrema): (r: CumExtrema)
    ensures |r.extrema| == |c.extrema|
    ensures IsEmptyExtrema(r) && TryCurrentExtrema(r) == None
  {
    DefaultExtrema(|c.extrema|)
  }

  /** Feeding frames one after the other (the last one last). */
  function FeedExtrema(max: bool, c: CumExtrema, inputs: seq<seq<int>>): (r: CumExtrema)
    requires Uniform(inputs, |c.extrema|)
    ensures |r.extrema| == |c.extrema| && r.count == c.count + |inputs|
    decreases |inputs|
  {
    if |inputs| == 0 then c
    else AdvanceExtrema(max, FeedExtrema(max, c, inputs[..|inputs| - 1]), inputs[|inputs| - 1])
  }

  /** From the default (or a reset), the running extremum is exactly the
      naive reduction of everything fed so far, and the count is the number
      of frames. */
  lemma {:induction false} FeedExtremaIsReduce(max: bool, n: nat, inputs: seq<seq<int>>)
    requires Uniform(inputs, n) && |inputs| > 0
    ensures var r := FeedExtrema(max, DefaultExtrema(n), inputs);
      && r.count == |inputs|
      && forall ch :: 0 <= ch < n ==> r.extrema[ch] == Reduce(max, Column(inputs, ch))
    decreases |inputs|
  {
    var r := FeedExtrema(max, DefaultExtrema(n), inputs);
    if |inputs| > 1 {
      var init := inputs[..|inputs| - 1];
      FeedExtremaIsReduce(max, n, init);
      var prev := FeedExtrema(max, DefaultExtrema(n), init);
      forall ch | 0 <= ch < n
        ensures r.extrema[ch] == Reduce(max, Column(inputs, ch))
      {
        assert Column(inputs, ch)[..|inputs| - 1] == Column(init, ch);
        SurpassesTotal(max, inputs[|inputs| - 1][ch], prev.extrema[ch]);
      }
    } else {
      forall ch | 0 <= ch < n
        ensures r.extrema[ch] == Reduce(max, Column(inputs, ch))
      {
      }
    }
  }

  /** After a reset, the frames fed before it play no part: the count and
      the extremum are those of the frames fed since. */
  lemma ResetForgets(max: bool, c: CumExtrema, before: seq<seq<int>>, after: seq<seq<int>>)
    requires Uniform(before, |c.extrema|) && Uniform(after, |c.extrema|) && |after| > 0
    ensures var r := FeedExtrema(max, ResetExtrema(FeedExtrema(max, c, before)), after);
      && r.count == |after|
      && forall ch :: 0 <= ch < |c.extrema| ==> r.extrema[ch] == Reduce(max, Column(after, ch))
  {
    FeedExtremaIsReduce(max, |c.extrema|, after);
  }

  /** The documented running minimum and maximum, samples scaled by two:
      feeding 0, 1, 2, -1 reads 0, 0, 0, -1 as a minimum and 0, 1, 2, 2 as a
      maximum. */
  lemma ExtremaDocExample()
    ensures var c0 := DefaultExtrema(1);
      && var lo1 := AdvanceExtrema(false, c0, [0]);
      && var lo2 := AdvanceExtrema(false, lo1, [1]);
      && var lo3 := AdvanceExtrema(false, lo2, [2]);
      && var lo4 := AdvanceExtrema(false, lo3, [-1]);
      && var hi1 := AdvanceExtrema(true, c0, [0]);
      && var hi2 := AdvanceExtrema(true, hi1, [1]);
      && var hi3 := AdvanceExtrema(true, hi2, [2]);
      && var hi4 := AdvanceExtrema(true, hi3, [-1]);
      && TryCurrentExtrema(c0) == None
      && [lo1.extrema, lo2.extrema, lo3.extrema, lo4.extrema] == [[0], [0], [0], [-1]]
      && [hi1.extrema, hi2.extrema, hi3.extrema, hi4.extrema] == [[0], [1], [2], [2]]
      && lo4.count == 4
  {
    var c0 := DefaultExtrema(1);
    var lo1 := AdvanceExtrema(false, c0, [0]);
    var lo2 := AdvanceExtrema(false, lo1, [1]);
    assert lo2.extrema == [0];
    var lo3 := AdvanceExtrema(false, lo2, [2]);
    assert lo3.extrema == [0];
    var lo4 := AdvanceExtrema(false, lo3, [-1]);
    assert lo4.extrema == [-1];
    var hi1 := AdvanceExtrema(true, c0, [0]);
    var hi2 := AdvanceExtrema(true, hi1, [1]);
    assert hi2.extrema == [1];
    var hi3 := AdvanceExtrema(true, hi2, [2]);
    assert hi3.extrema == [2];
    var hi4 := AdvanceExtrema(true, hi3, [-1]);
    assert hi4.extrema == [2];
  }

  /** A running mean, mean square or RMS (before the square root). */
  datatype CumSummage = CumSummage(avg: seq<real>, count: nat)

  function DefaultSummage(n: nat): (c: CumSummage)
    ensures |c.avg| == n && c.count == 0
    ensures forall ch :: 0 <= ch < n ==> c.avg[ch] == 0.0
  {
    CumSummage(seq(n, _ => 0.0), 0)
  }

  /** `SummageInner::__advance`: the first prepared frame is taken as is;
      later ones move the average by `(x - a) / count`; the RMS floors the
      average at 0 against rounding. */
  function AdvanceSummage(kind: Kind, c: CumSummage, input: seq<real>): (r: CumSummage)
    requires |input| == |c.avg|
    ensures |r.avg| == |c.avg| && r.count == c.count + 1
    ensures c.count == 0 ==> r.avg == Prep(kind, input)
  {
    var p := Prep(kind, input);
    if c.count == 0 then CumSummage(p, 1)
    else
      var count := c.count + 1;
      CumSummage(
        seq(|p|, ch requires 0 <= ch < |p| =>
          var a := c.avg[ch] + (p[ch] - c.avg[ch]) / count as real;
          if kind.Sqrt() && a < 0.0 then 0.0 else a),
        count)
  }

  function TryCurrentSummage(c: CumSummage): (r: Option<seq<real>>)
    ensures r.None? <==> c.count == 0
    ensures r.Some? ==> r.value == c.avg
  {
    if c.count != 0 then Some(c.avg) else None
  }

  function CurrentSummage(c: CumSummage): (r: Result<seq<real>, Error>)
    ensures r.Failure? <==> c.count == 0
    ensures r.Failure? ==> r.error == NoFramesYet
    ensures r.Success? ==> TryCurrentSummage(c) == Some(r.value)
  {
    match TryCurrentSummage(c)
    case None => Failure(NoFramesYet)
    case Some(v) => Success(v)
  }

  /** `reset` of a running mean, mean square or RMS. */
  function ResetSummage(c: CumSummage): (r: CumSummage)
    ensures |r.avg| == |c.avg|
    ensures r.count == 0 && TryCurrentSummage(r) == None
  {
    DefaultSummage(|c.avg|)
  }

  function FeedSummage(kind: Kind, c: CumSummage, inputs: seq<seq<real>>): (r: CumSummage)
    requires Uniform(inputs, |c.avg|)
    ensures |r.avg| == |c.avg| && r.count == c.count + |inputs|
    decreases |inputs|
  {
    if |inputs| == 0 then c
    else AdvanceSummage(kind, FeedSummage(kind, c, inputs[..|inputs| - 1]), inputs[|inputs| - 1])
  }

  /** The incremental update is the exact mean update: if `a` is the mean
      of `k` values summing to `s`, then `a + (x - a) / (k + 1)` is the mean
      of those values and `x`. */
  lemma MeanStep(s: real, k: nat, a: real, x: real)
    requires k > 0 && a == s / k as real
    ensures a + (x - a) / (k + 1) as real == (s + x) / (k + 1) as real
  {
    var kr := k as real;
    assert a * kr == s;
    assert a + (x - a) / (kr + 1.0) == (a * (kr + 1.0) + x - a) / (kr + 1.0);
  }

  /** From the default (or a reset), the running average is exactly the
      mean of the prepared frames fed so far: the mean for `Mean`, the mean of
      the squares for `Ms` and `Rms`; the RMS floor never bites. */
  lemma {:induction false} FeedSummageIsMean(kind: Kind, n: nat, inputs: seq<seq<real>>)
    requires Uniform(inputs, n) && |inputs| > 0
    ensures var r := FeedSummage(kind, DefaultSummage(n), inputs);
      && r.count == |inputs|
      && forall ch :: 0 <= ch < n ==>
           r.avg[ch] == Sum(Column(Prepped(kind, inputs), ch)) / |inputs| as real
    decreases |inputs|
  {
    var r := FeedSummage(kind, DefaultSummage(n), inputs);
    var k := |inputs| - 1;
    if k > 0 {
      var init := inputs[..k];
      FeedSummageIsMean(kind, n, init);
      forall ch | 0 <= ch < n
        ensures r.avg[ch] == Sum(Column(Prepped(kind, inputs), ch)) / |inputs| as real
      {
        FeedSummageStep(kind, n, inputs, ch);
      }
    } else {
      forall ch | 0 <= ch < n
        ensures r.avg[ch] == Sum(Column(Prepped(kind, inputs), ch)) / |inputs| as real
      {
        assert Column(Prepped(kind, inputs), ch) == [Prep(kind, inputs[0])[ch]];
        SumAppend([], Prep(kind, inputs[0])[ch]);
      }
    }
  }

  /** One more frame keeps one channel's average the exact mean. */
  lemma FeedSummageStep(kind: Kind, n: nat, inputs: seq<seq<real>>, ch: nat)
    requires Uniform(inputs, n) && |inputs| > 1 && ch < n
    requires var init := inputs[..|inputs| - 1];
      FeedSummage(kind, DefaultSummage(n), init).avg[ch]
        == Sum(Column(Prepped(kind, init), ch)) / |init| as real
    ensures FeedSummage(kind, DefaultSummage(n), inputs).avg[ch]
      == Sum(Column(Prepped(kind, inputs), ch)) / |inputs| as real
  {
    var k := |inputs| - 1;
    var init := inputs[..k];
    var prev := FeedSummage(kind, DefaultSummage(n), init);
    var col := Column(Prepped(kind, inputs), ch);
    var x := Prep(kind, inputs[k])[ch];
    var a := prev.avg[ch] + (x - prev.avg[ch]) / (k + 1) as real;
    assert a == Sum(col) / |inputs| as real by {
      assert col == Column(Prepped(kind, init), ch) + [x];
      SumAppend(Column(Prepped(kind, init), ch), x);
      MeanStep(Sum(Column(Prepped(kind, init), ch)), k, prev.avg[ch], x);
    }
    assert kind.Sqrt() ==> a >= 0.0 by {
      if kind.Sqrt() {
        SumNonNegative(col);
        DivNonNegative(Sum(col), |inputs| as real);
      }
    }
    assert FeedSummage(kind, DefaultSummage(n), inputs) == AdvanceSummage(kind, prev, inputs[k]);
  }

  /** After a reset the running average is the mean of the prepared frames
      fed since, whatever came before. */
  lemma ResetSummageForgets(kind: Kind, c: CumSummage, before: seq<seq<real>>, after: seq<seq<real>>)
    requires Uniform(before, |c.avg|) && Uniform(after, |c.avg|) && |after| > 0
    ensures var r := FeedSummage(kind, ResetSummage(FeedSummage(kind, c, before)), after);
      && r.count == |after|
      && forall ch :: 0 <= ch < |c.avg| ==>
           r.avg[ch] == Sum(Column(Prepped(kind, after), ch)) / |after| as real
  {
    FeedSummageIsMean(kind, |c.avg|, after);
  }

  lemma DivNonNegative(a: real, b: real)
    requires a >= 0.0 && b > 0.0
    ensures a / b >= 0.0
  {
  }

  /** The frames as stored by the calculator. */
  function Prepped(kind: Kind, inputs: seq<seq<real>>): (ps: seq<seq<real>>)
    ensures |ps| == |inputs|
    ensures forall i :: 0 <= i < |inputs| ==> ps[i] == Prep(kind, inputs[i])
  {
    seq(|inputs|, i requires 0 <= i < |inputs| => Prep(kind, inputs[i]))
  }

  /** The documented running mean and mean square of 0, 0.5, 1, -0.5. */
  lemma SummageDocExample()
    ensures var c0 := DefaultSummage(1);
      && var m1 := AdvanceSummage(Mean, c0, [0.0]);
      && var m2 := AdvanceSummage(Mean, m1, [0.5]);
      && var m3 := AdvanceSummage(Mean, m2, [1.0]);
      && var m4 := AdvanceSummage(Mean, m3, [-0.5]);
      && var q1 := AdvanceSummage(Ms, c0, [0.0]);
      && var q2 := AdvanceSummage(Ms, q1, [0.5]);
      && var q3 := AdvanceSummage(Ms, q2, [1.0]);
      && var q4 := AdvanceSummage(Ms, q3, [-0.5]);
      && [m1.avg, m2.avg, m3.avg, m4.avg] == [[0.0], [0.25], [0.5], [0.25]]
      && [q1.avg, q2.avg, q3.avg, q4.avg] == [[0.0], [0.125], [1.25 / 3.0], [0.375]]
  {
    var c0 := DefaultSummage(1);
    var m1 := AdvanceSummage(Mean, c0, [0.0]);
    assert m1.avg == [0.0];
    var m2 := AdvanceSummage(Mean, m1, [0.5]);
    assert m2.avg == [0.25];
    var m3 := AdvanceSummage(Mean, m2, [1.0]);
    assert m3.avg == [0.5];
    var m4 := AdvanceSummage(Mean, m3, [-0.5]);
    assert m4.avg == [0.25];
    var q1 := AdvanceSummage(Ms, c0, [0.0]);
    assert q1.avg == [0.0];
    var q2 := AdvanceSummage(Ms, q1, [0.5]);
    assert q2.avg == [0.125];
    var q3 := AdvanceSummage(Ms, q2, [1.0]);
    assert q3.avg == [1.25 / 3.0];
    var q4 := AdvanceSummage(Ms, q3, [-0.5]);
    assert q4.avg == [0.375];
  }
}

=== FILE: dynamic.dfy ===
/** The heap-allocated frame of src/frame/dynamic.rs: a run-time number of
    channels, one sample each, which can be grown, shrunk and truncated. */
module Dynamic {
  import opened Wrappers

  datatype Dynamic<S> = Dynamic(samples: seq<S>)

  /** `len`: the number of channels. */
  function Len<S>(f: Dynamic<S>): (n: nat)
    ensures n == |f.samples|
  {
    |f.samples|
  }

  /** `get(channel)`: the sample of that channel, if the frame has it. */
  function Get<S>(f: Dynamic<S>, c: nat): (r: Option<S>)
    ensures r.Some? <==> c < Len(f)
    ensures r.Some? ==> r.value == f.samples[c]
  {
    if c < |f.samples| then Some(f.samples[c]) else None
  }

  /** `resize_with(new_len, f)`: nothing happens at the current length;
      otherwise the contents are cut to `new_len`, or extended by calling
      the closure once per added channel, in channel order. The closure is
      `gen`, indexed by call number. */
  function ResizeWith<S>(f: Dynamic<S>, newLen: nat, gen: nat -> S): (r: Dynamic<S>)
    ensures Len(r) == newLen
    ensures forall c :: 0 <= c < newLen && c < Len(f) ==> r.samples[c] == f.samples[c]
    ensures forall c :: Len(f) <= c < newLen ==> r.samples[c] == gen(c - Len(f))
    ensures newLen == Len(f) ==> r == f
  {
    if |f.samples| == newLen then f
    else if newLen < |f.samples| then Dynamic(f.samples[..newLen])
    else Dynamic(f.samples + seq(newLen - |f.samples|, k requires 0 <= k => gen(k)))
  }

  /** `resize(new_len, s)`: `resize_with` with a closure that always
      returns `s`. */
  function Resize<S>(f: Dynamic<S>, newLen: nat, s: S): (r: Dynamic<S>)
    ensures Len(r) == newLen
    ensures forall c :: 0 <= c < newLen && c < Len(f) ==> r.samples[c] == f.samples[c]
    ensures forall c :: Len(f) <= c < newLen ==> r.samples[c] == s
    ensures newLen == Len(f) ==> r == f
  {
    ResizeWith(f, newLen, _ => s)
  }

  /** `truncate(new_len)`: a longer frame keeps its first `new_len`
      channels; a frame no longer than that is left alone. */
  function Truncate<S>(f: Dynamic<S>, newLen: nat): (r: Dynamic<S>)
    ensures Len(f) > newLen ==> Len(r) == newLen && r.samples == f.samples[..newLen]
    ensures Len(f) <= newLen ==> r == f
  {
    if |f.samples| > newLen then Dynamic(f.samples[..newLen]) else f
  }

  // ---------------------------------------------------------------------
  // Properties relating the operations.

  /** Channel by channel, a resized frame reads as the old frame on the
      channels both have, `s` on the added ones, and nothing beyond the new
      length. */
  lemma GetAfterResize<S>(f: Dynamic<S>, newLen: nat, s: S, c: nat)
    ensures Get(Resize(f, newLen, s), c)
      == if c < newLen && c < Len(f) then Get(f, c)
         else if c < newLen then Some(s)
         else None
  {
  }

  /** Shrinking by `resize` is `truncate`: the fill value plays no part. */
  lemma ShrinkIsTruncate<S>(f: Dynamic<S>, newLen: nat, s: S)
    requires newLen <= Len(f)
    ensures Resize(f, newLen, s) == Truncate(f, newLen)
  {
    if newLen < Len(f) {
      assert Resize(f, newLen, s).samples == f.samples[..newLen];
    }
  }

  /** Growing and then resizing back to the old length restores the
      frame. */
  lemma GrowThenShrink<S>(f: Dynamic<S>, newLen: nat, s: S, t: S)
    requires newLen >= Len(f)
    ensures Resize(Resize(f, newLen, s), Len(f), t) == f
  {
    var g := Resize(f, newLen, s);
    if newLen > Len(f) {
      assert Resize(g, Len(f), t).samples == f.samples;
    }
  }

  /** Truncation is idempotent, and truncating to a length no shorter
      than the frame does nothing. */
  lemma TruncateIdempotent<S>(f: Dynamic<S>, newLen: nat)
    ensures Truncate(Truncate(f, newLen), newLen) == Truncate(f, newLen)
    ensures Len(Truncate(f, newLen)) == if Len(f) <= newLen then Len(f) else newLen
  {
  }

  /** The unit test: `[-30, -10, 10, 30]` resized to 2 keeps
      `[-30, -10]`; resized to 8 with -128 appends four -128s. */
  lemma ResizeDocExample(f: Dynamic<int>)
    requires f == Dynamic([-30, -10, 10, 30])
    ensures Resize(f, 2, -128).samples == [-30, -10]
    ensures Resize(f, 8, -128).samples == [-30, -10, 10, 30, -128, -128, -128, -128]
  {
    var r := Resize(f, 8, -128);
    assert |r.samples| == 8;
    assert r.samples[4] == -128 && r.samples[5] == -128 && r.samples[6] == -128 && r.samples[7] == -128;
  }
}

=== FILE: extrema.dfy ===
/** One channel of the windowed extremum tracker of src/stats/moving.rs.

    A channel remembers two marks into the window it summarises:
    - the frontier: the window's extremum, at its window index (0 is the
      oldest frame, the next to be evicted);
    - the horizon (optional): the extremum of the frames strictly after the
      frontier, its position an offset from the frame just after the
      frontier.
    `cursor` is the window index of the newest frame. */
module Extrema {
  import opened Wrappers
  import opened Policy

  /** What one channel's update did (the source's `Diff`). */
  datatype Diff = NoChange | Frontier | Horizon | HorizonInit | Promoted

  datatype Track = Track(frontier: Mark, horizon: Option<Mark>)

  datatype Step = Step(diff: Diff, track: Track)

  /** The bookkeeping the position arithmetic relies on: the frontier is no
      later than the cursor, a horizon lies between them, and the horizon is
      absent exactly when the frontier sits on the cursor. */
  predicate Shape(t: Track, cursor: nat) {
    && t.frontier.pos <= cursor
    && (t.horizon.None? <==> t.frontier.pos == cursor)
    && (t.horizon.Some? ==> t.frontier.pos + 1 + t.horizon.value.pos <= cursor)
  }

  /** The tracker's invariant against the channel's window contents `s`
      (oldest first): the frontier is the latest best of the whole window, the
      horizon is absent exactly when the frontier is the newest frame, and
      otherwise it is the latest best of the frames after the frontier. */
  ghost predicate TrackInv(max: bool, s: seq<int>, t: Track) {
    && LatestBest(max, s, 0, t.frontier)
    && (t.horizon.None? <==> t.frontier.pos == |s| - 1)
    && (t.horizon.Some? ==> LatestBest(max, s, t.frontier.pos + 1, t.horizon.value))
  }

  /** The invariant determines the bookkeeping. */
  lemma InvShape(max: bool, s: seq<int>, t: Track)
    requires TrackInv(max, s, t)
    ensures |s| > 0 && Shape(t, |s| - 1)
  {
  }

  /** `set_frontier`: the contender becomes the frontier at the cursor, and
      the horizon is cleared. */
  function SetFrontier(x: int, cursor: nat): (r: Step)
    ensures r.diff == Frontier && r.track.horizon.None?
    ensures Shape(r.track, cursor) && r.track.frontier.val == x
  {
    Step(Frontier, Track(Mark(x, cursor), None))
  }

  /** `set_horizon`: the contender becomes the horizon; its offset places it
      on the cursor. */
  function SetHorizon(f: Mark, x: int, cursor: nat): (r: Step)
    requires f.pos < cursor
    ensures r.diff == Horizon && r.track.frontier == f
    ensures r.track.horizon.Some? && r.track.horizon.value.val == x
    ensures f.pos + 1 + r.track.horizon.value.pos == cursor
  {
    Step(Horizon, Track(f, Some(Mark(x, cursor - f.pos - 1))))
  }

  /** `set_horizon_init`: as `SetHorizon` on an empty horizon. The source
      asserts the offset is 0 when `expectZero` is set; here that assertion is
      a precondition, discharged by every caller. */
  function SetHorizonInit(f: Mark, x: int, cursor: nat, expectZero: bool): (r: Step)
    requires f.pos < cursor
    requires expectZero ==> f.pos + 1 == cursor
    ensures r.diff == HorizonInit && r.track.frontier == f
    ensures r.track.horizon.Some? && r.track.horizon.value.val == x
    ensures f.pos + 1 + r.track.horizon.value.pos == cursor
    ensures expectZero ==> r.track.horizon.value.pos == 0
  {
    Step(HorizonInit, Track(f, Some(Mark(x, cursor - f.pos - 1))))
  }

  /** The genesis of a channel from its first frame (`ExtremaState::from`). */
  function Genesis(x: int): (t: Track)
    ensures forall max: bool :: TrackInv(max, [x], t)
  {
    Track(Mark(x, 0), None)
  }

  /** `ExtremaState::push` for one channel: append `x` to a window that is
      still growing; `cursor` is the already incremented cursor, the index
      of `x`. Cases EF, EH, EN and EI of the source. */
  function PushChannel(max: bool, t: Track, x: int, cursor: nat): (r: Step)
    requires cursor > 0 && Shape(t, cursor - 1)
    ensures Shape(r.track, cursor)
    ensures r.diff == Frontier <==> Surpasses(max, x, t.frontier.val)
    ensures r.diff == HorizonInit <==> !Surpasses(max, x, t.frontier.val) && t.horizon.None?
    ensures r.diff == NoChange ==> r.track == t
    ensures r.diff != Promoted
  {
    var f := t.frontier;
    if Surpasses(max, x, f.val) then
      SetFrontier(x, cursor)                                      // EF
    else if t.horizon.Some? then
      if Surpasses(max, x, t.horizon.value.val) then
        SetHorizon(f, x, cursor)                                  // EH
      else
        Step(NoChange, t)                                         // EN
    else
      SetHorizonInit(f, x, cursor, true)                          // EI
  }

  /** The frontier after the oldest frame is evicted: it keeps its window
      index, which moves down by one, unless it is the frame evicted. */
  function Shifted(f: Mark): (g: Mark)
    ensures g.val == f.val
    ensures f.pos > 0 ==> g.pos + 1 == f.pos
    ensures f.pos == 0 ==> g.pos == 0
  {
    if f.pos == 0 then f else Mark(f.val, f.pos - 1)
  }

  /** `ExtremaState::push_pop` for one channel: `col` is the channel's
      window AFTER the oldest frame was evicted and `x` appended, and
      `cursor` (unchanged) is the index of `x` in it. Cases PFF, PFH, PFN,
      PFI, PNF, PNH, PNN and PNI of the source. */
  function PushPopChannel(max: bool, col: seq<int>, t: Track, x: int, cursor: nat): (r: Step)
    requires cursor + 1 == |col| && Shape(t, cursor)
    ensures Shape(r.track, cursor)
    ensures r.diff == Frontier <==>
      Surpasses(max, x, t.frontier.val)
      || (t.frontier.pos == 0 && (t.horizon.None? || Surpasses(max, x, t.horizon.value.val)))
    ensures r.diff == Promoted <==>
      && t.frontier.pos == 0 && t.horizon.Some?
      && !Surpasses(max, x, t.frontier.val) && !Surpasses(max, x, t.horizon.value.val)
    ensures r.diff == Promoted ==> r.track.frontier == t.horizon.value
    ensures r.diff == NoChange ==> r.track == Track(Shifted(t.frontier), t.horizon)
  {
    var isPop := t.frontier.pos == 0;
    var f := Shifted(t.frontier);
    if Surpasses(max, x, f.val) then
      SetFrontier(x, cursor)                                      // PFF, PNF
    else if t.horizon.Some? then
      var h := t.horizon.value;
      match (isPop, Surpasses(max, x, h.val))
      case (false, false) => Step(NoChange, Track(f, t.horizon))  // PNN
      case (false, true) => SetHorizon(f, x, cursor)              // PNH
      case (true, false) =>
        // PFN: promote the horizon, then scout a new one among the frames
        // after it
        Step(Promoted, Track(h, Scout(max, col[h.pos + 1..])))
      case (true, true) => SetFrontier(x, cursor)                 // PFH
    else if isPop then
      SetFrontier(x, cursor)                                      // PFI
    else
      SetHorizonInit(f, x, cursor, true)                          // PNI
  }

  /** A latest best found in a suffix is a latest best of the whole window
      from where the suffix starts. */
  lemma LatestBestShift(max: bool, s: seq<int>, k: nat, m: Mark)
    requires k <= |s| && LatestBest(max, s[k..], 0, m)
    ensures LatestBest(max, s, k, m)
  {
    forall i | k <= i < |s|
      ensures Surpasses(max, m.val, s[i])
    {
      assert s[i] == s[k..][i - k];
    }
    forall i | k + m.pos < i < |s|
      ensures !Surpasses(max, s[i], m.val)
    {
      assert s[i] == s[k..][i - k];
    }
  }

  /** Growing the window by one frame keeps the invariant. */
  lemma PushPreserves(max: bool, s: seq<int>, t: Track, x: int)
    requires TrackInv(max, s, t)
    ensures |s| > 0 && Shape(t, |s| - 1)
    ensures TrackInv(max, s + [x], PushChannel(max, t, x, |s|).track)
  {
    InvShape(max, s, t);
    var s' := s + [x];
    var r := PushChannel(max, t, x, |s|);
    var f := t.frontier;
    if Surpasses(max, x, f.val) {
      assert r.track.frontier == Mark(x, |s|);
    } else {
      assert r.track.frontier == f;
      assert Surpasses(max, f.val, x);
      if t.horizon.Some? {
        var h := t.horizon.value;
        if Surpasses(max, x, h.val) {
          assert r.track.horizon == Some(Mark(x, |s| - f.pos - 1));
        } else {
          assert r.track.horizon == Some(h);
          assert Surpasses(max, h.val, x);
        }
      } else {
        assert r.track.horizon == Some(Mark(x, 0));
      }
    }
  }

  /** Evicting the oldest frame and appending `x` keeps the invariant: the
      track of the window `[p] + s` becomes a track of `s + [x]`. */
  lemma PushPopPreserves(max: bool, p: int, s: seq<int>, t: Track, x: int)
    requires TrackInv(max, [p] + s, t)
    ensures Shape(t, |s|)
    ensures TrackInv(max, s + [x], PushPopChannel(max, s + [x], t, x, |s|).track)
  {
    InvShape(max, [p] + s, t);
    var r := PushPopChannel(max, s + [x], t, x, |s|);
    if r.diff == Frontier {
      PushPopToFrontier(max, p, s, t, x);
    } else if r.diff == Promoted {
      PushPopPromotes(max, p, s, t, x);
    } else {
      PushPopKeepsFrontier(max, p, s, t, x);
    }
  }

  /** PFF, PFH, PFI, PNF: the newcomer is the latest best of the new window. */
  lemma PushPopToFrontier(max: bool, p: int, s: seq<int>, t: Track, x: int)
    requires TrackInv(max, [p] + s, t)
    requires Shape(t, |s|) && PushPopChannel(max, s + [x], t, x, |s|).diff == Frontier
    ensures TrackInv(max, s + [x], PushPopChannel(max, s + [x], t, x, |s|).track)
  {
    var o, w := [p] + s, s + [x];
    assert forall i :: 0 <= i < |s| ==> w[i] == o[i + 1];
    var r := PushPopChannel(max, w, t, x, |s|);
    assert r.track == Track(Mark(x, |s|), None);
    if !Surpasses(max, x, t.frontier.val) && t.horizon.Some? {
      // PFH: the horizon was the best of everything after the evicted frontier
      assert forall i :: 0 <= i < |s| ==> Surpasses(max, t.horizon.value.val, w[i]);
    }
  }

  /** PFN: the horizon is promoted and a new horizon scouted. */
  lemma PushPopPromotes(max: bool, p: int, s: seq<int>, t: Track, x: int)
    requires TrackInv(max, [p] + s, t)
    requires Shape(t, |s|) && PushPopChannel(max, s + [x], t, x, |s|).diff == Promoted
    ensures TrackInv(max, s + [x], PushPopChannel(max, s + [x], t, x, |s|).track)
  {
    var o, w := [p] + s, s + [x];
    assert forall i :: 0 <= i < |s| ==> w[i] == o[i + 1];
    var h := t.horizon.value;
    assert Surpasses(max, h.val, x);
    assert LatestBest(max, w, 0, h);
    var rest := w[h.pos + 1..];
    assert rest[|rest| - 1] == x;
    LatestBestShift(max, w, h.pos + 1, Scout(max, rest).value);
  }

  /** PNH, PNN, PNI: the frontier survives one index lower. */
  lemma PushPopKeepsFrontier(max: bool, p: int, s: seq<int>, t: Track, x: int)
    requires TrackInv(max, [p] + s, t)
    requires Shape(t, |s|)
    requires PushPopChannel(max, s + [x], t, x, |s|).diff in {NoChange, Horizon, HorizonInit}
    ensures TrackInv(max, s + [x], PushPopChannel(max, s + [x], t, x, |s|).track)
  {
    var o, w := [p] + s, s + [x];
    assert forall i :: 0 <= i < |s| ==> w[i] == o[i + 1];
    var f := t.frontier;
    var r := PushPopChannel(max, w, t, x, |s|);
    assert Surpasses(max, f.val, x);
    assert r.track.frontier == Mark(f.val, f.pos - 1);
    assert LatestBest(max, w, 0, Mark(f.val, f.pos - 1));
    if t.horizon.Some? && !Surpasses(max, x, t.horizon.value.val) {
      assert Surpasses(max, t.horizon.value.val, x);
    }
  }
}

=== FILE: frames.dfy ===
/** Frames as the stats calculators see them: a frame holds one sample per
    channel, and a buffer is a sequence of frames of equal width. */
module Frames {
  /** Every frame of `fs` has `n` channels. */
  predicate Uniform<T>(fs: seq<seq<T>>, n: nat) {
    forall i :: 0 <= i < |fs| ==> |fs[i]| == n
  }

  /** Channel `ch` of a sequence of frames (what `frame.channel(ch)` reads
      frame by frame). */
  function Column<T>(fs: seq<seq<T>>, ch: nat): (c: seq<T>)
    requires forall i :: 0 <= i < |fs| ==> ch < |fs[i]|
    ensures |c| == |fs|
    ensures forall i :: 0 <= i < |fs| ==> c[i] == fs[i][ch]
  {
    seq(|fs|, i requires 0 <= i < |fs| => fs[i][ch])
  }
}

=== FILE: interpolant.dfy ===
/** The index arithmetic of `ResampleRational` in
    src/interpolate/interpolant.rs: between two source frames the
    interpolant visits `inter_pts_add` intermediate points, and each step
    moves `after_pts_rem + 1` points forward, reporting how many source
    frames it crossed. */
module Interpolant {
  import opened Arith

  datatype Resample = Resample(interPtsAdd: nat, afterPtsRem: nat, i: nat) {
    predicate Valid() {
      i <= interPtsAdd
    }
  }

  /** `ResampleRational::new`: equal factors collapse to (0, 0), anything
      else is kept as given. */
  function New(toAdd: nat, toRem: nat): (r: Resample)
    ensures r.Valid() && r.i == 0
    ensures toAdd == toRem ==> r.interPtsAdd == 0 && r.afterPtsRem == 0
    ensures toAdd != toRem ==> r.interPtsAdd == toAdd && r.afterPtsRem == toRem
  {
    if toAdd == toRem then Resample(0, 0, 0) else Resample(toAdd, toRem, 0)
  }

  /** The interpolation position reported by a step: `i / (1 + add)`,
      exactly 0 at a source frame. */
  function Position(r: Resample): (x: real)
    requires r.Valid()
    ensures 0.0 <= x < 1.0
    ensures x * (r.interPtsAdd + 1) as real == r.i as real
    ensures x == 0.0 <==> r.i == 0
  {
    if r.i == 0 then 0.0 else r.i as real / (1 + r.interPtsAdd) as real
  }

  /** A step in closed form: the frames crossed are the quotient, and the
      new index the remainder, of `i + rem + 1` by `add + 1`. */
  function Closed(r: Resample): (out: (nat, Resample))
    requires r.Valid()
    ensures out.1.Valid()
  {
    var t := r.i + r.afterPtsRem + 1;
    (t / (r.interPtsAdd + 1), r.(i := t % (r.interPtsAdd + 1)))
  }

  /** `step`: `after_pts_rem + 1` unit moves of the index, each wrapping
      to 0 and counting a frame when the index already sits at
      `inter_pts_add`. The position is taken before the moves. */
  method Step(r: Resample) returns (x: real, frames: nat, r': Resample)
    requires r.Valid()
    ensures x == Position(r)
    ensures (frames, r') == Closed(r)
    ensures r'.Valid() && r'.interPtsAdd == r.interPtsAdd && r'.afterPtsRem == r.afterPtsRem
  {
    x := if r.i == 0 then 0.0 else r.i as real / (1 + r.interPtsAdd) as real;
    var i: nat := r.i;
    frames := 0;
    var n := 0;
    while n < r.afterPtsRem + 1
      invariant n <= r.afterPtsRem + 1
      invariant i <= r.interPtsAdd
      invariant frames * (r.interPtsAdd + 1) + i == r.i + n
    {
      if i >= r.interPtsAdd {
        i := 0;
        frames := frames + 1;
      } else {
        i := i + 1;
      }
      n := n + 1;
    }
    ModUnique(r.i + r.afterPtsRem + 1, r.interPtsAdd + 1, frames, i);
    r' := r.(i := i);
  }

  /** The state after `k` steps. */
  function Run(r: Resample, k: nat): (s: Resample)
    requires r.Valid()
    ensures s.Valid() && s.interPtsAdd == r.interPtsAdd && s.afterPtsRem == r.afterPtsRem
  {
    if k == 0 then r else Closed(Run(r, k - 1)).1
  }

  /** Collapsed factors: the index never leaves 0. */
  lemma {:induction false} RunCollapsed(k: nat)
    ensures Run(Resample(0, 0, 0), k).i == 0
  {
    if k > 0 {
      RunCollapsed(k - 1);
    }
  }

  /** Kept factors: each step adds `rem + 1` to the index modulo
      `add + 1`. */
  lemma {:induction false} RunKept(add: nat, rem: nat, k: nat)
    ensures Run(Resample(add, rem, 0), k).i == (k * (rem + 1)) % (add + 1)
  {
    if k > 0 {
      RunKept(add, rem, k - 1);
      var prev := (k - 1) * (rem + 1);
      assert k * (rem + 1) == prev + (rem + 1) by {
        MulDistrib(rem + 1, k - 1, 1);
      }
      ModAddLemma(prev, rem + 1, add + 1);
    }
  }

  /** After `k` steps from a fresh interpolant the index is
      `k (to_rem + 1) mod (to_add + 1)`, in terms of the factors given to
      `new`; collapsing equal factors to (0, 0) does not change this. */
  lemma RunFromFresh(toAdd: nat, toRem: nat, k: nat)
    ensures Run(New(toAdd, toRem), k).i == (k * (toRem + 1)) % (toAdd + 1)
  {
    if toAdd == toRem {
      RunCollapsed(k);
      ModUnique(k * (toRem + 1), toRem + 1, k, 0);
    } else {
      RunKept(toAdd, toRem, k);
    }
  }

  /** What each step of a fresh interpolant reports, in terms of the
      factors given to `new`: with `i = k (to_rem + 1) mod (to_add + 1)`,
      the position `i / (to_add + 1)` and `(i + to_rem + 1) div
      (to_add + 1)` frames. */
  lemma StepFromFresh(toAdd: nat, toRem: nat, k: nat)
    ensures var s := Run(New(toAdd, toRem), k);
      var i := (k * (toRem + 1)) % (toAdd + 1);
      && Closed(s).0 == (i + toRem + 1) / (toAdd + 1)
      && Position(s) == i as real / (toAdd + 1) as real
  {
    RunFromFresh(toAdd, toRem, k);
    if toAdd == toRem {
      var s := Run(New(toAdd, toRem), k);
      assert s.i == 0 && s.interPtsAdd == 0 && s.afterPtsRem == 0;
      ModUnique(toRem + 1, toRem + 1, 1, 0);
    }
  }
}

=== FILE: moving_extrema.dfy ===
/** The multi-channel windowed minimum/maximum of src/stats/moving.rs
    (`ExtremaState` and `ExtremaInner`): a ring buffer of the last C frames
    plus one tracker per channel, all sharing one cursor. `max` selects the
    moving maximum (true) or the moving minimum (false). */
module MovingExtrema {
  import opened Wrappers
  import opened Policy
  import opened Extrema
  import opened Frames
  import Ring

  /** A frame: one sample per channel. */
  type Frame = seq<int>

  /** The equilibrium frame of signed samples: silence on every channel. */
  function Equilibrium(n: nat): (f: Frame)
    ensures |f| == n && forall ch :: 0 <= ch < n ==> f[ch] == 0
  {
    seq(n, _ => 0)
  }

  /** The per-channel trackers (the source's `frontiers` and `horizons`
      arrays, zipped) and the shared cursor. */
  datatype ExtremaState = ExtremaState(tracks: seq<Track>, cursor: nat)

  /** The bookkeeping of every channel agrees with the shared cursor. */
  predicate StateShape(st: ExtremaState, n: nat) {
    |st.tracks| == n && forall ch :: 0 <= ch < n ==> Shape(st.tracks[ch], st.cursor)
  }

  /** `st` tracks the frames `fs` (oldest first): the cursor is the index
      of the newest frame and every channel's tracker keeps its invariant. */
  ghost predicate StateInv(max: bool, st: ExtremaState, fs: seq<Frame>, n: nat) {
    && |fs| > 0 && Uniform(fs, n)
    && |st.tracks| == n && st.cursor + 1 == |fs|
    && forall ch :: 0 <= ch < n ==> TrackInv(max, Column(fs, ch), st.tracks[ch])
  }

  lemma StateInvShape(max: bool, st: ExtremaState, fs: seq<Frame>, n: nat)
    requires StateInv(max, st, fs, n)
    ensures StateShape(st, n)
  {
    forall ch | 0 <= ch < n
      ensures Shape(st.tracks[ch], st.cursor)
    {
      InvShape(max, Column(fs, ch), st.tracks[ch]);
    }
  }

  /** `ExtremaState::from`: the first frame is the frontier of every channel,
      at index 0, with no horizon. */
  function StateFrom(xs: Frame): (st: ExtremaState)
    ensures forall max: bool :: StateInv(max, st, [xs], |xs|)
  {
    var st := ExtremaState(seq(|xs|, ch requires 0 <= ch < |xs| => Genesis(xs[ch])), 0);
    assert forall ch :: 0 <= ch < |xs| ==> Column([xs], ch) == [xs[ch]];
    st
  }

  /** `ExtremaState::push`: every channel takes one more frame of a growing
      window. */
  function Push(max: bool, st: ExtremaState, xs: Frame): (r: (seq<Diff>, ExtremaState))
    requires StateShape(st, |xs|)
    ensures StateShape(r.1, |xs|) && r.1.cursor == st.cursor + 1 && |r.0| == |xs|
    ensures forall ch :: 0 <= ch < |xs| ==>
      var step := PushChannel(max, st.tracks[ch], xs[ch], st.cursor + 1);
      r.0[ch] == step.diff && r.1.tracks[ch] == step.track
  {
    var cursor := st.cursor + 1;
    var steps := seq(|xs|, ch requires 0 <= ch < |xs| => PushChannel(max, st.tracks[ch], xs[ch], cursor));
    (seq(|xs|, ch requires 0 <= ch < |xs| => steps[ch].diff),
     ExtremaState(seq(|xs|, ch requires 0 <= ch < |xs| => steps[ch].track), cursor))
  }

  /** `ExtremaState::push_pop`: every channel takes the newest frame `xs`
      of the window `win`, from which the oldest frame was just evicted; the
      cursor does not move. */
  function PushPop(max: bool, st: ExtremaState, xs: Frame, win: seq<Frame>): (r: (seq<Diff>, ExtremaState))
    requires StateShape(st, |xs|) && Uniform(win, |xs|) && st.cursor + 1 == |win|
    ensures StateShape(r.1, |xs|) && r.1.cursor == st.cursor && |r.0| == |xs|
    ensures forall ch :: 0 <= ch < |xs| ==>
      var step := PushPopChannel(max, Column(win, ch), st.tracks[ch], xs[ch], st.cursor);
      r.0[ch] == step.diff && r.1.tracks[ch] == step.track
  {
    var steps := seq(|xs|, ch requires 0 <= ch < |xs| =>
      PushPopChannel(max, Column(win, ch), st.tracks[ch], xs[ch], st.cursor));
    (seq(|xs|, ch requires 0 <= ch < |xs| => steps[ch].diff),
     ExtremaState(seq(|xs|, ch requires 0 <= ch < |xs| => steps[ch].track), st.cursor))
  }

  /** Pushing a frame extends the tracked frames by that frame. */
  lemma PushGrows(max: bool, st: ExtremaState, fs: seq<Frame>, xs: Frame)
    requires StateInv(max, st, fs, |xs|)
    ensures StateShape(st, |xs|)
    ensures StateInv(max, Push(max, st, xs).1, fs + [xs], |xs|)
  {
    StateInvShape(max, st, fs, |xs|);
    var st' := Push(max, st, xs).1;
    forall ch | 0 <= ch < |xs|
      ensures TrackInv(max, Column(fs + [xs], ch), st'.tracks[ch])
    {
      assert Column(fs + [xs], ch) == Column(fs, ch) + [xs[ch]];
      PushPreserves(max, Column(fs, ch), st.tracks[ch], xs[ch]);
    }
  }

  /** Push-popping a frame slides the tracked frames by one. */
  lemma PushPopSlides(max: bool, st: ExtremaState, fs: seq<Frame>, xs: Frame)
    requires StateInv(max, st, fs, |xs|)
    ensures StateShape(st, |xs|) && Uniform(fs[1..] + [xs], |xs|)
    ensures StateInv(max, PushPop(max, st, xs, fs[1..] + [xs]).1, fs[1..] + [xs], |xs|)
  {
    StateInvShape(max, st, fs, |xs|);
    var w := fs[1..] + [xs];
    var st' := PushPop(max, st, xs, w).1;
    forall ch | 0 <= ch < |xs|
      ensures TrackInv(max, Column(w, ch), st'.tracks[ch])
    {
      SlideChannel(max, st, fs, xs, ch);
    }
  }

  /** One channel of `PushPopSlides`. */
  lemma SlideChannel(max: bool, st: ExtremaState, fs: seq<Frame>, xs: Frame, ch: nat)
    requires StateInv(max, st, fs, |xs|) && StateShape(st, |xs|) && ch < |xs|
    ensures Uniform(fs[1..] + [xs], |xs|)
    ensures TrackInv(max, Column(fs[1..] + [xs], ch), PushPop(max, st, xs, fs[1..] + [xs]).1.tracks[ch])
  {
    var c := Column(fs, ch);
    var w := fs[1..] + [xs];
    var col := c[1..] + [xs[ch]];
    assert c == [c[0]] + c[1..];
    assert Column(w, ch) == col;
    assert st.cursor == |c[1..]|;
    assert PushPop(max, st, xs, w).1.tracks[ch] == PushPopChannel(max, col, st.tracks[ch], xs[ch], |c[1..]|).track;
    PushPopPreserves(max, c[0], c[1..], st.tracks[ch], xs[ch]);
  }

  /** The state `__from` and `__fill_with` build: `ExtremaState::from` on
      the first frame, then `push` of every later frame in order. */
  function Build(max: bool, fs: seq<Frame>, n: nat): (st: ExtremaState)
    requires |fs| > 0 && Uniform(fs, n)
    ensures StateInv(max, st, fs, n)
    decreases |fs|
  {
    if |fs| == 1 then
      StateFrom(fs[0])
    else
      var init := fs[..|fs| - 1];
      var last := fs[|fs| - 1];
      var st := Build(max, init, n);
      PushGrows(max, st, init, last);
      assert init + [last] == fs;
      Push(max, st, last).1
  }

  /** `ExtremaInner`: the window of the last C frames and their trackers. */
  datatype ExtremaInner = ExtremaInner(window: Ring.Fixed<Frame>, state: ExtremaState, channels: nat) {
    ghost predicate Valid(max: bool) {
      && window.Valid() && window.Capacity() > 0
      && StateInv(max, state, window.Contents(), channels)
    }
  }

  /** `__current`: the frontier value of every channel. */
  function Current(inner: ExtremaInner): (r: Frame)
    ensures |r| == |inner.state.tracks|
  {
    seq(|inner.state.tracks|, ch requires 0 <= ch < |inner.state.tracks| => inner.state.tracks[ch].frontier.val)
  }

  /** The frontier of a valid calculation is, channel by channel, exactly
      the naive reduction of the window (the tests' `elem_minmax`). */
  lemma CurrentIsReduce(max: bool, inner: ExtremaInner)
    requires inner.Valid(max)
    ensures |Current(inner)| == inner.channels
    ensures forall ch :: 0 <= ch < inner.channels ==>
      Current(inner)[ch] == Reduce(max, Column(inner.window.Contents(), ch))
  {
    forall ch | 0 <= ch < inner.channels
      ensures Current(inner)[ch] == Reduce(max, Column(inner.window.Contents(), ch))
    {
      LatestBestIsReduce(max, Column(inner.window.Contents(), ch), inner.state.tracks[ch].frontier);
    }
  }

  /** `__len`: the window length C. */
  function Len(inner: ExtremaInner): (c: nat)
    requires inner.window.Valid()
    ensures c == |inner.window.Contents()|
  {
    inner.window.Capacity()
  }

  /** `ExtremaInner::__from` behind the public `from`, which asserts a
      non-empty buffer: the buffer's frames are the window, oldest first. */
  function From(max: bool, buffer: seq<Frame>, n: nat): (r: Result<ExtremaInner, Error>)
    requires Uniform(buffer, n)
    ensures r.Failure? <==> |buffer| == 0
    ensures r.Failure? ==> r.error == EmptyBuffer
    ensures r.Success? ==>
      r.value.Valid(max) && r.value.window.Contents() == buffer && r.value.channels == n
  {
    if |buffer| == 0 then Failure(EmptyBuffer)
    else Success(ExtremaInner(Ring.From(buffer), Build(max, buffer, n), n))
  }

  /** `__fill`: every frame of the window becomes `v`; every frontier sits
      on the newest frame and no channel has a horizon. */
  function Fill(max: bool, inner: ExtremaInner, v: Frame): (r: ExtremaInner)
    requires inner.window.Valid() && inner.window.Capacity() > 0 && |v| == inner.channels
    ensures r.Valid(max) && r.channels == inner.channels
    ensures r.window.Capacity() == inner.window.Capacity()
    ensures forall i :: 0 <= i < |r.window.Contents()| ==> r.window.Contents()[i] == v
    ensures Current(r) == v
  {
    var c := inner.window.Capacity();
    var w := Ring.Fill(inner.window, v);
    var st := ExtremaState(seq(|v|, ch requires 0 <= ch < |v| => Track(Mark(v[ch], c - 1), None)), c - 1);
    var r := ExtremaInner(w, st, inner.channels);
    assert forall ch :: 0 <= ch < |v| ==> Column(w.Contents(), ch) == seq(c, _ => v[ch]);
    r
  }

  /** `__reset`: fill with the equilibrium frame. */
  function Reset(max: bool, inner: ExtremaInner): (r: ExtremaInner)
    requires inner.window.Valid() && inner.window.Capacity() > 0
    ensures r.Valid(max) && r.channels == inner.channels
    ensures r.window.Capacity() == inner.window.Capacity()
    ensures forall i :: 0 <= i < |r.window.Contents()| ==> r.window.Contents()[i] == Equilibrium(inner.channels)
    ensures Current(r) == Equilibrium(inner.channels)
  {
    Fill(max, inner, Equilibrium(inner.channels))
  }

  /** `__from_empty` behind the public `from_empty`, which asserts a
      non-empty buffer: only the buffer's length matters, the window is reset
      to equilibrium. */
  function FromEmpty(max: bool, buffer: seq<Frame>, n: nat): (r: Result<ExtremaInner, Error>)
    ensures r.Failure? <==> |buffer| == 0
    ensures r.Failure? ==> r.error == EmptyBuffer
    ensures r.Success? ==>
      && r.value.Valid(max) && r.value.channels == n
      && r.value.window.Capacity() == |buffer|
      && (forall i :: 0 <= i < |buffer| ==> r.value.window.Contents()[i] == Equilibrium(n))
    ensures r.Success? ==> Current(r.value) == Equilibrium(n)
  {
    if |buffer| == 0 then Failure(EmptyBuffer)
    else
      var dummy := ExtremaInner(Ring.From(buffer), ExtremaState(seq(n, _ => Track(Mark(0, 0), None)), 0), n);
      Success(Reset(max, dummy))
  }

  /** `__fill_with`: the closure runs once per slot, oldest first; `gen(k)`
      is the frame its k-th call returns. Each frame is also fed to the
      trackers as it is produced. */
  function FillWith(max: bool, inner: ExtremaInner, gen: nat -> Frame): (r: ExtremaInner)
    requires inner.window.Valid() && inner.window.Capacity() > 0
    requires forall k :: 0 <= k < inner.window.Capacity() ==> |gen(k)| == inner.channels
    ensures r.Valid(max) && r.channels == inner.channels
    ensures r.window.Capacity() == inner.window.Capacity()
    ensures forall i :: 0 <= i < |r.window.Contents()| ==> r.window.Contents()[i] == gen(i)
  {
    var w := Ring.FillWith(inner.window, gen);
    ExtremaInner(w, Build(max, w.Contents(), inner.channels), inner.channels)
  }

  /** `__advance`: push the frame into the window, then let the trackers
      see it against the updated window. */
  function Advance(max: bool, inner: ExtremaInner, input: Frame): (r: ExtremaInner)
    requires inner.Valid(max) && |input| == inner.channels
    ensures r.Valid(max) && r.channels == inner.channels
    ensures r.window.Capacity() == inner.window.Capacity()
    ensures r.window.Contents() == inner.window.Contents()[1..] + [input]
  {
    var w := Ring.Push(inner.window, input).1;
    PushPopSlides(max, inner.state, inner.window.Contents(), input);
    ExtremaInner(w, PushPop(max, inner.state, input, w.Contents()).1, inner.channels)
  }

  /** `__process`: advance, then read the current extrema. Each channel of
      the output is the extremum of the last C inputs of that channel. */
  function Process(max: bool, inner: ExtremaInner, input: Frame): (r: (Frame, ExtremaInner))
    requires inner.Valid(max) && |input| == inner.channels
    ensures r.1 == Advance(max, inner, input)
    ensures |r.0| == inner.channels
    ensures forall ch :: 0 <= ch < inner.channels ==>
      r.0[ch] == Reduce(max, Column(inner.window.Contents()[1..] + [input], ch))
  {
    var next := Advance(max, inner, input);
    CurrentIsReduce(max, next);
    (Current(next), next)
  }

  /** Advancing through a sequence of frames. */
  function AdvanceAll(max: bool, inner: ExtremaInner, inputs: seq<Frame>): (r: ExtremaInner)
    requires inner.Valid(max) && Uniform(inputs, inner.channels)
    ensures r.Valid(max) && r.channels == inner.channels
    ensures r.window.Capacity() == inner.window.Capacity()
    decreases |inputs|
  {
    if |inputs| == 0 then inner
    else AdvanceAll(max, Advance(max, inner, inputs[0]), inputs[1..])
  }

  /** After any number of frames, the window holds the last C frames of
      the history. */
  lemma {:induction false} AdvanceAllWindow(max: bool, inner: ExtremaInner, inputs: seq<Frame>)
    requires inner.Valid(max) && Uniform(inputs, inner.channels)
    ensures AdvanceAll(max, inner, inputs).window.Contents() == (inner.window.Contents() + inputs)[|inputs|..]
    decreases |inputs|
  {
    var h := inner.window.Contents();
    if |inputs| == 0 {
      assert (h + inputs)[|inputs|..] == h;
    } else {
      var next := Advance(max, inner, inputs[0]);
      AdvanceAllWindow(max, next, inputs[1..]);
      SlideOnce(h, inputs);
    }
  }

  /** Sliding by the first input, then by the rest, is sliding by all. */
  lemma SlideOnce<T>(h: seq<T>, inputs: seq<T>)
    requires |h| > 0 && |inputs| > 0
    ensures (h[1..] + [inputs[0]] + inputs[1..])[|inputs| - 1..] == (h + inputs)[|inputs|..]
  {
    assert h[1..] + [inputs[0]] + inputs[1..] == (h + inputs)[1..];
  }

  /** The moving extremum is the naive extremum of the last C frames: each
      channel reads the reduction of its column of the last C frames of the
      history. */
  lemma AdvanceAllIsSlidingReduce(max: bool, inner: ExtremaInner, inputs: seq<Frame>)
    requires inner.Valid(max) && Uniform(inputs, inner.channels)
    ensures var r := AdvanceAll(max, inner, inputs);
      && r.window.Contents() == (inner.window.Contents() + inputs)[|inputs|..]
      && forall ch :: 0 <= ch < inner.channels ==>
           Current(r)[ch] == Reduce(max, Column(r.window.Contents(), ch))
  {
    AdvanceAllWindow(max, inner, inputs);
    CurrentIsReduce(max, AdvanceAll(max, inner, inputs));
  }
}

=== FILE: phase.dfy ===
/** The rational phase accumulator of src/phase.rs: `simplify` co-reduces an
    (add, remove) pair of 32-bit counts, and `Rational` steps an integer
    index through `max_value + 1` sub-positions per frame. All values are
    unbounded naturals; the u32 range is stated in the contracts. */
module Phase {
  import opened Wrappers
  import opened Arith

  const U32_MAX: nat := 0xFFFF_FFFF
  const POW32: nat := 0x1_0000_0000

  lemma Pow2Of32()
    ensures Pow2(32) == POW32
  {
    assert Pow2(2) == 4;
    Pow2Add(2, 2);
    Pow2Add(4, 4);
    Pow2Add(8, 8);
    Pow2Add(16, 16);
  }

  /** The greatest common divisor, the value `num.gcd(den)` returns. */
  function Gcd(a: nat, b: nat): nat
    decreases b
  {
    if b == 0 then a else Gcd(b, a % b)
  }

  /** `u32::trailing_zeros` of a positive value: the exponent of the largest
      power of two dividing it. */
  function TrailingZeros(n: nat): nat
    requires n > 0
  {
    if n % 2 == 1 then 0 else 1 + TrailingZeros(n / 2)
  }

  // ---------------------------------------------------------------------
  // Divisibility facts.

  lemma {:induction false} GcdDivides(a: nat, b: nat)
    requires a > 0 || b > 0
    ensures Gcd(a, b) > 0 && a % Gcd(a, b) == 0 && b % Gcd(a, b) == 0
    decreases b
  {
    if b == 0 {
      ModUnique(a, a, 1, 0);
      ModUnique(0, a, 0, 0);
    } else {
      GcdDivides(b, a % b);
      DividesDividend(a, b, Gcd(b, a % b));
    }
  }

  /** A common divisor of the divisor and the remainder divides the
      dividend. */
  lemma DividesDividend(a: nat, b: nat, g: nat)
    requires b > 0 && g > 0 && b % g == 0 && (a % b) % g == 0
    ensures a % g == 0
  {
    var q, m := a / b, a % b;
    var x, y := b / g, m / g;
    DivExact(b, g);
    DivExact(m, g);
    EuclidStep(a, b, q, m, g, x, y);
    ModUnique(a, g, x * q + y, 0);
  }

  lemma EuclidStep(a: nat, b: nat, q: nat, m: nat, g: nat, x: nat, y: nat)
    requires b == g * x && m == g * y && a == b * q + m
    ensures a == g * (x * q + y)
  {
    MulAssoc(g, x, q);
    MulDistrib(g, x * q, y);
  }

  /** A positive multiple of `d` is at least `d`, and its cofactor is at
      least 1. */
  lemma DivisorAtMost(n: nat, d: nat)
    requires n > 0 && d > 0 && n % d == 0
    ensures n / d >= 1 && d <= n && n / d <= n
  {
    var q := n / d;
    assert n == d * q;
    MulAtLeast(d, q);
    MulAtLeast(q, d);
  }

  lemma GcdComm(a: nat, b: nat)
    ensures Gcd(a, b) == Gcd(b, a)
  {
    if a == 0 || b == 0 {
      if a > 0 {
        ModUnique(0, a, 0, 0);
      }
      if b > 0 {
        ModUnique(0, b, 0, 0);
      }
    } else if a < b {
      ModUnique(a, b, 0, a);
    } else if b < a {
      ModUnique(b, a, 0, b);
    }
  }

  /** Scaling both arguments scales the gcd. */
  lemma {:induction false} GcdScale(c: nat, a: nat, b: nat)
    requires c > 0
    ensures Gcd(c * a, c * b) == c * Gcd(a, b)
    decreases b
  {
    if b > 0 {
      var q, m := a / b, a % b;
      assert a == b * q + m;
      assert c * a == (c * b) * q + c * m by {
        assert c * a == c * (b * q) + c * m;
      }
      assert c * b - c * m == c * (b - m);
      MulAtLeast(c, b - m);
      ModUnique(c * a, c * b, q, c * m);
      GcdScale(c, b, m);
    }
  }

  /** Every divisor of a power of two is a smaller power of two. */
  lemma {:induction false} PowerDivisor(d: nat, k: nat) returns (j: nat)
    requires d > 0 && Pow2(k) % d == 0
    ensures j <= k && d == Pow2(j)
    decreases k
  {
    if k == 0 {
      if d > 1 {
        ModUnique(1, d, 0, 1);
      }
      j := 0;
    } else {
      var h := Pow2(k - 1);
      var q := Pow2(k) / d;
      assert 2 * h == d * q;
      if d % 2 == 0 {
        var e := d / 2;
        assert h == e * q;
        ModUnique(h, e, q, 0);
        var j' := PowerDivisor(e, k - 1);
        j := j' + 1;
      } else {
        var r := HalfOfEven(d, q, h);
        ModUnique(h, d, r, 0);
        j := PowerDivisor(d, k - 1);
      }
    }
  }

  /** Multiplying by an odd number keeps the parity. */
  lemma OddFactorParity(d: nat, q: nat)
    requires d % 2 == 1
    ensures (d * q) % 2 == q % 2
  {
    var u := d / 2;
    MulDistrib(q, 2 * u, 1);
    MulAssoc(q, 2, u);
    assert d * q == 2 * (u * q + q / 2) + q % 2;
    ModUnique(d * q, 2, u * q + q / 2, q % 2);
  }

  /** If an odd `d` times `q` is even, `q` is even: returns `q / 2`, with
      `d * (q / 2) == h` where `2h == d q`. */
  lemma HalfOfEven(d: nat, q: nat, h: nat) returns (r: nat)
    requires d % 2 == 1 && 2 * h == d * q
    ensures q == 2 * r && h == d * r
  {
    OddFactorParity(d, q);
    ModUnique(2 * h, 2, h, 0);
    r := q / 2;
    MulAssoc(d, 2, r);
  }

  lemma {:induction false} TrailingZerosSplit(n: nat) returns (m: nat)
    requires n > 0
    ensures n == Pow2(TrailingZeros(n)) * m && m % 2 == 1
    decreases n
  {
    if n % 2 == 1 {
      m := n;
    } else {
      var m' := TrailingZerosSplit(n / 2);
      m := m';
      var t := TrailingZeros(n / 2);
      assert TrailingZeros(n) == t + 1;
      assert Pow2(t + 1) == 2 * Pow2(t);
      assert n == 2 * (n / 2);
      MulAssoc(2, Pow2(t), m);
    }
  }

  lemma {:induction false} TrailingZerosOfPow2(k: nat)
    ensures TrailingZeros(Pow2(k)) == k
  {
    if k > 0 {
      TrailingZerosOfPow2(k - 1);
      assert Pow2(k) == 2 * Pow2(k - 1);
      assert Pow2(k) / 2 == Pow2(k - 1);
    }
  }

  /** A power of two and an odd number are coprime. */
  lemma GcdPow2Odd(k: nat, m: nat)
    requires m % 2 == 1
    ensures Gcd(Pow2(k), m) == 1
  {
    var g := Gcd(Pow2(k), m);
    GcdDivides(Pow2(k), m);
    var j := PowerDivisor(g, k);
    if j > 0 {
      var w := m / g;
      assert m == g * w;
      assert g == 2 * Pow2(j - 1);
      MulAssoc(2, Pow2(j - 1), w);
      ModUnique(m, 2, Pow2(j - 1) * w, 0);
    }
  }

  /** A positive u32 has fewer than 32 trailing zeros. */
  lemma TrailingZerosBound(n: nat)
    requires 0 < n <= U32_MAX
    ensures TrailingZeros(n) < 32
  {
    var t := TrailingZeros(n);
    var m := TrailingZerosSplit(n);
    MulAtLeast(Pow2(t), m);
    if t >= 32 {
      Pow2Of32();
      Pow2Monotone(32, t);
    }
  }

  lemma GcdOfSplit(t: nat, m: nat)
    requires t < 32 && m % 2 == 1
    ensures Gcd(Pow2(t) * Pow2(32 - t), Pow2(t) * m) == Pow2(t)
  {
    GcdPow2Odd(32 - t, m);
    GcdScale(Pow2(t), Pow2(32 - t), m);
  }

  /** The gcd of 2^32 with a positive u32 is its largest power-of-two
      divisor: the fact the single-MAX branch rests on. */
  lemma GcdWithPow32(n: nat)
    requires 0 < n <= U32_MAX
    ensures TrailingZeros(n) < 32
    ensures Gcd(POW32, n) == Pow2(TrailingZeros(n)) == Gcd(n, POW32)
    ensures POW32 / Pow2(TrailingZeros(n)) == Pow2(32 - TrailingZeros(n))
  {
    TrailingZerosBound(n);
    GcdComm(POW32, n);
    var t := TrailingZeros(n);
    var m := TrailingZerosSplit(n);
    var p, s := Pow2(t), Pow2(32 - t);
    assert POW32 == p * s by {
      Pow2Of32();
      Pow2Add(t, 32 - t);
    }
    GcdOfSplit(t, m);
    ModUnique(POW32, p, s, 0);
  }

  lemma GcdSelf(x: nat)
    requires x > 0
    ensures Gcd(x, x) == x && x / x == 1
  {
    ModUnique(x, x, 1, 0);
  }

  // ---------------------------------------------------------------------
  // simplify

  datatype Maxed = Num | Den

  /** The single-MAX branch: the overflowed *-ator is 2^32, so the gcd is
      the largest power of two dividing `normal`. */
  function SimplifyMaxed(maxed: Maxed, normal: nat, toAdd: nat, toRem: nat): (p: (nat, nat))
    requires 0 < normal <= U32_MAX && toAdd <= U32_MAX && toRem <= U32_MAX
    ensures p.0 <= U32_MAX && p.1 <= U32_MAX
  {
    var t := TrailingZeros(normal);
    if t == 0 then (toAdd, toRem)
    else
      MaxedBounds(normal);
      var so := Pow2(32 - t);
      var sn := normal / Pow2(t);
      match maxed
      case Num => (so - 1, sn - 1)
      case Den => (sn - 1, so - 1)
  }

  /** The reduced *-ators of the single-MAX branch fit in u32 and are
      positive. */
  lemma MaxedBounds(normal: nat)
    requires 0 < normal <= U32_MAX && TrailingZeros(normal) > 0
    ensures TrailingZeros(normal) < 32
    ensures 1 <= Pow2(32 - TrailingZeros(normal)) <= POW32 / 2
    ensures 1 <= normal / Pow2(TrailingZeros(normal)) <= normal
  {
    TrailingZerosBound(normal);
    OddPartBounds(normal);
    HalfRangePower(32 - TrailingZeros(normal));
  }

  /** The odd part of a positive number is positive and at most it. */
  lemma OddPartBounds(n: nat)
    requires n > 0
    ensures 1 <= n / Pow2(TrailingZeros(n)) <= n
  {
    var t := TrailingZeros(n);
    var m := TrailingZerosSplit(n);
    ModUnique(n, Pow2(t), m, 0);
    MulAtLeast(m, Pow2(t));
  }

  /** Below 32, a power of two is at most 2^31. */
  lemma HalfRangePower(e: nat)
    requires e < 32
    ensures Pow2(e) <= POW32 / 2
  {
    Pow2Monotone(e, 31);
    Pow2Of31();
  }

  lemma Pow2Of31()
    ensures Pow2(31) == POW32 / 2
  {
    Pow2Of32();
  }

  /** `simplify(to_add, to_rem)`: co-reduce the pair as the fraction
      (to_add + 1) / (to_rem + 1), without ever forming 2^32 in u32. */
  function Simplify(toAdd: nat, toRem: nat): (p: (nat, nat))
    requires toAdd <= U32_MAX && toRem <= U32_MAX
    ensures p.0 <= U32_MAX && p.1 <= U32_MAX
  {
    if toAdd == toRem then (0, 0)
    else if toAdd == U32_MAX then SimplifyMaxed(Num, toRem + 1, toAdd, toRem)
    else if toRem == U32_MAX then SimplifyMaxed(Den, toAdd + 1, toAdd, toRem)
    else
      var num, den := toAdd + 1, toRem + 1;
      GcdDivides(num, den);
      var div := Gcd(num, den);
      DivisorAtMost(num, div);
      DivisorAtMost(den, div);
      (num / div - 1, den / div - 1)
  }

  /** A fraction in lowest terms: divide both parts by their gcd. */
  function LowestTerms(num: nat, den: nat): (p: (nat, nat))
    requires num > 0 && den > 0
    ensures p.0 >= 1 && p.1 >= 1
    ensures Gcd(p.0, p.1) == 1
    ensures p.0 * den == p.1 * num
  {
    CofactorsCoprime(num, den);
    var g := Gcd(num, den);
    (num / g, den / g)
  }

  /** Dividing by the gcd leaves coprime positive cofactors of the same
      ratio. */
  lemma CofactorsCoprime(num: nat, den: nat)
    requires num > 0 && den > 0
    ensures var g := Gcd(num, den);
      && g > 0 && num / g >= 1 && den / g >= 1
      && Gcd(num / g, den / g) == 1
      && (num / g) * den == (den / g) * num
  {
    GcdDivides(num, den);
    var g := Gcd(num, den);
    DivisorAtMost(num, g);
    DivisorAtMost(den, g);
    var x, y := num / g, den / g;
    DivExact(num, g);
    DivExact(den, g);
    assert Gcd(x, y) == 1 by {
      GcdScale(g, x, y);
      MulCancel(g, Gcd(x, y));
    }
    CrossMul(g, x, y);
  }

  /** `x (g y) == y (g x)`. */
  lemma CrossMul(g: nat, x: nat, y: nat)
    ensures x * (g * y) == y * (g * x)
  {
    MulAssoc(x, g, y);
    MulAssoc(y, g, x);
  }

  lemma DivExact(n: nat, d: nat)
    requires d > 0 && n % d == 0
    ensures n == d * (n / d)
  {
  }

  lemma MulCancel(g: nat, a: nat)
    requires g > 0 && g * a == g
    ensures a == 1
  {
    if a == 0 {
    } else if a > 1 {
      MulAtLeast(g, a - 1);
      MulDistrib(g, a - 1, 1);
    }
  }

  /** The reference: reduce (to_add + 1) / (to_rem + 1) with an unbounded
      gcd, then step back down by one. */
  function SimplifyReference(toAdd: nat, toRem: nat): (nat, nat)
  {
    var p := LowestTerms(toAdd + 1, toRem + 1);
    (p.0 - 1, p.1 - 1)
  }

  lemma SimplifyMaxedNum(toRem: nat)
    requires toRem < U32_MAX
    ensures Simplify(U32_MAX, toRem) == SimplifyReference(U32_MAX, toRem)
  {
    var n := toRem + 1;
    GcdWithPow32(n);
    var t := TrailingZeros(n);
    if t == 0 {
      ModUnique(POW32, 1, POW32, 0);
      ModUnique(n, 1, n, 0);
    }
  }

  lemma SimplifyMaxedDen(toAdd: nat)
    requires toAdd < U32_MAX
    ensures Simplify(toAdd, U32_MAX) == SimplifyReference(toAdd, U32_MAX)
  {
    var n := toAdd + 1;
    GcdWithPow32(n);
    var t := TrailingZeros(n);
    if t == 0 {
      ModUnique(POW32, 1, POW32, 0);
      ModUnique(n, 1, n, 0);
    }
  }

  /** `simplify` computes the reduced pair of the unbounded reference on
      every u32 input: equal factors, either single-MAX branch and the
      plain gcd branch alike. */
  lemma SimplifyIsReference(toAdd: nat, toRem: nat)
    requires toAdd <= U32_MAX && toRem <= U32_MAX
    ensures Simplify(toAdd, toRem) == SimplifyReference(toAdd, toRem)
  {
    if toAdd == toRem {
      GcdSelf(toAdd + 1);
    } else if toAdd == U32_MAX {
      SimplifyMaxedNum(toRem);
    } else if toRem == U32_MAX {
      SimplifyMaxedDen(toAdd);
    }
  }

  /** The simplified pair names the same ratio in lowest terms. */
  lemma SimplifyLowestTerms(toAdd: nat, toRem: nat)
    requires toAdd <= U32_MAX && toRem <= U32_MAX
    ensures var p := Simplify(toAdd, toRem);
      && Gcd(p.0 + 1, p.1 + 1) == 1
      && (p.0 + 1) * (toRem + 1) == (p.1 + 1) * (toAdd + 1)
  {
    SimplifyIsReference(toAdd, toRem);
  }

  lemma SimplifyEqual(a: nat)
    requires a <= U32_MAX
    ensures Simplify(a, a) == (0, 0)
  {
  }

  lemma SimplifySymmetric(toAdd: nat, toRem: nat)
    requires toAdd <= U32_MAX && toRem <= U32_MAX
    ensures Simplify(toRem, toAdd) == (Simplify(toAdd, toRem).1, Simplify(toAdd, toRem).0)
  {
    SimplifyIsReference(toAdd, toRem);
    SimplifyIsReference(toRem, toAdd);
    GcdComm(toAdd + 1, toRem + 1);
  }

  /** `u32::MAX >> e` is 2^(32-e) - 1. */
  lemma MaxShift(e: nat)
    requires e < 32
    ensures U32_MAX / Pow2(e) == Pow2(32 - e) - 1
  {
    var p, s := Pow2(e), Pow2(32 - e);
    assert POW32 == p * s by {
      Pow2Of32();
      Pow2Add(e, 32 - e);
    }
    MulDistrib(p, s - 1, 1);
    ModUnique(U32_MAX, p, s - 1, p - 1);
  }

  lemma SimplifyMaxPow2(k: nat)
    requires 0 < k < 32
    ensures Pow2(k) - 1 < U32_MAX
    ensures Simplify(U32_MAX, Pow2(k) - 1) == (Pow2(32 - k) - 1, 0)
  {
    assert Pow2(k) <= POW32 / 2 by {
      Pow2Monotone(k, 31);
      Pow2Of31();
    }
    TrailingZerosOfPow2(k);
    MaxedBounds(Pow2(k));
    ModUnique(Pow2(k), Pow2(k), 1, 0);
  }

  /** `simplify(MAX, MAX >> e) == (2^e - 1, 0)` and its mirror. */
  lemma SimplifyHandlesMax(e: nat)
    requires e < 32
    ensures U32_MAX / Pow2(e) <= U32_MAX
    ensures Simplify(U32_MAX, U32_MAX / Pow2(e)) == (Pow2(e) - 1, 0)
    ensures Simplify(U32_MAX / Pow2(e), U32_MAX) == (0, Pow2(e) - 1)
  {
    MaxShift(e);
    if e == 0 {
      Pow2Of32();
    } else {
      SimplifyMaxPow2(32 - e);
    }
    SimplifySymmetric(U32_MAX, U32_MAX / Pow2(e));
  }

  // ---------------------------------------------------------------------
  // Rational

  datatype Rational = Rational(i: nat, maxValue: nat, skipExtra: nat) {
    predicate Valid() {
      i <= maxValue <= U32_MAX && skipExtra <= U32_MAX
    }
  }

  /** `Rational::new`: the simplified pair, index 0. */
  function New(toAdd: nat, toRem: nat): (r: Rational)
    requires toAdd <= U32_MAX && toRem <= U32_MAX
    ensures r.Valid() && r.i == 0
    ensures Gcd(r.maxValue + 1, r.skipExtra + 1) == 1
    ensures (r.maxValue + 1) * (toRem + 1) == (r.skipExtra + 1) * (toAdd + 1)
  {
    SimplifyLowestTerms(toAdd, toRem);
    var p := Simplify(toAdd, toRem);
    Rational(0, p.0, p.1)
  }

  /** The outcome of one `advance_count`. */
  datatype Advanced = Advanced(frames: nat, phase: Rational)

  /** The one configuration whose advance overflows u32. */
  predicate Extreme(r: Rational) {
    r.maxValue == 0 && r.skipExtra == U32_MAX
  }

  /** `advance_count` in a debug build: the `num_loops <= u32::MAX`
      assertion is the `LoopOverflow` error. */
  function AdvanceCount(r: Rational): (res: Result<Advanced, Error>)
    requires r.Valid()
    ensures res.Failure? <==> Extreme(r)
    ensures res.Failure? ==> res.error == LoopOverflow
    ensures res.Success? ==>
              && res.value.phase.Valid()
              && res.value.phase.maxValue == r.maxValue
              && res.value.phase.skipExtra == r.skipExtra
              && res.value.frames <= U32_MAX
              && res.value.frames * (r.maxValue + 1) + res.value.phase.i == r.i + r.skipExtra + 1
  {
    var adv := r.i + r.skipExtra + 1;
    var div := r.maxValue + 1;
    DivBounds(adv, 0, div);
    var loops: nat := adv / div;
    LoopsBound(r);
    if loops > U32_MAX then Failure(LoopOverflow)
    else Success(Advanced(loops, r.(i := adv % div)))
  }

  /** The quotient exceeds u32 exactly in the extreme configuration. */
  lemma LoopsBound(r: Rational)
    requires r.Valid()
    ensures (r.i + r.skipExtra + 1) / (r.maxValue + 1) > U32_MAX <==> Extreme(r)
  {
    var adv := r.i + r.skipExtra + 1;
    var div := r.maxValue + 1;
    var loops := adv / div;
    if r.maxValue == 0 {
      ModUnique(adv, 1, adv, 0);
    } else {
      QuotientHalf(adv, div);
    }
  }

  /** Dividing by at least 2 at least halves. */
  lemma QuotientHalf(n: nat, d: nat)
    requires d >= 2
    ensures 2 * (n / d) <= n
  {
    var q := n / d;
    assert d * q <= n;
    MulDistrib(q, 2, d - 2);
    var e: nat := d - 2;
    assert q * e >= 0;
  }

  /** `advance_count` in a release build: `num_loops as u32` truncates. */
  function AdvanceCountRelease(r: Rational): (a: Advanced)
    requires r.Valid()
    ensures a.phase.Valid() && a.frames <= U32_MAX
    ensures !Extreme(r) ==> AdvanceCount(r) == Success(a)
    ensures Extreme(r) ==> a.frames == 0 && a.phase == r
  {
    var adv := r.i + r.skipExtra + 1;
    var div := r.maxValue + 1;
    ReleaseTruncation(r);
    Advanced((adv / div) % POW32, r.(i := adv % div))
  }

  /** Truncating the quotient to u32 changes it only in the extreme
      configuration, where it is 2^32 and becomes 0. */
  lemma ReleaseTruncation(r: Rational)
    requires r.Valid()
    ensures var q := (r.i + r.skipExtra + 1) / (r.maxValue + 1);
      if Extreme(r) then q % POW32 == 0 && (r.i + r.skipExtra + 1) % (r.maxValue + 1) == 0
      else q % POW32 == q
  {
    if Extreme(r) {
      ExtremeQuotient(r);
      ModUnique(POW32, POW32, 1, 0);
    } else {
      LoopsBound(r);
      var q := (r.i + r.skipExtra + 1) / (r.maxValue + 1);
      ModUnique(q, POW32, 0, q);
    }
  }

  /** In the extreme configuration one advance is exactly 2^32 frames. */
  lemma ExtremeQuotient(r: Rational)
    requires r.Valid() && Extreme(r)
    ensures (r.i + r.skipExtra + 1) / (r.maxValue + 1) == POW32
    ensures (r.i + r.skipExtra + 1) % (r.maxValue + 1) == 0
  {
    assert r.i + r.skipExtra + 1 == POW32 && r.maxValue + 1 == 1;
    ModUnique(POW32, 1, POW32, 0);
  }

  /** `Rational::new(0, u32::MAX)` is the extreme configuration: the first
      debug advance trips the overflow assertion, and a release build
      reports 0 frames on every advance. */
  lemma RationalExtremeCase()
    ensures New(0, U32_MAX) == Rational(0, 0, U32_MAX)
    ensures AdvanceCount(New(0, U32_MAX)) == Failure(LoopOverflow)
    ensures AdvanceCountRelease(New(0, U32_MAX)) == Advanced(0, New(0, U32_MAX))
  {
    assert TrailingZeros(1) == 0;
  }

  /** `k` debug advances outside the extreme configuration: the frames
      advanced in total, and the final phase. */
  function Run(r: Rational, k: nat): (out: (nat, Rational))
    requires r.Valid() && !Extreme(r)
    ensures out.1.Valid() && out.1.maxValue == r.maxValue && out.1.skipExtra == r.skipExtra
    ensures out.0 * (r.maxValue + 1) + out.1.i == r.i + k * (r.skipExtra + 1)
    decreases k
  {
    if k == 0 then (0, r)
    else
      var a := AdvanceCount(r).value;
      var rest := Run(a.phase, k - 1);
      RunArith(a.frames, rest.0, r.maxValue + 1, r.i, a.phase.i, rest.1.i, k, r.skipExtra + 1);
      (a.frames + rest.0, rest.1)
  }

  /** One advance followed by `k - 1` more adds up to `k` advances. */
  lemma RunArith(f: nat, g: nat, d: nat, i0: nat, i1: nat, i2: nat, k: nat, step: nat)
    requires k > 0
    requires f * d + i1 == i0 + step
    requires g * d + i2 == i1 + (k - 1) * step
    ensures (f + g) * d + i2 == i0 + k * step
  {
    MulDistrib(d, f, g);
    MulDistrib(step, k - 1, 1);
  }

  /** After `k` advances the index is the remainder, and the total frame
      count the quotient, of `i + k (skip_extra + 1)` by `max_value + 1`:
      the phase walks at exactly the rate the simplified ratio names. */
  lemma RunIsDivision(r: Rational, k: nat)
    requires r.Valid() && !Extreme(r)
    ensures Run(r, k).1.i == (r.i + k * (r.skipExtra + 1)) % (r.maxValue + 1)
    ensures Run(r, k).0 == (r.i + k * (r.skipExtra + 1)) / (r.maxValue + 1)
  {
    var out := Run(r, k);
    ModUnique(r.i + k * (r.skipExtra + 1), r.maxValue + 1, out.0, out.1.i);
  }
}

=== FILE: policy.dfy ===
/** The comparison policy shared by every extremum calculation
    (src/stats/mod.rs): `surpasses::<S, MAX>(candidate, target)`, and the
    naive reduction the windowed tracker is checked against. */
module Policy {
  import opened Wrappers

  datatype Ordering = Less | Equal | Greater

  /** `Ord::cmp` on integers. */
  function Compare(a: int, b: int): (o: Ordering)
    ensures o == Less <==> a < b
    ensures o == Equal <==> a == b
    ensures o == Greater <==> a > b
  {
    if a < b then Less else if a == b then Equal else Greater
  }

  /** The match on `candidate.partial_cmp(target)`: an absent ordering
      never surpasses; `Less` fails in MAX mode, `Greater` fails in MIN mode;
      every other ordering, `Equal` included, surpasses. */
  function SurpassesBy(max: bool, cmp: Option<Ordering>): (r: bool)
    ensures cmp.None? ==> !r
    ensures cmp == Some(Equal) ==> r
    ensures max ==> (r <==> cmp == Some(Greater) || cmp == Some(Equal))
    ensures !max ==> (r <==> cmp == Some(Less) || cmp == Some(Equal))
  {
    match cmp
    case None => false                // incomparable
    case Some(Less) => !max           // `Some(Less) if MAX => false`
    case Some(Greater) => max         // `Some(Greater) if !MAX => false`
    case Some(Equal) => true          // `_ => true`
  }

  /** `surpasses` on totally ordered integer samples. */
  function Surpasses(max: bool, candidate: int, target: int): (r: bool)
    ensures max ==> (r <==> candidate >= target)
    ensures !max ==> (r <==> candidate <= target)
  {
    SurpassesBy(max, Some(Compare(candidate, target)))
  }

  /** A sample type with an incomparable value, standing in for a float
      with NaN: the only thing the model needs of floats here. */
  datatype Sample = Num(v: int) | NaN

  function PartialCmp(a: Sample, b: Sample): (o: Option<Ordering>)
    ensures o.None? <==> a.NaN? || b.NaN?
  {
    if a.NaN? || b.NaN? then None else Some(Compare(a.v, b.v))
  }

  /** `surpasses` on samples that may be incomparable. */
  function SurpassesSample(max: bool, candidate: Sample, target: Sample): (r: bool)
    ensures candidate.NaN? || target.NaN? ==> !r
    ensures candidate.Num? && target.Num? ==> (r <==> Surpasses(max, candidate.v, target.v))
  {
    SurpassesBy(max, PartialCmp(candidate, target))
  }

  /** Ties count: an equal newcomer replaces the incumbent, in both modes,
      and every comparable value surpasses itself. */
  lemma SurpassesReflexive(max: bool, a: Sample)
    requires a.Num?
    ensures SurpassesSample(max, a, a)
  {
  }

  /** Of two comparable samples, at least one surpasses the other, and both do
      only when they are equal. */
  lemma SurpassesTotal(max: bool, a: int, b: int)
    ensures Surpasses(max, a, b) || Surpasses(max, b, a)
    ensures Surpasses(max, a, b) && Surpasses(max, b, a) <==> a == b
  {
  }

  /** The tests' reference `elem_minmax` for one channel: a left fold that
      keeps the accumulator when it surpasses the next value. */
  function Reduce(max: bool, s: seq<int>): (r: int)
    requires |s| > 0
    ensures exists i :: 0 <= i < |s| && s[i] == r
    ensures forall i :: 0 <= i < |s| ==> Surpasses(max, r, s[i])
  {
    if |s| == 1 then s[0]
    else
      var acc := Reduce(max, s[..|s| - 1]);
      var last := s[|s| - 1];
      assert forall i :: 0 <= i < |s| - 1 ==> s[..|s| - 1][i] == s[i];
      if Surpasses(max, acc, last) then acc else last
  }

  /** A value of `s` that surpasses every element of `s` is the reduction. */
  lemma ReduceUnique(max: bool, s: seq<int>, v: int, k: nat)
    requires k < |s| && s[k] == v
    requires forall i :: 0 <= i < |s| ==> Surpasses(max, v, s[i])
    ensures Reduce(max, s) == v
  {
    var r := Reduce(max, s);
    var j :| 0 <= j < |s| && s[j] == r;
    assert Surpasses(max, v, s[j]);
    assert Surpasses(max, r, s[k]);
  }

  /** `m` marks the LATEST occurrence of the best value of `s[start..]`,
      its position counted from `start`. */
  datatype Mark = Mark(val: int, pos: nat)

  ghost predicate LatestBest(max: bool, s: seq<int>, start: nat, m: Mark) {
    && start + m.pos < |s|
    && s[start + m.pos] == m.val
    && (forall i :: start <= i < |s| ==> Surpasses(max, m.val, s[i]))
    && (forall i :: start + m.pos < i < |s| ==> !Surpasses(max, s[i], m.val))
  }

  /** The latest best of a window is unique, and its value is the reduction. */
  lemma LatestBestIsReduce(max: bool, s: seq<int>, m: Mark)
    requires LatestBest(max, s, 0, m)
    ensures Reduce(max, s) == m.val
  {
    ReduceUnique(max, s, m.val, m.pos);
  }

  /** The horizon discovery scan of `push_pop`'s promotion path
      (src/stats/moving.rs:412-440): walk `s` front to back, keeping the first
      value seen and replacing it by every later value that surpasses it. */
  function Scout(max: bool, s: seq<int>): (r: Option<Mark>)
    ensures r.None? <==> |s| == 0
    ensures r.Some? ==> LatestBest(max, s, 0, r.value)
  {
    if |s| == 0 then None
    else
      var prev := Scout(max, s[..|s| - 1]);
      var y := s[|s| - 1];
      assert forall i :: 0 <= i < |s| - 1 ==> s[..|s| - 1][i] == s[i];
      match prev
      case Some(d) =>
        if Surpasses(max, y, d.val) then Some(Mark(y, |s| - 1)) else prev
      case None =>
        // the discovered horizon is absent only on the first element
        Some(Mark(y, |s| - 1))
  }
}

=== FILE: ring.dfy ===
/** The fixed-capacity ring buffer of src/buffer/fixed.rs: always full, FIFO,
    pushing one element pops the oldest. `buf` is the physical storage and
    `head` the physical slot of the logically oldest element (and of the next
    write). */
module Ring {
  import opened Wrappers
  import opened Arith

  datatype Fixed<T> = Fixed(head: nat, buf: seq<T>) {

    /** `head` is always a slot of `buf`, or 0 when there is none. */
    ghost predicate Valid() {
      if |buf| == 0 then head == 0 else head < |buf|
    }

    /** The number of elements, fixed for the buffer's life. */
    function Capacity(): (c: nat)
      ensures Valid() ==> c == |Contents()|
    {
      |buf|
    }

    /** The logical contents, oldest first: the abstraction function. */
    function Contents(): (c: seq<T>)
      requires Valid()
      ensures |c| == |buf|
    {
      buf[head..] + buf[..head]
    }
  }

  /** Logical index `i` lives in physical slot `(head + i) mod capacity`. */
  lemma ContentsAt<T>(r: Fixed<T>, i: nat)
    requires r.Valid() && i < r.Capacity()
    ensures r.Contents()[i] == r.buf[(r.head + i) % r.Capacity()]
  {
    var c := r.Capacity();
    if r.head + i < c {
      ModUnique(r.head + i, c, 0, r.head + i);
      assert r.Contents()[i] == r.buf[r.head..][i];
    } else {
      ModUnique(r.head + i, c, 1, r.head + i - c);
      assert r.Contents()[i] == r.buf[..r.head][i - (c - r.head)];
    }
  }

  /** `from_offset`: keep the buffer, reduce the head modulo its length
      (`checked_rem(..).unwrap_or(0)`, so 0 for an empty buffer). */
  function FromOffset<T>(buffer: seq<T>, head: nat): (r: Fixed<T>)
    ensures r.Valid() && r.buf == buffer
    ensures |buffer| == 0 ==> r.head == 0
    ensures |buffer| > 0 ==> r.head == head % |buffer|
    ensures forall i :: 0 <= i < |buffer| ==> r.Contents()[i] == buffer[(head + i) % |buffer|]
  {
    var r := Fixed(if |buffer| == 0 then 0 else head % |buffer|, buffer);
    assert forall i :: 0 <= i < |buffer| ==> r.Contents()[i] == buffer[(head + i) % |buffer|] by {
      forall i | 0 <= i < |buffer|
        ensures r.Contents()[i] == buffer[(head + i) % |buffer|]
      {
        ContentsAt(r, i);
        ModAddLemma(head, i, |buffer|);
      }
    }
    r
  }

  /** `Fixed::from`: the buffer's own order is the logical order. */
  function From<T>(buffer: seq<T>): (r: Fixed<T>)
    ensures r.Valid() && r.buf == buffer && r.head == 0
    ensures r.Contents() == buffer
  {
    FromOffset(buffer, 0)
  }

  /** The outcome of `push_with_flag`. */
  datatype Pushed<T> = Pushed(popped: T, wrapped: bool, ring: Fixed<T>)

  /** `push_with_flag`: overwrite the oldest slot, move the head one slot on,
      and report whether it wrapped back to 0. */
  function PushWithFlag<T>(r: Fixed<T>, item: T): (p: Pushed<T>)
    requires r.Valid()
    ensures p.ring.Valid() && p.ring.Capacity() == r.Capacity()
    ensures r.Capacity() == 0 ==> p == Pushed(item, true, r)
    ensures r.Capacity() > 0 ==>
      && p.popped == r.Contents()[0]
      && p.ring.Contents() == r.Contents()[1..] + [item]
      && p.ring.head == (r.head + 1) % r.Capacity()
      && p.ring.buf == r.buf[r.head := item]
      && (p.wrapped <==> p.ring.head == 0)
  {
    if |r.buf| == 0 then
      // zero capacity: hand the item straight back
      Pushed(item, true, r)
    else
      var next := r.head + 1;
      var wrapped := next >= |r.buf|;
      var nh := if wrapped then 0 else next;
      var r' := Fixed(nh, r.buf[r.head := item]);
      OverwriteHead(r, item);
      ModUnique(r.head + 1, |r.buf|, if wrapped then 1 else 0, nh);
      Pushed(r.buf[r.head], wrapped, r')
  }

  /** Overwriting the head slot and stepping past it rotates the contents. */
  lemma OverwriteHead<T>(r: Fixed<T>, item: T)
    requires r.Valid() && r.Capacity() > 0
    ensures var nh := if r.head + 1 >= r.Capacity() then 0 else r.head + 1;
      Fixed(nh, r.buf[r.head := item]).Contents() == r.Contents()[1..] + [item]
  {
    var b := r.buf[r.head := item];
    var h := r.head;
    if h + 1 >= |r.buf| {
      assert r.Contents()[1..] == r.buf[..h];
      assert b[..h] == r.buf[..h];
      assert b == r.buf[..h] + [item];
    } else {
      assert b[h + 1..] == r.buf[h + 1..];
      assert b[..h + 1] == r.buf[..h] + [item];
      assert r.Contents()[1..] == r.buf[h + 1..] + r.buf[..h];
    }
  }

  /** `push`: the popped element is the logically oldest one, the pushed
      element becomes the logically newest. */
  function Push<T>(r: Fixed<T>, item: T): (res: (T, Fixed<T>))
    requires r.Valid()
    ensures res.1.Valid() && res.1.Capacity() == r.Capacity()
    ensures r.Capacity() > 0 ==>
      res.0 == r.Contents()[0] && res.1.Contents() == r.Contents()[1..] + [item]
    ensures r.Capacity() == 0 ==> res == (item, r)
  {
    var p := PushWithFlag(r, item);
    (p.popped, p.ring)
  }

  /** `lookup`: the physical slot of a logical index, wrapping or not. */
  function Lookup<T>(r: Fixed<T>, index: nat, wrap: bool): (o: Option<nat>)
    requires r.Valid()
    ensures o.Some? <==> r.Capacity() > 0 && (wrap || index < r.Capacity())
    ensures o.Some? ==>
      (o.value < r.Capacity() && o.value == (r.head + index % r.Capacity()) % r.Capacity())
    ensures o.Some? ==> r.buf[o.value] == r.Contents()[index % r.Capacity()]
  {
    if !wrap && index >= |r.buf| then None
    else
      var c := |r.buf|;
      if c == 0 then None
      else
        ContentsAt(r, index % c);
        Some((r.head + (index % c)) % c)
  }

  /** `get`: the element at logical index `index`, if in bounds. */
  function Get<T>(r: Fixed<T>, index: nat): (o: Option<T>)
    requires r.Valid()
    ensures o.Some? <==> index < r.Capacity()
    ensures o.Some? ==>
      (o.value == r.Contents()[index] && o.value == r.buf[(r.head + index) % r.Capacity()])
  {
    match Lookup(r, index, false)
    case None => None
    case Some(slot) =>
      ModUnique(index, r.Capacity(), 0, index);
      ContentsAt(r, index);
      Some(r.buf[slot])
  }

  /** `get_wrapped` (and `Index`): the element at `index mod capacity`;
      panics on a zero-capacity buffer. */
  function GetWrapped<T>(r: Fixed<T>, index: nat): (o: Result<T, Error>)
    requires r.Valid()
    ensures o.Failure? <==> r.Capacity() == 0
    ensures o.Failure? ==> o.error == ZeroCapacity
    ensures o.Success? ==> Get(r, index % r.Capacity()) == Some(o.value)
  {
    match Lookup(r, index, true)
    case None => Failure(ZeroCapacity)
    case Some(slot) =>
      ModAddLemma(index, r.head, r.Capacity());
      Success(r.buf[slot])
  }

  /** `fill`: every slot gets `item`, and the head goes back to 0. */
  function Fill<T>(r: Fixed<T>, item: T): (r': Fixed<T>)
    ensures r'.Valid() && r'.head == 0 && r'.Capacity() == r.Capacity()
    ensures forall i :: 0 <= i < r'.Capacity() ==> r'.Contents()[i] == item
  {
    Fixed(0, seq(|r.buf|, _ => item))
  }

  /** `fill_with`: the closure is called once per slot in physical order;
      `gen(k)` is the value its k-th call returns. */
  function FillWith<T>(r: Fixed<T>, gen: nat -> T): (r': Fixed<T>)
    ensures r'.Valid() && r'.head == 0 && r'.Capacity() == r.Capacity()
    ensures forall i :: 0 <= i < r'.Capacity() ==> r'.buf[i] == gen(i) && r'.Contents()[i] == gen(i)
  {
    Fixed(0, seq(|r.buf|, i requires 0 <= i => gen(i)))
  }

  /** `into_buffer`: the physical storage, whatever the head. */
  function IntoBuffer<T>(r: Fixed<T>): (b: seq<T>)
    requires r.Valid()
    ensures |b| == r.Capacity()
    ensures forall i :: 0 <= i < |b| ==> b[(r.head + i) % |b|] == r.Contents()[i]
  {
    assert forall i :: 0 <= i < |r.buf| ==> r.buf[(r.head + i) % |r.buf|] == r.Contents()[i] by {
      forall i | 0 <= i < |r.buf|
        ensures r.buf[(r.head + i) % |r.buf|] == r.Contents()[i]
      {
        ContentsAt(r, i);
      }
    }
    r.buf
  }

  /** The double-ended iterator: the physical slice from the head to the end,
      then the slice before the head. */
  datatype Iter<T> = Iter(front: seq<T>, back: seq<T>) {
    /** What is left to yield, front to back. */
    function Remaining(): seq<T> {
      front + back
    }

    function Len(): nat {
      |front| + |back|
    }
  }

  function MakeIter<T>(r: Fixed<T>): (it: Iter<T>)
    requires r.Valid()
    ensures it.Remaining() == r.Contents()
    ensures it.Len() == r.Capacity()
  {
    Iter(r.buf[r.head..], r.buf[..r.head])
  }

  /** `next`: the front slice first, then the back slice. */
  function Next<T>(it: Iter<T>): (res: (Option<T>, Iter<T>))
    ensures it.Len() == 0 ==> res == (None, it)
    ensures it.Len() > 0 ==>
      && res.0 == Some(it.Remaining()[0])
      && res.1.Remaining() == it.Remaining()[1..]
      && res.1.Len() == it.Len() - 1
  {
    if |it.front| > 0 then
      (Some(it.front[0]), Iter(it.front[1..], it.back))
    else if |it.back| > 0 then
      (Some(it.back[0]), Iter(it.front, it.back[1..]))
    else
      (None, it)
  }

  /** `next_back`: the back slice first, then the front slice. */
  function NextBack<T>(it: Iter<T>): (res: (Option<T>, Iter<T>))
    ensures it.Len() == 0 ==> res == (None, it)
    ensures it.Len() > 0 ==>
      && res.0 == Some(it.Remaining()[it.Len() - 1])
      && res.1.Remaining() == it.Remaining()[..it.Len() - 1]
      && res.1.Len() == it.Len() - 1
  {
    if |it.back| > 0 then
      (Some(it.back[|it.back| - 1]), Iter(it.front, it.back[..|it.back| - 1]))
    else if |it.front| > 0 then
      (Some(it.front[|it.front| - 1]), Iter(it.front[..|it.front| - 1], it.back))
    else
      (None, it)
  }

  /** Draining an iterator from the front. */
  function Collect<T>(it: Iter<T>): seq<T>
    decreases it.Len()
  {
    match Next(it)
    case (None, _) => []
    case (Some(x), rest) => [x] + Collect(rest)
  }

  /** Draining an iterator from the back (`iter().rev()`). */
  function CollectBack<T>(it: Iter<T>): seq<T>
    decreases it.Len()
  {
    match NextBack(it)
    case (None, _) => []
    case (Some(x), rest) => [x] + CollectBack(rest)
  }

  function Reverse<T>(s: seq<T>): (r: seq<T>)
    ensures |r| == |s|
    ensures forall i :: 0 <= i < |s| ==> r[i] == s[|s| - 1 - i]
  {
    if |s| == 0 then [] else [s[|s| - 1]] + Reverse(s[..|s| - 1])
  }

  /** Forward iteration yields exactly the remaining elements, in order. */
  lemma {:induction false} CollectIsRemaining<T>(it: Iter<T>)
    ensures Collect(it) == it.Remaining()
    decreases it.Len()
  {
    if it.Len() > 0 {
      var (x, rest) := Next(it);
      CollectIsRemaining(rest);
    }
  }

  /** Backward iteration yields exactly the remaining elements, reversed. */
  lemma {:induction false} CollectBackIsReverse<T>(it: Iter<T>)
    ensures CollectBack(it) == Reverse(it.Remaining())
    decreases it.Len()
  {
    if it.Len() > 0 {
      var (x, rest) := NextBack(it);
      CollectBackIsReverse(rest);
    }
  }

  /** `iter()` yields the C elements in logical order, `iter().rev()` in
      reverse logical order. */
  lemma IterIsLogicalOrder<T>(r: Fixed<T>)
    requires r.Valid()
    ensures Collect(MakeIter(r)) == r.Contents()
    ensures CollectBack(MakeIter(r)) == Reverse(r.Contents())
  {
    CollectIsRemaining(MakeIter(r));
    CollectBackIsReverse(MakeIter(r));
  }

  /** The unit test's buffer `[4, 5, 6, 1, 2, 3]` with head 3 iterates as
      1 to 6 forwards and 6 to 1 backwards. */
  lemma IterCollectsBothWays()
    ensures var it := MakeIter(FromOffset([4, 5, 6, 1, 2, 3], 3));
      && Collect(it) == [1, 2, 3, 4, 5, 6]
      && CollectBack(it) == [6, 5, 4, 3, 2, 1]
  {
    var r := FromOffset([4, 5, 6, 1, 2, 3], 3);
    assert r.head == 3 by {
      ModUnique(3, 6, 0, 3);
    }
    assert r.Contents() == [1, 2, 3] + [4, 5, 6];
    IterIsLogicalOrder(r);
    ReverseOfSix([1, 2, 3, 4, 5, 6]);
  }

  lemma ReverseOfSix(s: seq<int>)
    requires s == [1, 2, 3, 4, 5, 6]
    ensures Reverse(s) == [6, 5, 4, 3, 2, 1]
  {
    var r := Reverse(s);
    assert r[0] == 6 && r[1] == 5 && r[2] == 4 && r[3] == 3 && r[4] == 2 && r[5] == 1;
  }

  /** The interleaved front/back traversal of the test on
      `from_offset([4, 5, 6, 1, 2, 3], 3)`: the two ends meet in the middle
      without yielding any element twice. */
  lemma IterMeetsInTheMiddle()
    ensures var it0 := MakeIter(FromOffset([4, 5, 6, 1, 2, 3], 3));
      && it0.Len() == 6
      && var (a, it1) := Next(it0);
      && var (b, it2) := NextBack(it1);
      && it2.Len() == 4
      && var (c, it3) := Next(it2);
      && var (d, it4) := NextBack(it3);
      && it4.Len() == 2
      && var (e, it5) := Next(it4);
      && var (f, it6) := NextBack(it5);
      && [a, b, c, d, e, f] == [Some(1), Some(6), Some(2), Some(5), Some(3), Some(4)]
      && it6.Len() == 0 && Next(it6).0 == None && NextBack(it6).0 == None
  {
    var r := FromOffset([4, 5, 6, 1, 2, 3], 3);
    assert r.head == 3 by {
      ModUnique(3, 6, 0, 3);
    }
    assert r.Contents() == [1, 2, 3] + [4, 5, 6];
    var it0 := MakeIter(r);
    var it1 := Next(it0).1;
    assert it1.Remaining() == [2, 3, 4, 5, 6];
    var it2 := NextBack(it1).1;
    assert it2.Remaining() == [2, 3, 4, 5];
    var it3 := Next(it2).1;
    assert it3.Remaining() == [3, 4, 5];
    var it4 := NextBack(it3).1;
    assert it4.Remaining() == [3, 4];
    var it5 := Next(it4).1;
    assert it5.Remaining() == [4];
  }
}

=== FILE: signal.dfy ===
/** The provided methods of the `Signal` trait in src/signal/mod.rs. A
    signal is modelled by the finite sequence of frames it has left to
    yield; once that is empty every `next` is `None`. */
module Signal {
  import opened Wrappers

  /** `next`: the first remaining frame, if any, and the rest. */
  function Next<T>(s: seq<T>): (out: (Option<T>, seq<T>))
    ensures |s| == 0 ==> out == (None, s)
    ensures |s| > 0 ==> out == (Some(s[0]), s[1..])
  {
    if |s| == 0 then (None, s) else (Some(s[0]), s[1..])
  }

  /** `sig_next`: like `next`, but an exhausted signal yields the
      equilibrium frame instead of nothing. */
  function SigNext<T>(s: seq<T>, equil: T): (out: (T, seq<T>))
    ensures |s| > 0 ==> out == (s[0], s[1..])
    ensures |s| == 0 ==> out == (equil, s)
  {
    match Next(s).0
    case Some(x) => (x, Next(s).1)
    case None => (equil, s)
  }

  /** `advance_by(n)`: pull and discard up to `n` frames, one `next` at a
      time; the first `None` stops it with the number of frames actually
      discarded. */
  function AdvanceBy<T>(s: seq<T>, n: nat): (out: (Result<(), nat>, seq<T>))
    ensures n <= |s| ==> out == (Success(()), s[n..])
    ensures n > |s| ==> out == (Failure(|s|), [])
  {
    if n == 0 then (Success(()), s)
    else
      match Next(s).0
      case None => (Failure(0), s)
      case Some(_) =>
        var rest := AdvanceBy(Next(s).1, n - 1);
        match rest.0
        case Success(_) => rest
        case Failure(k) => (Failure(k + 1), rest.1)
  }

  /** `nth(n)`: skip `n` frames, then yield the next one. */
  function Nth<T>(s: seq<T>, n: nat): (out: (Option<T>, seq<T>))
    ensures n < |s| ==> out == (Some(s[n]), s[n + 1..])
    ensures n >= |s| ==> out == (None, [])
  {
    var skipped := AdvanceBy(s, n);
    if skipped.0.Failure? then (None, skipped.1) else Next(skipped.1)
  }

  /** `advance_by` as an eager loop over `next`, the way the trait writes
      it: it agrees with the recursive definition. */
  method AdvanceByLoop<T>(s: seq<T>, n: nat) returns (r: Result<(), nat>, rest: seq<T>)
    ensures (r, rest) == AdvanceBy(s, n)
  {
    var left: nat := n;
    rest := s;
    while left > 0
      invariant left <= n
      invariant n - left <= |s| && rest == s[n - left..]
    {
      var step := Next(rest);
      if step.0.None? {
        assert |rest| == 0 && rest == [];
        r := Failure(n - left);
        return;
      }
      rest := step.1;
      left := left - 1;
    }
    r := Success(());
  }

  /** The documented run over `0..=9`: advancing by 5 leaves 5 and 6 next,
      and advancing by 5 more stops after 3 frames with nothing left. */
  lemma AdvanceByDocExample(s: seq<int>)
    requires s == [0, 1, 2, 3, 4, 5, 6, 7, 8, 9]
    ensures AdvanceBy(s, 5) == (Success(()), [5, 6, 7, 8, 9])
    ensures Next(AdvanceBy(s, 5).1) == (Some(5), [6, 7, 8, 9])
    ensures Next([6, 7, 8, 9]) == (Some(6), [7, 8, 9])
    ensures AdvanceBy([7, 8, 9], 5) == (Failure(3), [])
    ensures Next(AdvanceBy([7, 8, 9], 5).1).0 == None
  {
    assert s[5..] == [5, 6, 7, 8, 9];
    assert [5, 6, 7, 8, 9][1..] == [6, 7, 8, 9];
    assert [6, 7, 8, 9][1..] == [7, 8, 9];
  }

  /** The documented run of `nth(3)` three times over `0..=9`: 3, then 7,
      then nothing. */
  lemma NthDocExample(s: seq<int>)
    requires s == [0, 1, 2, 3, 4, 5, 6, 7, 8, 9]
    ensures Nth(s, 3) == (Some(3), [4, 5, 6, 7, 8, 9])
    ensures Nth(Nth(s, 3).1, 3) == (Some(7), [8, 9])
    ensures Nth(Nth(Nth(s, 3).1, 3).1, 3).0 == None
  {
    assert s[4..] == [4, 5, 6, 7, 8, 9];
    assert [4, 5, 6, 7, 8, 9][4..] == [8, 9];
  }
}

=== FILE: summage.dfy ===
/** The moving mean, mean square and root mean square of
    src/stats/moving.rs (`SummageInner`): a ring buffer of the last C
    prepared frames (squared for the mean square and RMS) and the running
    per-channel sum of that buffer. Samples are exact reals. */
module Summage {
  import opened Wrappers
  import opened Frames
  import Ring

  type Frame = seq<real>

  /** The three calculators: `MovingRms` takes the square root and squares
      its inputs, `MovingMs` only squares them, `MovingMean` does neither. */
  datatype Kind = Rms | Ms | Mean {
    predicate Sqrt() { this == Rms }
    predicate Pow2() { this == Rms || this == Ms }
  }

  /** The frame as it is stored in the window. */
  function Prep(kind: Kind, f: Frame): (g: Frame)
    ensures |g| == |f|
    ensures forall ch :: 0 <= ch < |f| ==> g[ch] == if kind.Pow2() then f[ch] * f[ch] else f[ch]
    ensures kind.Pow2() ==> forall ch :: 0 <= ch < |f| ==> g[ch] >= 0.0
  {
    var g := seq(|f|, ch requires 0 <= ch < |f| => if kind.Pow2() then f[ch] * f[ch] else f[ch]);
    assert forall ch :: 0 <= ch < |f| ==> f[ch] * f[ch] >= 0.0 by {
      forall ch | 0 <= ch < |f|
        ensures f[ch] * f[ch] >= 0.0
      {
        SquareNonNegative(f[ch]);
      }
    }
    g
  }

  lemma SquareNonNegative(x: real)
    ensures x * x >= 0.0
  {
    if x < 0.0 {
      assert x * x == (-x) * (-x);
    }
  }

  function Sum(s: seq<real>): real {
    if |s| == 0 then 0.0 else Sum(s[..|s| - 1]) + s[|s| - 1]
  }

  lemma SumAppend(s: seq<real>, x: real)
    ensures Sum(s + [x]) == Sum(s) + x
  {
    assert (s + [x])[..|s|] == s;
  }

  lemma {:induction false} SumCons(x: real, s: seq<real>)
    ensures Sum([x] + s) == x + Sum(s)
    decreases |s|
  {
    if |s| > 0 {
      var init := s[..|s| - 1];
      SumCons(x, init);
      assert ([x] + s)[..|s|] == [x] + init;
    }
  }

  lemma {:induction false} SumConst(n: nat, v: real)
    ensures Sum(seq(n, _ => v)) == n as real * v
  {
    if n > 0 {
      SumConst(n - 1, v);
      assert seq(n, _ => v)[..n - 1] == seq(n - 1, _ => v);
    }
  }

  lemma {:induction false} SumNonNegative(s: seq<real>)
    requires forall i :: 0 <= i < |s| ==> s[i] >= 0.0
    ensures Sum(s) >= 0.0
  {
    if |s| > 0 {
      SumNonNegative(s[..|s| - 1]);
    }
  }

  datatype SummageInner = SummageInner(window: Ring.Fixed<Frame>, sum: Frame, channels: nat) {
    /** The running sum is, per channel, the sum of the window; squared
        windows hold no negative value. */
    ghost predicate Valid(kind: Kind) {
      && window.Valid() && window.Capacity() > 0
      && Uniform(window.Contents(), channels) && |sum| == channels
      && (forall ch :: 0 <= ch < channels ==> sum[ch] == Sum(Column(window.Contents(), ch)))
      && (kind.Pow2() ==> forall i, ch :: 0 <= i < window.Capacity() && 0 <= ch < channels ==>
            window.Contents()[i][ch] >= 0.0)
    }
  }

  /** The running per-channel sum of `frames`, accumulated frame by frame
      as `__from` and the `__fill_with` closure do. */
  method Accumulate(frames: seq<Frame>, n: nat) returns (sum: Frame)
    requires Uniform(frames, n)
    ensures |sum| == n
    ensures forall ch :: 0 <= ch < n ==> sum[ch] == Sum(Column(frames, ch))
  {
    sum := seq(n, _ => 0.0);
    var k := 0;
    while k < |frames|
      invariant 0 <= k <= |frames| && |sum| == n
      invariant forall ch :: 0 <= ch < n ==> sum[ch] == Sum(Column(frames[..k], ch))
    {
      forall ch | 0 <= ch < n
        ensures Column(frames[..k + 1], ch) == Column(frames[..k], ch) + [frames[k][ch]]
      {
      }
      sum := seq(n, ch requires 0 <= ch < n => sum[ch] + frames[k][ch]);
      forall ch | 0 <= ch < n
        ensures sum[ch] == Sum(Column(frames[..k + 1], ch))
      {
        SumAppend(Column(frames[..k], ch), frames[k][ch]);
      }
      k := k + 1;
    }
    assert frames[..k] == frames;
  }

  /** `__from`, behind the public `from` that asserts a non-empty buffer:
      the prepared buffer is the window, and its sum the running sum. */
  method From(kind: Kind, buffer: seq<Frame>, n: nat) returns (r: Result<SummageInner, Error>)
    requires Uniform(buffer, n)
    ensures r.Failure? <==> |buffer| == 0
    ensures r.Failure? ==> r.error == EmptyBuffer
    ensures r.Success? ==>
      && r.value.Valid(kind) && r.value.channels == n
      && |r.value.window.Contents()| == |buffer|
      && forall i :: 0 <= i < |buffer| ==> r.value.window.Contents()[i] == Prep(kind, buffer[i])
  {
    if |buffer| == 0 {
      return Failure(EmptyBuffer);
    }
    var prepared := seq(|buffer|, i requires 0 <= i < |buffer| => Prep(kind, buffer[i]));
    var sum := Accumulate(prepared, n);
    var w := Ring.From(prepared);
    assert w.Contents() == prepared;
    PreparedValid(kind, SummageInner(w, sum, n), buffer);
    r := Success(SummageInner(w, sum, n));
  }

  /** A window holding the prepared frames, with their sum, is a valid
      summage. */
  lemma PreparedValid(kind: Kind, r: SummageInner, buffer: seq<Frame>)
    requires r.window.Valid() && r.window.Capacity() > 0 && Uniform(buffer, r.channels)
    requires |r.window.Contents()| == |buffer|
    requires forall i :: 0 <= i < |buffer| ==> r.window.Contents()[i] == Prep(kind, buffer[i])
    requires |r.sum| == r.channels && Uniform(r.window.Contents(), r.channels)
    requires forall ch :: 0 <= ch < r.channels ==> r.sum[ch] == Sum(Column(r.window.Contents(), ch))
    ensures r.Valid(kind)
  {
    var fs := r.window.Contents();
    assert kind.Pow2() ==> forall i, ch :: 0 <= i < |fs| && 0 <= ch < r.channels ==> fs[i][ch] >= 0.0;
  }

  /** `__fill`: every stored frame becomes the prepared `v`, and the sum is
      that frame times the window length. */
  function Fill(kind: Kind, inner: SummageInner, v: Frame): (r: SummageInner)
    requires inner.window.Valid() && inner.window.Capacity() > 0 && |v| == inner.channels
    ensures r.Valid(kind) && r.channels == inner.channels
    ensures r.window.Capacity() == inner.window.Capacity()
    ensures forall i :: 0 <= i < |r.window.Contents()| ==> r.window.Contents()[i] == Prep(kind, v)
    ensures forall ch :: 0 <= ch < |v| ==>
      r.sum[ch] == Sum(Column(r.window.Contents(), ch))
    ensures forall ch :: 0 <= ch < |v| ==>
      r.sum[ch] == Prep(kind, v)[ch] * inner.window.Capacity() as real
  {
    var p := Prep(kind, v);
    var c := inner.window.Capacity();
    var w := Ring.Fill(inner.window, p);
    var r := SummageInner(w, seq(|p|, ch requires 0 <= ch < |p| => p[ch] * c as real), inner.channels);
    FillValid(kind, r, p);
    r
  }

  /** A window holding the prepared `p` in every slot, with the sum its
      length times `p`, is a valid summage. */
  lemma FillValid(kind: Kind, r: SummageInner, p: Frame)
    requires r.window.Valid() && r.window.Capacity() > 0 && |p| == r.channels
    requires forall i :: 0 <= i < r.window.Capacity() ==> r.window.Contents()[i] == p
    requires |r.sum| == |p| && forall ch :: 0 <= ch < |p| ==> r.sum[ch] == p[ch] * r.window.Capacity() as real
    requires kind.Pow2() ==> forall ch :: 0 <= ch < |p| ==> p[ch] >= 0.0
    ensures r.Valid(kind)
  {
    var fs := r.window.Contents();
    FillSums(fs, p);
    assert Uniform(fs, r.channels);
  }

  /** Frames that all equal `p` sum, per channel, to `p[ch]` times their
      number. */
  lemma FillSums(fs: seq<Frame>, p: Frame)
    requires forall i :: 0 <= i < |fs| ==> fs[i] == p
    ensures forall ch :: 0 <= ch < |p| ==> Sum(Column(fs, ch)) == p[ch] * |fs| as real
  {
    forall ch | 0 <= ch < |p|
      ensures Sum(Column(fs, ch)) == p[ch] * |fs| as real
    {
      assert Column(fs, ch) == seq(|fs|, _ => p[ch]);
      SumConst(|fs|, p[ch]);
    }
  }

  /** `__reset`: the window and the sum return to equilibrium (0). */
  function Reset(kind: Kind, inner: SummageInner): (r: SummageInner)
    requires inner.window.Valid() && inner.window.Capacity() > 0
    ensures r.Valid(kind) && r.channels == inner.channels
    ensures r.window.Capacity() == inner.window.Capacity()
    ensures forall i, ch :: 0 <= i < |r.window.Contents()| && 0 <= ch < r.channels ==>
      r.window.Contents()[i][ch] == 0.0
    ensures forall ch :: 0 <= ch < r.channels ==> r.sum[ch] == 0.0
  {
    var zero := seq(inner.channels, _ => 0.0);
    var r := SummageInner(Ring.Fill(inner.window, zero), zero, inner.channels);
    FillValid(kind, r, zero);
    r
  }

  /** `__from_empty` behind `from_empty`, which asserts a non-empty buffer:
      only the buffer's length is kept, at equilibrium. */
  function FromEmpty(kind: Kind, buffer: seq<Frame>, n: nat): (r: Result<SummageInner, Error>)
    ensures r.Failure? <==> |buffer| == 0
    ensures r.Failure? ==> r.error == EmptyBuffer
    ensures r.Success? ==>
      && r.value.Valid(kind) && r.value.channels == n
      && r.value.window.Capacity() == |buffer|
      && (forall i, ch :: 0 <= i < |r.value.window.Contents()| && 0 <= ch < n ==>
            r.value.window.Contents()[i][ch] == 0.0)
      && forall ch :: 0 <= ch < n ==> r.value.sum[ch] == 0.0
  {
    if |buffer| == 0 then Failure(EmptyBuffer)
    else Success(Reset(kind, SummageInner(Ring.From(buffer), seq(n, _ => 0.0), n)))
  }

  /** `__fill_with`: the closure runs once per slot, oldest first (`gen(k)`
      is its k-th frame); each frame is prepared, added to the sum and
      stored. */
  method FillWith(kind: Kind, inner: SummageInner, gen: nat -> Frame) returns (r: SummageInner)
    requires inner.window.Valid() && inner.window.Capacity() > 0
    requires forall k :: 0 <= k < inner.window.Capacity() ==> |gen(k)| == inner.channels
    ensures r.Valid(kind) && r.channels == inner.channels
    ensures r.window.Capacity() == inner.window.Capacity()
    ensures forall i :: 0 <= i < |r.window.Contents()| ==> r.window.Contents()[i] == Prep(kind, gen(i))
  {
    var prepped := (k: nat) => Prep(kind, gen(k));
    var w := Ring.FillWith(inner.window, prepped);
    var sum := Accumulate(w.Contents(), inner.channels);
    r := SummageInner(w, sum, inner.channels);
  }

  /** `__advance`: store the prepared input, add it to the sum and take away
      the evicted frame; the RMS floors the sum at 0 against rounding. */
  function Advance(kind: Kind, inner: SummageInner, input: Frame): (r: SummageInner)
    requires inner.Valid(kind) && |input| == inner.channels
    ensures r.Valid(kind) && r.channels == inner.channels
    ensures r.window.Capacity() == inner.window.Capacity()
    ensures r.window.Contents() == inner.window.Contents()[1..] + [Prep(kind, input)]
  {
    var p := Prep(kind, input);
    var (popped, w) := Ring.Push(inner.window, p);
    var raw := seq(|p|, ch requires 0 <= ch < |p| => inner.sum[ch] + p[ch] - popped[ch]);
    var sum := if kind.Sqrt() then seq(|raw|, ch requires 0 <= ch < |raw| => if raw[ch] >= 0.0 then raw[ch] else 0.0) else raw;
    var r := SummageInner(w, sum, inner.channels);
    AdvanceKeepsSum(kind, inner, p, popped, w, raw);
    r
  }

  /** The running sum after one step is the sum of the slid window, and the
      RMS floor never bites on exact arithmetic. */
  lemma AdvanceKeepsSum(kind: Kind, inner: SummageInner, p: Frame, popped: Frame, w: Ring.Fixed<Frame>, raw: Frame)
    requires inner.Valid(kind) && |p| == inner.channels
    requires kind.Pow2() ==> forall ch :: 0 <= ch < |p| ==> p[ch] >= 0.0
    requires (popped, w) == Ring.Push(inner.window, p)
    requires raw == seq(|p|, ch requires 0 <= ch < |p| => inner.sum[ch] + p[ch] - popped[ch])
    ensures w.Valid() && w.Contents() == inner.window.Contents()[1..] + [p]
    ensures forall ch :: 0 <= ch < |p| ==> raw[ch] == Sum(Column(w.Contents(), ch))
    ensures kind.Pow2() ==> forall ch :: 0 <= ch < |p| ==> raw[ch] >= 0.0
  {
    var old_ := inner.window.Contents();
    forall ch | 0 <= ch < |p|
      ensures raw[ch] == Sum(Column(w.Contents(), ch))
    {
      SlideSum(Column(old_, ch), p[ch], Column(w.Contents(), ch));
    }
    if kind.Pow2() {
      forall ch | 0 <= ch < |p|
        ensures raw[ch] >= 0.0
      {
        SumNonNegative(Column(w.Contents(), ch));
      }
    }
  }

  /** Sliding a window by one frame changes its sum by the frame added
      minus the frame evicted. */
  lemma SlideSum(c: seq<real>, x: real, c': seq<real>)
    requires |c| > 0 && c' == c[1..] + [x]
    ensures Sum(c') == Sum(c) + x - c[0]
  {
    assert c == [c[0]] + c[1..];
    SumCons(c[0], c[1..]);
    SumAppend(c[1..], x);
  }

  /** `__current` before the RMS square root: the running sum divided by the
      window length. */
  function Current(inner: SummageInner): (r: Frame)
    requires inner.window.Capacity() > 0
    ensures |r| == |inner.sum|
    ensures forall ch :: 0 <= ch < |r| ==> r[ch] * inner.window.Capacity() as real == inner.sum[ch]
    ensures forall k: Kind :: inner.Valid(k) ==>
      forall ch :: 0 <= ch < |r| ==> r[ch] == MeanOf(Column(inner.window.Contents(), ch))
  {
    seq(|inner.sum|, ch requires 0 <= ch < |inner.sum| => inner.sum[ch] / inner.window.Capacity() as real)
  }

  /** The arithmetic mean of a non-empty sequence, from scratch. */
  function MeanOf(s: seq<real>): real
    requires |s| > 0
  {
    Sum(s) / |s| as real
  }

  /** The running computation equals the naive mean of the stored window:
      the mean of the inputs for `Mean`, of their squares for `Ms` and `Rms`
      (the RMS then takes the square root). */
  lemma CurrentIsWindowMean(kind: Kind, inner: SummageInner)
    requires inner.Valid(kind)
    ensures forall ch :: 0 <= ch < inner.channels ==>
      Current(inner)[ch] == MeanOf(Column(inner.window.Contents(), ch))
  {
  }

  /** `__process`: advance, then read the current value. */
  function Process(kind: Kind, inner: SummageInner, input: Frame): (r: (Frame, SummageInner))
    requires inner.Valid(kind) && |input| == inner.channels
    ensures r.1 == Advance(kind, inner, input)
    ensures |r.0| == inner.channels
    ensures forall ch :: 0 <= ch < inner.channels ==>
      r.0[ch] == MeanOf(Column(inner.window.Contents()[1..] + [Prep(kind, input)], ch))
  {
    var next := Advance(kind, inner, input);
    (Current(next), next)
  }

  /** `__len`. */
  function Len(inner: SummageInner): (c: nat)
    requires inner.window.Valid()
    ensures c == |inner.window.Contents()|
  {
    inner.window.Capacity()
  }
}

=== FILE: wrappers.dfy ===
/** Failure-compatible wrappers shared by every module of the model: Rust's
    `Option` and `Result`, and the kinds of panic the source can raise. */
module Wrappers {

  datatype Option<+T> = None | Some(value: T)

  datatype Result<+R, +E> = Success(value: R) | Failure(error: E)

  /** The panics and assertion failures of the source, as error values. */
  datatype Error =
    | EmptyBuffer        // "buffer cannot be empty"
    | ZeroCapacity       // `lookup(..).unwrap()` on a zero-capacity ring
    | NoFramesYet        // "no frames processed yet"
    | ZeroStep           // "step size cannot be 0"
    | LoopOverflow       // `debug_assert!(num_loops <= u32::MAX)`
}
